=== FILE: README.md ===
# SAS-to-Python clinical toolkit: verified model of its comparison and PhUSE core

This project models, in Dafny, the computational core of a toolkit that ports SAS
clinical-reporting programs to Python (pandas) and to an Airflow/PySpark pipeline:

- **Dataset comparison** (`compare/macros.py`). `compvars` splits two tables' columns
  into three disjoint sets. `compare` is the PROC COMPARE stand-in, and it runs in one of
  two modes. In keyed mode it sorts both tables, counts key groups, and then drops its
  per-group findings. In positional mode it compares cell by cell, with numpy `isclose`
  tolerance on floating columns. `complibs` runs `compare` on every dataset name that two
  library directories share.
- **SAS readers** (`core/readers.py`):
  - format dispatch on the file extension;
  - column relabelling from metadata, done in place on a `DataFrame` object;
  - conversion of the SAS missing markers `.`, `.A` … `.Z`;
  - the SAS sort order, which puts missing keys first.
- **PhUSE utilities and box-plot steps**, in both the pandas version (`phuse/utils.py`,
  `phuse/boxplot.py`) and the Spark version (`utils/phuse_utils.py`,
  `scripts/data_preprocessing.py`):
  - parameter metadata, distinct counts, reference lines, axis ranges;
  - page ranges: fixed-size pages in pandas, greedy packing of visit blocks in Spark;
  - the analysis filter, outlier flags, treatment abbreviations.
- **Test helpers** (`utils/test_helpers.py`): `assert_frame_equalish` (a tolerance-aware
  frame equality) and `create_comparison_report` (counts, column partition, per-column
  summary statistics, key-column overlap, and an overall verdict).

Tables are values: `Frames.Table` is a header of named, typed columns plus rows of cells.
A cell is `Num`, `Text` or `Missing`. NaN, `None` and `pd.NA` all read as `Missing`.
Python set iteration order is unspecified, so the model treats it as a choice. A loop over
a set picks its next element with `:|`. A report built from such a loop is characterised
for every possible order; `Macros.IsReport` quantifies over the column order.
Decoders, file listings and float parsing cannot be seen from the modelled code, so they
are parameters: `readSas7bdat`, `readXport`, `Library.entries`, `parseFloat`, `show`.

Behaviours of the code that the model keeps as they are:

- Floating cells compare with numpy's `isclose`, which is asymmetric:
  `|b - c| <= atol + rtol*|c|`, with the tolerance relative to the comparison value
  (`Macros.IsCloseNotSymmetric`).
- In keyed mode `compare` computes its per-group findings into a local list and never
  stores them. A keyed report therefore always matches with zero differences
  (`Macros.KeyedModeMatches`), even when values differ.
- The float test of `compare` requires both columns to be floating (`kind in 'fc'` on
  each side).
- `compare` and `complibs` sort with pandas' default `na_position='last'`. Only
  `sas_sort_order` puts missing keys first.
- In keyed mode every row whose key holds a NaN of a float column is a group of its own,
  because NaN equals no other value (`Macros.MissingFloatKeysAreSeparateGroups`).

## Model

| member | source | states |
|---|---|---|
| Macros.CompVars | src/sas2py/compare/macros.py:27-38 | The three column sets are pairwise disjoint. left ∪ both is the first table's column set, and right ∪ both is the second's. |
| Macros.CompVarsSwap | src/sas2py/compare/macros.py:27-32 | Swapping the two tables swaps the one-sided sets and keeps the shared set. |
| Macros.CompVarsSameColumns | src/sas2py/compare/macros.py:27-32 | The tables have the same column set exactly when neither one-sided set has a member. |
| Macros.IsCloseNotSymmetric | src/sas2py/compare/macros.py:199-201 | The numpy tolerance test is not symmetric: (1, 2) is close under rtol 0.5 but (2, 1) is not. |
| Macros.Judge | src/sas2py/compare/macros.py:249-291 | Two missing cells agree. A missing-value mismatch occurs exactly when one side is missing. Off the float path, cells agree exactly when they are equal. Two numbers of floating columns agree exactly when `isclose` holds, and otherwise give a value mismatch carrying `comp - base`. |
| Macros.JudgeReflexive | src/sas2py/compare/macros.py:249-291 | With non-negative tolerances, a cell never mismatches itself. |
| Macros.ColumnFindings | src/sas2py/compare/macros.py:250-291 | A column gives at most one finding per row. Each finding names its column and row, holds both values, and carries the verdict for that row. |
| Macros.ColumnFindingsOrdered | src/sas2py/compare/macros.py:250-291 | A column's findings come in strictly ascending row order. |
| Macros.ColumnFindingsComplete | src/sas2py/compare/macros.py:250-291 | Every row whose cells do not agree has a finding for that row. |
| Macros.ColumnFindingsEmpty | src/sas2py/compare/macros.py:250-291 | A column has no findings exactly when every row agrees. |
| Macros.ScanColumn | src/sas2py/compare/macros.py:273-291 | The row loop appends exactly the column's findings, row by row. |
| Macros.CleanColumnIff | src/sas2py/compare/macros.py:245-291 | A column is clean exactly when its findings are empty. |
| Macros.ColumnsFindingsEmpty | src/sas2py/compare/macros.py:241-291 | The column-by-column findings are empty exactly when every listed column is clean. |
| Macros.ColumnsFindingsBound | src/sas2py/compare/macros.py:243-291 | The columns give at most (number of columns) × `min_rows` findings. |
| Macros.RowCountHead | src/sas2py/compare/macros.py:234-239 | A row-count finding is present exactly when the row counts differ. |
| Macros.KeySet | src/sas2py/compare/macros.py:149-150 | A row whose key holds a missing float cell is a key of its own, named by its table and row. Every other key is the key tuple of some such row, and each such row's tuple is a key. |
| Macros.KeySetPermutation | src/sas2py/compare/macros.py:143-150 | Sorting does not change a table's set of key tuples. |
| Macros.CommonKeysAreTuples | src/sas2py/compare/macros.py:152-155 | Every key the two tables share is a key tuple. A NaN key is never common. |
| Macros.LoneKeysCount | src/sas2py/compare/macros.py:149-150 | The keys of `n` rows that are their own groups are `n` distinct keys. |
| Macros.AllLoneKeys | src/sas2py/compare/macros.py:149-150 | When every row's key holds a missing float cell, the table has as many keys as rows. |
| Macros.CountGroups | src/sas2py/compare/macros.py:152-159 | Base-only plus common groups is the base key count, and likewise for comp. The key counts match exactly when the one-sided counts are equal. |
| Macros.LoneGroupCounts | src/sas2py/compare/macros.py:149-159 | When every key of both tables holds a missing float cell, each row is a one-sided group and no group is common. |
| Macros.MissingFloatKeysAreSeparateGroups | src/sas2py/compare/macros.py:142-159 | If every key of both tables holds a missing float cell, the keyed report counts each row as a one-sided group and no common group. The group counts match exactly when the row counts are equal. |
| Macros.SortedRowsLone | src/sas2py/compare/macros.py:144-145 | Sorting keeps the row count, and every row of the sorted table is a row of the original. |
| Macros.Group | src/sas2py/compare/macros.py:163-169 | A group selection keeps the header and yields a well-formed table. A key holding a missing cell selects no row, because pandas' `==` is false on missing values. |
| Macros.KeyedFindings | src/sas2py/compare/macros.py:161-232 | Each per-group finding is a row-count or a cell finding. It carries a common key and names a non-key column. |
| Macros.ScanColumns | src/sas2py/compare/macros.py:241-291 | The column loop visits every common column exactly once, in some order. Its output is exactly the findings of that order. It is empty exactly when every common column is clean on the compared rows. |
| Macros.Compare | src/sas2py/compare/macros.py:110-296 | The report satisfies `IsReport`: it holds the shape counts. In keyed mode it holds the group counts of the key sets of the sorted tables, and no differences. In positional mode it holds the row-count finding, then the findings of some order of the common columns. `match` and `difference_count` are read off the differences. |
| Macros.CompareSelfMatches | src/sas2py/compare/macros.py:110-296 | Comparing a table with itself, with non-negative tolerances, matches with zero differences in either mode. |
| Macros.PositionalMatchIff | src/sas2py/compare/macros.py:233-294 | In positional mode, the report matches exactly when the row counts are equal and every common column agrees on the shared rows. |
| Macros.PositionalDifferenceBound | src/sas2py/compare/macros.py:233-294 | A positional report has at most 1 + \|common columns\| × `min_rows` differences. |
| Macros.DistinctLength | src/sas2py/compare/macros.py:241 | A column order lists as many names as the set it enumerates. |
| Macros.KeyedModeMatches | src/sas2py/compare/macros.py:142-232 | A keyed report always matches with zero differences. Its group counts match exactly when both sides have equally many one-sided groups. |
| Macros.Stem | src/sas2py/compare/macros.py:62-63 | `splitext(f)[0]` is a prefix of the file name. |
| Macros.StemOfSasFile | src/sas2py/compare/macros.py:62-63 | For a `.sas7bdat` file (any case) with a proper name part, the stem is the name without its last nine characters. |
| Macros.SasExtension | src/sas2py/compare/macros.py:59-60 | A name whose lower-cased form ends in `.sas7bdat` has its last dot nine characters from the end. |
| Macros.SasFiles | src/sas2py/compare/macros.py:59-60 | The kept entries are exactly the listed names whose lower-cased form ends in `.sas7bdat`. |
| Macros.DatasetName | src/sas2py/compare/macros.py:62-63 | A dataset name is lower case and no longer than its file name. |
| Macros.ImageWitness | src/sas2py/compare/macros.py:62-65 | Every dataset name comes from some listed file. |
| Macros.ImageMembers | src/sas2py/compare/macros.py:62-65 | A set comprehension over a list holds exactly the images of its elements. |
| Macros.DatasetNamesMembers | src/sas2py/compare/macros.py:59-65 | A library's dataset names are exactly the names of its listed `.sas7bdat` files. |
| Macros.CommonDatasetsMembers | src/sas2py/compare/macros.py:59-65 | A dataset is common exactly when each library lists a `.sas7bdat` file of that name. |
| Macros.DatasetNamesLowerCase | src/sas2py/compare/macros.py:62-65 | Every dataset name is lower case. |
| Macros.FirstIndex | src/sas2py/compare/macros.py:72-73 | `next(...)` returns the first position that satisfies the test. |
| Macros.FirstFileFor | src/sas2py/compare/macros.py:72-73 | The chosen file is listed and has the requested dataset name. |
| Macros.JoinPath | src/sas2py/compare/macros.py:75-76 | The joined path ends with the file name. |
| Macros.JoinedSasPath | src/sas2py/compare/macros.py:75-76 | The joined path of a `.sas7bdat` file is read with the sas7bdat decoder. |
| Macros.LoadDataset | src/sas2py/compare/macros.py:72-79 | The table is the sas7bdat decoding of the first listed file of that dataset, joined to the library path, with its missing markers converted. |
| Macros.SharedSortVars | src/sas2py/compare/macros.py:82 | The kept sort variables are exactly the requested ones present in both tables. |
| Macros.SortedPair | src/sas2py/compare/macros.py:81-85 | Each table keeps its header and its rows as a multiset. With no shared sort variable both tables are unchanged. Otherwise both are ordered by the shared sort variables, with missing keys last. |
| Macros.PreparedPair | src/sas2py/compare/macros.py:72-85 | The pair is the two loaded datasets, sorted as `SortedPair` states. |
| Macros.Projected | src/sas2py/compare/macros.py:92-93 | With no shared columns the projection is an empty frame. Otherwise it keeps exactly the shared columns and every row. |
| Macros.CompareDataset | src/sas2py/compare/macros.py:87-105 | An entry holds the row counts and the column partition, plus a `compare` report of the shared columns with `by = sortvars`. |
| Macros.CompareEach | src/sas2py/compare/macros.py:69-105 | The loop produces exactly one entry per common dataset name. |
| Macros.CompLibs | src/sas2py/compare/macros.py:41-107 | A path that is not a directory fails, and the first path is checked first. Otherwise the result's keys are exactly the shared dataset names, each mapped to its entry. |
| Macros.CompLibsSelfMatches | src/sas2py/compare/macros.py:41-107 | Comparing a library with itself gives every dataset matching row counts, no one-sided columns and a matching report. |
| Readers.FormatOf | src/sas2py/core/readers.py:24-29 | sas7bdat exactly when the lower-cased path ends in `.sas7bdat`. Transport exactly when it ends in `.xpt` instead. |
| Readers.FormatOfCaseInsensitive | src/sas2py/core/readers.py:24-27 | The extension test ignores letter case. |
| Readers.ReadSas | src/sas2py/core/readers.py:11-31 | A missing file fails first, then an unsupported extension fails. Otherwise the path goes to the decoder its extension selects. |
| Readers.LabelledName | src/sas2py/core/readers.py:46-51 | A labelled column's new name starts with the old name and is longer by the label's length plus three (`name (label)`). An unlabelled one keeps its name. |
| Readers.RelabelHeader | src/sas2py/core/readers.py:45-51 | Relabelling keeps the number of columns and their dtypes. With no label map, or an empty one, nothing changes. Otherwise each name is relabelled by its own entry. |
| Readers.RelabelKeepsNamePrefix | src/sas2py/core/readers.py:46-51 | Each new name starts with the old name. It equals the old name when the column has no label. |
| Readers.DataFrame.constructor | src/sas2py/core/readers.py:34 | A frame object holds the given header and rows. |
| Readers.ApplyFormatsAndLabels | src/sas2py/core/readers.py:34-53 | The frame's columns are relabelled in place, its rows are unchanged, and the same object is returned. |
| Readers.SasMissingMarkers | src/sas2py/core/readers.py:123 | There are 27 markers, and the first is `.`. |
| Readers.SasMissingMarkersExact | src/sas2py/core/readers.py:123 | A string is in the marker list exactly when it is `.` or `.` followed by one capital letter. |
| Readers.NormalizeMissing | src/sas2py/core/readers.py:123-126 | A marker becomes missing, and any other cell is unchanged. |
| Readers.HandleSasMissing | src/sas2py/core/readers.py:113-128 | The result has the same header and row count. Each cell is converted, and no marker remains. |
| Readers.HandleSasMissingIdempotent | src/sas2py/core/readers.py:113-128 | Converting twice is converting once. |
| Readers.SasSortOrder | src/sas2py/core/readers.py:131-143 | A key that is not a column is reported (pandas raises `KeyError`). Otherwise the rows are a permutation, sorted by the keys with missing first. |
| Readers.FirstAbsent | src/sas2py/core/readers.py:142 | The first key that is not a column, if there is one. |
| Readers.MissingFirstPrefix | src/sas2py/core/readers.py:142 | In the SAS order, rows with a missing first key form a prefix. |
| RowOrder.SortTable | src/sas2py/core/readers.py:142 | Sorting keeps the header, permutes the rows, and orders them by the key columns. |
| PhuseUtils.CodeLabelPairs | src/sas2py/phuse/utils.py:24 | One (code, label) pair per row, in row order. |
| PhuseUtils.ZipToMap | src/sas2py/phuse/utils.py:26 | `dict(zip(...))` has exactly the listed codes as keys, and each value is paired with its key in the list. |
| PhuseUtils.ZipToMapLastWins | src/sas2py/phuse/utils.py:26 | A key's value comes from its last pair. |
| PhuseUtils.GetParameterMetadata | src/sas2py/phuse/utils.py:9-28 | The keys are exactly the codes of rows where both code and label are present. Each value is a present label paired with that code in some row. |
| PhuseUtils.ParameterMetadataLastWins | src/sas2py/phuse/utils.py:24-26 | A code with several labels maps to the label of the complete pair whose first occurrence comes last. |
| PhuseUtils.DistinctPairsLastWins | src/sas2py/phuse/utils.py:24-26 | The same, stated on the list of (code, label) pairs. |
| PhuseUtils.FirstOccurrenceKept | src/sas2py/phuse/utils.py:24 | After `drop_duplicates().dropna()`, a kept first occurrence is followed only by pairs that first occur later. |
| PhuseUtils.DistinctAround | src/sas2py/phuse/utils.py:24 | A first occurrence splits the first occurrences into those before it, itself, and the rest. |
| PhuseUtils.LaterFirstOccurrence | src/sas2py/phuse/utils.py:24 | A pair listed after a first occurrence does not occur up to that position. |
| PhuseUtils.ParameterMetadataFunctional | src/sas2py/phuse/utils.py:24-26 | When each code has a single label, the map gives that label. |
| PhuseUtils.CountUniqueValues | src/sas2py/phuse/utils.py:31-43 | `nunique()` counts the distinct non-missing values of the column. |
| PhuseUtils.FirstComplete | src/sas2py/phuse/utils.py:90-93 | The first row where both limits are present, or none. |
| PhuseUtils.ReferenceCandidates | src/sas2py/phuse/utils.py:72-95 | The candidates are the fixed values, plus the limits the reference type selects. |
| PhuseUtils.GetReferenceLines | src/sas2py/phuse/utils.py:46-99 | The lines are strictly increasing. `NONE`, or no limits and no fixed values, gives none. Otherwise the lines are exactly the candidate values. |
| PhuseUtils.ReferenceLinesSymmetric | src/sas2py/phuse/utils.py:77-97 | Outside `NARROW`, swapping the low and high columns gives the same lines. |
| PhuseUtils.NumbersRange | src/sas2py/phuse/utils.py:120-121 | The minimum and maximum enclose every number of the column. |
| PhuseUtils.GetVarMinMax | src/sas2py/phuse/utils.py:102-127 | An all-missing column gives (0, 1). Otherwise the result is the min and max widened by `padding` × range. |
| PhuseUtils.VarMinMaxEncloses | src/sas2py/phuse/utils.py:102-127 | With non-negative padding, the axis range contains every value. |
| PhuseUtils.PaddedEncloses | src/sas2py/phuse/utils.py:124-125 | Padding never shrinks the range. |
| PhuseUtils.FloorDiv | src/sas2py/phuse/utils.py:168 | Python floor division rounds toward minus infinity: q·b ≤ a < q·b + b for a positive divisor, and q·b + b < a ≤ q·b for a negative one. |
| PhuseUtils.FixedPages | src/sas2py/phuse/utils.py:168-174 | There are `(n + m - 1) // m` pages. |
| PhuseUtils.BoxplotBlockRanges | src/sas2py/phuse/utils.py:148-176 | Visits that `sorted` cannot order fail first (`TypeError`): text beside numbers or `None`, or `None` beside a number outside a float column. Then a zero page size fails (`ZeroDivisionError`). Otherwise the pages cover the distinct visits, `m` at a time. |
| PhuseUtils.FixedPagesNegative | src/sas2py/phuse/utils.py:168-174 | With a negative page size there is no page exactly when there are at least two visits. |
| PhuseUtils.FixedPagesCount | src/sas2py/phuse/utils.py:168-174 | There is no page exactly when there is no visit, and just enough pages hold all visits. |
| PhuseUtils.FixedPagesContiguous | src/sas2py/phuse/utils.py:171-174 | The pages start at 0, end at the last visit, and each starts right after the previous one. |
| PhuseUtils.FixedPagesSpan | src/sas2py/phuse/utils.py:171-174 | Each page holds between 1 and `m` visits. |
| Boxplot.VisitFilterOf | src/sas2py/phuse/boxplot.py:48-52 | Numeric visits filter `AVISITN`. Otherwise all-label visits filter `AVISIT` when it exists. Otherwise there is no visit filter. |
| Boxplot.FilterDataset | src/sas2py/phuse/boxplot.py:23-60 | The result keeps the header and only rows of the input that pass every active filter. |
| Boxplot.FilterDatasetAsMasks | src/sas2py/phuse/boxplot.py:43-58 | The filter is four masks applied in turn. |
| Boxplot.FilterDatasetIsOneMask | src/sas2py/phuse/boxplot.py:23-60 | The filter equals one mask made of the conjunction of the four conditions, and it keeps row order. |
| Boxplot.KeepIsAllMasks | src/sas2py/phuse/boxplot.py:45-58 | The conjunction of the four masks is `Keep`. |
| Boxplot.WhereAll | src/sas2py/phuse/boxplot.py:43-58 | A mask that keeps every row changes nothing. |
| Boxplot.OptionalWhere | src/sas2py/phuse/boxplot.py:45-58 | Skipping an inactive filter is the same as applying an all-true mask. |
| Boxplot.OutlierColumn | src/sas2py/phuse/boxplot.py:86-96 | The outlier rule on the input's limit columns: each row holds its measure when the measure is below a present low limit or above a present high limit, and missing otherwise. |
| Boxplot.DetectOutliers | src/sas2py/phuse/boxplot.py:63-98 | The result is the input with the float column `<measure>_outlier` set to the column the two passes leave. The column is first all missing. The low pass and then the high pass read their limits from the copy as it stands, so a limit named `<measure>_outlier` reads the column being built. |
| Boxplot.DetectedIsOutlierColumn | src/sas2py/phuse/boxplot.py:84-96 | When neither limit is named `<measure>_outlier`, the column the passes leave is the outlier rule on the input's limits. |
| Boxplot.OutlierAsLowLimit | src/sas2py/phuse/boxplot.py:84-90 | A low limit named `<measure>_outlier` reads the NaN just written, so the result is as if no low limit were given. |
| Boxplot.OutlierAsHighLimit | src/sas2py/phuse/boxplot.py:86-96 | A high limit named `<measure>_outlier` reads the low pass's output, so the result is as if no high limit were given. |
| Boxplot.FormatCode | src/sas2py/phuse/boxplot.py:162-171 | A code of 0, 54 or 81 maps to its abbreviation, and anything else maps to missing. |
| Boxplot.AbbreviationColumn | src/sas2py/phuse/boxplot.py:170-175 | Each row holds the abbreviation of its code, or the treatment value when the code is not mapped. |
| Boxplot.AbbreviationValues | src/sas2py/phuse/boxplot.py:170-175 | A row holds its abbreviation when the code is known, and its treatment value otherwise. |
| Boxplot.CreateTreatmentAbbreviations | src/sas2py/phuse/boxplot.py:144-178 | The result adds `<trt>_short` holding the abbreviation column, and the returned format is {0: P, 54: X-high, 81: X-low}. |
| Frames.SetColumn | src/sas2py/phuse/boxplot.py:84 | `df[name] = values` makes the column hold exactly those values with that dtype. An existing column keeps its position, a new one is appended, and every other cell is unchanged. |
| Frames.FilterRowsAppend | src/sas2py/phuse/utils.py:24 | Filtering a concatenation is concatenating the filtered parts. |
| Frames.DistinctPrefix | src/sas2py/phuse/utils.py:24 | The first occurrences of a list begin with the first occurrences of any prefix of it. |
| Boxplot.SetColumnTwice | src/sas2py/phuse/boxplot.py:171-175 | Assigning the column, then filling it, is one assignment of the final values. |
| Boxplot.SetColumnOverwrite | src/sas2py/phuse/boxplot.py:171-175 | A second assignment to the same column overwrites the first. |
| Strings.SplitWhitespace | airflow_migration/utils/phuse_utils.py:83 | `str.split()` gives non-empty words free of whitespace, which put together are the input without its whitespace. |
| Strings.NonSpaceAppend | airflow_migration/utils/phuse_utils.py:83 | Removing whitespace from a concatenation removes it from each part. |
| SparkPhuseUtils.ParseNumbers | airflow_migration/utils/phuse_utils.py:81-86 | Parsing succeeds exactly when every word parses, and the result holds the words' values in order. |
| SparkPhuseUtils.OnlyValueDistinct | airflow_migration/utils/phuse_utils.py:92-97 | When a column holds one value only, its distinct list is that value. |
| SparkPhuseUtils.UniqueValue | airflow_migration/utils/phuse_utils.py:96-99 | A line is added exactly when the limit column has a single distinct value. |
| SparkPhuseUtils.LimitLines | airflow_migration/utils/phuse_utils.py:95-109 | `UNIFORM` gives the sole low and high values. `NARROW` gives the largest low and the smallest high. `ALL` gives every limit. |
| SparkPhuseUtils.SparkGetReferenceLines | airflow_migration/utils/phuse_utils.py:54-111 | A parseable custom type gives its numbers. `NONE` gives nothing. A limit type gives strictly increasing lines that are exactly the lines its kind selects. |
| SparkPhuseUtils.SparkReferenceLinesFallback | airflow_migration/utils/phuse_utils.py:81-86 | A type that does not parse behaves as `UNIFORM`. |
| SparkPhuseUtils.BlockValues | airflow_migration/utils/phuse_utils.py:217 | The block values are strictly increasing, and they are exactly the block numbers in the column. |
| SparkPhuseUtils.CatTuple | airflow_migration/utils/phuse_utils.py:221 | A row's category tuple is its cells in the category columns. |
| SparkPhuseUtils.BoxCount | airflow_migration/utils/phuse_utils.py:221 | A block's box count is the number of distinct category tuples among its rows. |
| SparkPhuseUtils.BoxSumSnoc | airflow_migration/utils/phuse_utils.py:238-239 | Adding a block to a page adds its boxes. |
| SparkPhuseUtils.PagesOkAppend | airflow_migration/utils/phuse_utils.py:233-242 | Closing a page that fits keeps the page conditions, provided the previous page could not take the page's first block. |
| SparkPhuseUtils.FlattenAppend | airflow_migration/utils/phuse_utils.py:234 | Appending a page appends its blocks. |
| SparkPhuseUtils.PackStep | airflow_migration/utils/phuse_utils.py:230-239 | Each loop step keeps the loop state a valid partial packing of the blocks seen so far. |
| SparkPhuseUtils.GreedyPartial | airflow_migration/utils/phuse_utils.py:226-239 | The state after any prefix of the blocks is a valid partial packing. |
| SparkPhuseUtils.FinishPacking | airflow_migration/utils/phuse_utils.py:241-242 | Closing the last open page completes a greedy packing. |
| SparkPhuseUtils.PackPages | airflow_migration/utils/phuse_utils.py:226-242 | The pages hold the blocks in order, and no page is empty. A page goes over the limit only when it holds one block. A page is closed only when the next block would not fit on it. |
| SparkPhuseUtils.BoxSumPrefix | airflow_migration/utils/phuse_utils.py:233 | A prefix of a page holds no more boxes than the page. |
| SparkPhuseUtils.FirstPageMaximal | airflow_migration/utils/phuse_utils.py:233-239 | Two greedy packings of the same blocks have first pages of the same length. |
| SparkPhuseUtils.RestIsGreedy | airflow_migration/utils/phuse_utils.py:226-242 | Without its first page, a greedy packing is a greedy packing of the remaining blocks. |
| SparkPhuseUtils.GreedyPackingUnique | airflow_migration/utils/phuse_utils.py:226-242 | The greedy packing of a block list is unique, so the method's contract determines its result. |
| SparkPhuseUtils.PagesWithinLimit | airflow_migration/utils/phuse_utils.py:233-239 | A page over the box limit holds a single block. |
| SparkPhuseUtils.FlattenContains | airflow_migration/utils/phuse_utils.py:245 | Every block on a page is one of the packed blocks. |
| SparkPhuseUtils.BlockBoxes | airflow_migration/utils/phuse_utils.py:219-224 | The box map has the block values as keys, and each block maps to its box count. |
| SparkPhuseUtils.CountBoxes | airflow_migration/utils/phuse_utils.py:219-222 | The counting loop maps every block to its box count. |
| SparkPhuseUtils.Shown | airflow_migration/utils/phuse_utils.py:246 | Each value is rendered with `str`, in page order. |
| SparkPhuseUtils.FilterExpression | airflow_migration/utils/phuse_utils.py:246 | An expression reads `<block> IN (` and ends with `)`. An empty page gives `<block> IN ()`, and a single-block page shows exactly that value. |
| SparkPhuseUtils.FilterExpressionSnoc | airflow_migration/utils/phuse_utils.py:246 | One more value on a page adds `, ` and that value's text before the `)`, so the values appear in page order, separated by `, `. |
| Strings.JoinSnoc | airflow_migration/utils/phuse_utils.py:246 | `sep.join` of one more part is the previous join, the separator and that part. |
| Strings.JoinLength | airflow_migration/utils/phuse_utils.py:246 | A join is as long as its parts plus one separator between each neighbouring pair. |
| SparkPhuseUtils.FilterExpressions | airflow_migration/utils/phuse_utils.py:244-249 | There is one expression per page, in page order. |
| SparkPhuseUtils.SparkBoxplotBlockRanges | airflow_migration/utils/phuse_utils.py:197-249 | The pages are the greedy packing of the sorted distinct blocks under their box counts, with one filter expression per page. There is no expression exactly when the table has no rows. |
| SparkPhuseUtils.SparkOutlierColumn | airflow_migration/utils/phuse_utils.py:306-313 | A row holds its measure exactly when the measure is below a present low limit or above a present high limit, and missing otherwise. |
| SparkPhuseUtils.SparkDetectOutliers | airflow_migration/utils/phuse_utils.py:288-313 | `withColumn` sets `<measure>_outlier` to the outlier column, with the measure's type. It replaces an existing column in place, or else appends exactly one column at the end. Every other header entry keeps its position, name and type, and every other cell is kept. |
| SparkPhuseUtils.SparkOutliersAgree | airflow_migration/utils/phuse_utils.py:306-313 | With both limit columns given, the Spark outlier column equals the pandas rule on the input's limits. By `Boxplot.DetectedIsOutlierColumn`, that is the pandas result whenever no limit is named `<measure>_outlier`. |
| DataPreprocessing.FilterDatasetSpark | airflow_migration/scripts/data_preprocessing.py:37-73 | The result keeps the header and exactly the input rows that pass the configured parameter, visit and flag filters, using the documented defaults. |
| DataPreprocessing.FilterDatasetSparkAsMasks | airflow_migration/scripts/data_preprocessing.py:59-73 | The filter is four masks applied in turn. |
| DataPreprocessing.KeepRowIsAllMasks | airflow_migration/scripts/data_preprocessing.py:61-71 | The conjunction of the four masks is `KeepRow`. |
| DataPreprocessing.FilterDatasetSparkIsOneMask | airflow_migration/scripts/data_preprocessing.py:37-73 | The filter equals one `KeepRow` mask and keeps row order. |
| DataPreprocessing.AbbreviateTreatment | airflow_migration/scripts/data_preprocessing.py:103-111 | 0, 54 and 81 map to P, X-high and X-low, and every other value, including null, maps to UNEXPECTED. |
| DataPreprocessing.AbbreviationsAgreeWithFormat | airflow_migration/scripts/data_preprocessing.py:103-111 | On the three known codes the Spark abbreviation equals the pandas format. Where pandas falls back to the treatment value, Spark says UNEXPECTED. |
| DataPreprocessing.AbbreviationCells | airflow_migration/scripts/data_preprocessing.py:113-115 | Each row holds the abbreviation of its treatment code. |
| DataPreprocessing.CreateTreatmentAbbreviationsSpark | airflow_migration/scripts/data_preprocessing.py:76-115 | `trtp_short` is an object (string) column holding each row's abbreviation. Every other header entry keeps its position, name and type, and every other cell is kept. |
| TestHelpers.SortedFor | src/sas2py/utils/test_helpers.py:30-32 | With no `sort_by` the frame is unchanged. Otherwise the header is kept, the rows are permuted, and they are ordered by the `sort_by` columns with missing keys last. |
| TestHelpers.SharedColumn | src/sas2py/utils/test_helpers.py:38-40 | When the column sets are equal, each column of `a` exists in `b`. |
| TestHelpers.AssertFrameEqualish | src/sas2py/utils/test_helpers.py:9-58 | It passes exactly when the frames are equalish. Otherwise it reports the first failing assertion, in order: row counts (with both counts), column sets (with both one-sided sets), or the first column whose values differ. The string check renders a number by its column's dtype. |
| TestHelpers.RenderingFollowsDType | src/sas2py/utils/test_helpers.py:50-58 | A number `v` in a column of dtype `d` agrees with the text `show(d, v)` in an object column. So an integer `1` can agree with `"1"` while a float `1.0` agrees with `"1.0"`. |
| TestHelpers.ColumnAgreesWithItself | src/sas2py/utils/test_helpers.py:40-58 | With non-negative tolerances, a column agrees with itself. |
| TestHelpers.EqualishReflexive | src/sas2py/utils/test_helpers.py:9-58 | A frame whose numeric columns hold no text is equalish to itself. |
| TestHelpers.CompareCounts | src/sas2py/utils/test_helpers.py:88-98 | The count entry holds both counts. It matches exactly when they are equal, and `diff` is their distance. |
| TestHelpers.CountsCoverColumn | src/sas2py/utils/test_helpers.py:119-128 | Without text, the numbers and the missing cells together account for every row. |
| TestHelpers.Summarize | src/sas2py/utils/test_helpers.py:119-137 | `count` is the number of present values and `null_count` the number of missing ones. The mean, min and max exist exactly when a value exists. The min and max are values of the column that bound all the others. |
| TestHelpers.CompareMeans | src/sas2py/utils/test_helpers.py:140-153 | The absolute difference exists when both means do. The relative difference exists when base mean ≠ 0, and is abs diff / \|base mean\|. Within tolerance exactly when abs ≤ atol or rel ≤ rtol. |
| TestHelpers.NumericChoice | src/sas2py/utils/test_helpers.py:108-116 | By default the numeric columns are the common columns numeric on both sides. Otherwise they are the requested columns that are common. |
| TestHelpers.KeyChoice | src/sas2py/utils/test_helpers.py:155-156 | The key columns are the requested columns that are common. |
| TestHelpers.TakeUpTo | src/sas2py/utils/test_helpers.py:168-169 | `list(s)[:10]`: up to ten distinct members of the set, and all of them when there are at most ten. |
| TestHelpers.CompareKeyColumn | src/sas2py/utils/test_helpers.py:158-171 | The entry holds both `nunique` counts, `match` when they are equal, samples of each one-sided set, and the size of the overlap. |
| TestHelpers.CompareNumericColumns | src/sas2py/utils/test_helpers.py:118-153 | There is one entry per chosen numeric column, holding its summaries and the mean comparison. |
| TestHelpers.CompareKeyColumns | src/sas2py/utils/test_helpers.py:155-171 | There is one key entry per chosen key column. |
| TestHelpers.NamePartition | src/sas2py/utils/test_helpers.py:100-102 | only-in-a, only-in-b and common partition the union of the column sets. Both one-sided sets are empty exactly when the sets are equal. |
| TestHelpers.CreateComparisonReport | src/sas2py/utils/test_helpers.py:61-179 | The report holds the row and column counts and the column partition, plus the numeric and key entries of exactly the chosen columns. `overall_match` holds exactly when the row counts and column sets agree and every numeric column is within tolerance. |
| TestHelpers.SelfMeansWithinTolerance | src/sas2py/utils/test_helpers.py:140-145 | Comparing a column with itself is within tolerance exactly when the column holds a number; an all-missing column is not. |
| TestHelpers.SummaryCountsRows | src/sas2py/utils/test_helpers.py:127-128 | Without text, count plus null count is the number of rows. |

## Left out

- Binary decoding of `.sas7bdat` and `.xpt` files is not modelled. The decoders and the
  directory listing are parameters of the model, and a file is assumed to exist once it
  is listed.
- The date, datetime and time conversions (`core/readers.py:56-111`) are not modelled,
  because they involve calendar arithmetic and floating point.
- Logging is not modelled. Plotting, `calculate_stats`, `generate_boxplot` and the other
  drivers that read configuration or write files are not part of this model either.
  CLIs, the Spark session, `preprocess_data`/`main` and the Airflow DAG are likewise not
  part of this model.
- Some operations are outside the chosen core and are not modelled:
  - `value_format` in both versions;
  - `axis_order`;
  - `labels_from_var`;
  - the Spark `count_unique_values` and `get_var_min_max`;
  - `compare_datasets`.
- Reals stand for floats. There is no overflow, no rounding, and no NaN arithmetic. A
  missing cell of a float column is NaN: as a group key it is a group of its own. A missing
  cell of any other column is the single `None`, which groups with itself. An object
  column holding several distinct NaN float objects is not distinguished from one
  holding `None`.
- Macros.Compare: in keyed mode the pandas sort is modelled as one stable order.
  pandas' default quicksort is not stable, so rows with equal keys may appear in a
  different order. The report does not depend on this, because keyed findings are
  dropped.
- Macros.PreparedPair: the sort by the shared sort variables is one stable order. pandas'
  default quicksort is not stable, so rows with equal keys may come out in another order,
  and positional findings on those rows can then differ.
- Macros.CompLibs: `Strings.Lower` folds only ASCII letters, where `str.lower` folds all
  of Unicode. File names such as `ÉTUDE.sas7bdat` and `étude.sas7bdat` give different
  dataset names in the model and the same name in Python.
- PhuseUtils.BoxplotBlockRanges: the order `sorted` gives to mixed ints and floats is the
  numeric order of the model's reals.
- TestHelpers.SortedFor: the sort is one admissible stable order of equal keys. Where
  `sort_values` may order equal keys differently, positional checks can differ.
- RowOrder.SortTable: numbers sort before text in a mixed key column, where pandas
  raises `TypeError`.
- Spark resolves column names without regard to case by default. The model matches
  names exactly.
- Strings.SplitWhitespace: whitespace is ASCII only. `str.split()` also splits on
  Unicode spaces such as U+0085 and U+00A0. Its contract does not state that each word
  is a maximal run, only that the words are whitespace-free and spell out the input
  without its whitespace.
- Text cells in numeric roles count as non-numbers. This covers limit columns and the
  measure of an outlier test, where pandas would raise `TypeError` on the comparison.
- SparkPhuseUtils.SparkBoxplotBlockRanges: it requires every block cell to be a number.
  Null or text block values, which Spark would sort and show, are not modelled.
- TestHelpers.AssertFrameEqualish: the string form of a number is the parameter `show`,
  which sees the column's dtype and the value. An object column holding Python `int` and
  `float` objects renders both kinds the same way, because a cell does not record which
  kind of number it holds.
- SparkPhuseUtils.FilterExpression: `str(val)` is the parameter `show`, so Python's
  float formatting is not modelled.
- SparkPhuseUtils.SparkGetReferenceLines: `float(x)` is the parameter `parseFloat`. The
  parsed branch returns the numbers unsorted, as the code does.
- TestHelpers.CreateComparisonReport: the count and numeric entries are dictionaries
  keyed by `name_a` and `name_b`. When `name_a` equals `match` or `diff`, or equals
  `name_b`, keys collide: `row_counts` and `column_counts` keep only the later value, and
  a numeric entry keeps only the `b` summary. The model does not capture this. Its
  report holds both counts and both summaries as separate fields.
- TestHelpers.CreateComparisonReport: it requires that no chosen numeric column holds
  text. pandas raises `TypeError` when it takes the mean of strings.
- TestHelpers.Summarize: `std` is not modelled, because it needs a square root.
- TestHelpers.CompareMeans: the relative difference is stated by its product with
  |base mean|, with no division.
- TestHelpers.TakeUpTo: it picks an arbitrary element order, standing for set iteration
  order.
- Macros.KeyedFindings: it states which keys and columns each dropped finding names. It
  does not state that the list is complete, because the list never reaches the report.
- Macros.Projected: `ds[vars_both]` orders the columns by set iteration. The model keeps
  the table's own order, which no report field depends on.
- Errors that the code raises from pandas or Spark are preconditions on the members
  instead of modelled error results, with the exceptions named below:
  - a `KeyError` for a column that does not exist, except in `Readers.SasSortOrder`,
    which returns a `Failure` naming the first absent key;
  - a `TypeError` from arithmetic on text: the mean of a text column, a precondition of
    `TestHelpers.CreateComparisonReport`, and `data_max - data_min`, a precondition
    (`NumericColumn`) of `PhuseUtils.GetVarMinMax`;
  - an `AnalysisException` for a column that Spark cannot resolve.
  The exceptions that the source raises itself, and one `TypeError`, are modelled as
  `Failure` values:
  - `FileNotFoundError`;
  - the unsupported-format error;
  - a path that is not a directory;
  - an absent sort key in `sas_sort_order`;
  - a zero page size;
  - unorderable visits in `boxplot_block_ranges`, the `TypeError` of its `sorted`.
  The other `TypeError`s from comparing text with numbers are neither preconditions nor
  errors in the model:
  - `RowOrder.SortTable` orders numbers before text;
  - limit and outlier comparisons treat text as a non-number;
  - PhuseUtils.GetReferenceLines: for `UNIFORM` and `ALL` the code evaluates
    `df[var_col].min()` and `.max()`, which raise `TypeError` on a column mixing text and
    numbers. The model does not read those values and returns the lines.
- DataPreprocessing.FilterDatasetSpark: a configuration entry that is present but null is
  not a separate case of the model. In the code such a `None` acts like an empty list, or
  like a flag name that is not a column. Callers express it as `Some([])` or as `Some` of
  an absent name.

=== FILE: boxplot.dfy ===
/**
 * The data steps of the pandas PhUSE box plot: the row filter on parameter, visit and
 * population flags, the normal-range outlier column, and the treatment abbreviations.
 */
module Boxplot {
  import opened Wrappers
  import opened Frames
  import opened PhuseUtils

  /** One entry of the `visits` argument: a visit number (int or float) or a visit label (str). */
  datatype Visit = VisitNumber(number: real) | VisitLabel(name: string)

  predicate AllNumbers(visits: seq<Visit>) {
    forall v :: v in visits ==> v.VisitNumber?
  }

  predicate AllLabels(visits: seq<Visit>) {
    forall v :: v in visits ==> v.VisitLabel?
  }

  /** `cell.isin(values)` for a list of strings. */
  predicate TextIn(c: Cell, values: set<string>) {
    c.Text? && c.text in values
  }

  /** `cell.isin(values)` for a list of numbers. */
  predicate NumberIn(c: Cell, values: set<real>) {
    c.Num? && c.value in values
  }

  /** The PARAMCD filter applies when the column exists and some codes are asked for. */
  predicate ParamFilterActive(t: Table, paramCodes: seq<string>) {
    HasColumn(t, "PARAMCD") && paramCodes != []
  }

  /** A flag filter applies when a flag column is named and exists. */
  predicate FlagFilterActive(t: Table, flag: Option<string>) {
    Given(flag) && HasColumn(t, flag.value)
  }

  /** Which of the two visit filters `filter_dataset` applies, if any. */
  datatype VisitFilter = NoVisitFilter | ByNumber(numbers: set<real>) | ByLabel(labels: set<string>)

  /**
   * Visits are filtered only when some are given and AVISITN exists: an all-numeric list on
   * AVISITN, an all-string list on AVISIT when that column exists, a mixed list not at all.
   */
  function VisitFilterOf(t: Table, visits: seq<Visit>): (f: VisitFilter)
    ensures f != NoVisitFilter ==> visits != [] && HasColumn(t, "AVISITN")
    ensures f.ByNumber? ==> AllNumbers(visits) && f.numbers == set v | v in visits :: v.number
    ensures f.ByLabel? ==> !AllNumbers(visits) && AllLabels(visits) && HasColumn(t, "AVISIT")
                           && f.labels == set v | v in visits :: v.name
    ensures f == NoVisitFilter ==>
              visits == [] || !HasColumn(t, "AVISITN") || (!AllNumbers(visits) && !(AllLabels(visits) && HasColumn(t, "AVISIT")))
  {
    if visits != [] && HasColumn(t, "AVISITN") then
      if AllNumbers(visits) then ByNumber(set v | v in visits :: v.number)
      else if AllLabels(visits) && HasColumn(t, "AVISIT") then ByLabel(set v | v in visits :: v.name)
      else NoVisitFilter
    else NoVisitFilter
  }

  /** The PARAMCD mask; it keeps every row when the filter does not apply. */
  function ParamMask(t: Table, paramCodes: seq<string>): Row -> bool {
    row => !ParamFilterActive(t, paramCodes) || TextIn(ColumnCell(t, row, "PARAMCD"), set c | c in paramCodes)
  }

  /** The visit mask; it keeps every row when no visit filter applies. */
  function VisitMask(t: Table, visits: seq<Visit>): Row -> bool {
    row =>
      match VisitFilterOf(t, visits)
      case NoVisitFilter => true
      case ByNumber(numbers) => NumberIn(ColumnCell(t, row, "AVISITN"), numbers)
      case ByLabel(labels) => TextIn(ColumnCell(t, row, "AVISIT"), labels)
  }

  /** The mask `df[flag] == 'Y'`; it keeps every row when the flag filter does not apply. */
  function FlagMask(t: Table, flag: Option<string>): Row -> bool {
    row => !FlagFilterActive(t, flag) || ColumnCell(t, row, flag.value) == Text("Y")
  }

  /**
   * `filter_dataset(df, param_codes, visits, population_flag, analysis_flag)`: the four
   * optional filters applied one after the other (an absent `visits` is the empty list).
   */
  function FilterDataset(t: Table, paramCodes: seq<string>, visits: seq<Visit>,
                         populationFlag: Option<string>, analysisFlag: Option<string>): (r: Table)
    requires WellFormed(t)
    ensures WellFormed(r) && r.header == t.header && |r.rows| <= |t.rows|
  {
    var byParam := if ParamFilterActive(t, paramCodes) then Where(t, ParamMask(t, paramCodes)) else t;
    var byVisit := if VisitFilterOf(t, visits) != NoVisitFilter then Where(byParam, VisitMask(t, visits)) else byParam;
    var byPopulation := if FlagFilterActive(t, populationFlag) then Where(byVisit, FlagMask(t, populationFlag)) else byVisit;
    if FlagFilterActive(t, analysisFlag) then Where(byPopulation, FlagMask(t, analysisFlag)) else byPopulation
  }

  /** The rows `filter_dataset` keeps: those that pass every filter that applies. */
  predicate Keep(t: Table, paramCodes: seq<string>, visits: seq<Visit>,
                 populationFlag: Option<string>, analysisFlag: Option<string>, row: Row) {
    && (ParamFilterActive(t, paramCodes) ==> TextIn(ColumnCell(t, row, "PARAMCD"), set c | c in paramCodes))
    && (VisitFilterOf(t, visits).ByNumber? ==> NumberIn(ColumnCell(t, row, "AVISITN"), VisitFilterOf(t, visits).numbers))
    && (VisitFilterOf(t, visits).ByLabel? ==> TextIn(ColumnCell(t, row, "AVISIT"), VisitFilterOf(t, visits).labels))
    && (FlagFilterActive(t, populationFlag) ==> ColumnCell(t, row, populationFlag.value) == Text("Y"))
    && (FlagFilterActive(t, analysisFlag) ==> ColumnCell(t, row, analysisFlag.value) == Text("Y"))
  }

  function KeepMask(t: Table, paramCodes: seq<string>, visits: seq<Visit>,
                    populationFlag: Option<string>, analysisFlag: Option<string>): Row -> bool {
    row => Keep(t, paramCodes, visits, populationFlag, analysisFlag, row)
  }

  /** A mask that holds on every row changes nothing. */
  lemma WhereAll(t: Table, keep: Row -> bool)
    requires WellFormed(t) && forall row :: keep(row)
    ensures Where(t, keep) == t
  {
    FilterRowsKeepsAll(t.rows, keep);
  }

  lemma {:induction false} FilterRowsKeepsAll(s: seq<Row>, keep: Row -> bool)
    requires forall row :: keep(row)
    ensures FilterRows(s, keep) == s
  {
    if s != [] {
      FilterRowsKeepsAll(s[1..], keep);
    }
  }

  /** An optional filter is a mask that holds on every row when the filter does not apply. */
  lemma OptionalWhere(s: Table, active: bool, keep: Row -> bool)
    requires WellFormed(s) && (!active ==> forall row :: keep(row))
    ensures (if active then Where(s, keep) else s) == Where(s, keep)
  {
    if !active {
      WhereAll(s, keep);
    }
  }

  /** `filter_dataset` is the four masks applied in turn. */
  lemma FilterDatasetAsMasks(t: Table, paramCodes: seq<string>, visits: seq<Visit>,
                             populationFlag: Option<string>, analysisFlag: Option<string>)
    requires WellFormed(t)
    ensures FilterDataset(t, paramCodes, visits, populationFlag, analysisFlag)
            == Where(Where(Where(Where(t, ParamMask(t, paramCodes)), VisitMask(t, visits)),
                           FlagMask(t, populationFlag)), FlagMask(t, analysisFlag))
  {
    var pm, vm := ParamMask(t, paramCodes), VisitMask(t, visits);
    var fm1, fm2 := FlagMask(t, populationFlag), FlagMask(t, analysisFlag);
    OptionalWhere(t, ParamFilterActive(t, paramCodes), pm);
    var byParam := Where(t, pm);
    OptionalWhere(byParam, VisitFilterOf(t, visits) != NoVisitFilter, vm);
    var byVisit := Where(byParam, vm);
    OptionalWhere(byVisit, FlagFilterActive(t, populationFlag), fm1);
    var byPopulation := Where(byVisit, fm1);
    OptionalWhere(byPopulation, FlagFilterActive(t, analysisFlag), fm2);
  }

  /**
   * The chain of filters is one mask: `filter_dataset` keeps, in their original order and
   * under the original header, exactly the rows that pass every filter that applies.
   */
  lemma FilterDatasetIsOneMask(t: Table, paramCodes: seq<string>, visits: seq<Visit>,
                               populationFlag: Option<string>, analysisFlag: Option<string>)
    requires WellFormed(t)
    ensures FilterDataset(t, paramCodes, visits, populationFlag, analysisFlag)
            == Where(t, KeepMask(t, paramCodes, visits, populationFlag, analysisFlag))
  {
    var pm, vm := ParamMask(t, paramCodes), VisitMask(t, visits);
    var fm1, fm2 := FlagMask(t, populationFlag), FlagMask(t, analysisFlag);
    FilterDatasetAsMasks(t, paramCodes, visits, populationFlag, analysisFlag);
    WhereTwice(t, pm, vm);
    WhereTwice(t, Both(pm, vm), fm1);
    WhereTwice(t, Both(Both(pm, vm), fm1), fm2);
    var all := Both(Both(Both(pm, vm), fm1), fm2);
    var keep := KeepMask(t, paramCodes, visits, populationFlag, analysisFlag);
    KeepIsAllMasks(t, paramCodes, visits, populationFlag, analysisFlag);
    FilterRowsExt(t.rows, all, keep);
  }

  lemma KeepIsAllMasks(t: Table, paramCodes: seq<string>, visits: seq<Visit>,
                       populationFlag: Option<string>, analysisFlag: Option<string>)
    ensures forall row ::
              Both(Both(Both(ParamMask(t, paramCodes), VisitMask(t, visits)), FlagMask(t, populationFlag)),
                   FlagMask(t, analysisFlag))(row)
              == KeepMask(t, paramCodes, visits, populationFlag, analysisFlag)(row)
  {
  }

  /** `f"{measure_var}_outlier"` */
  function OutlierName(measureVar: string): string {
    measureVar + "_outlier"
  }

  /** A limit column takes part when it is named and exists. */
  predicate LimitUsed(t: Table, limit: Option<string>) {
    Given(limit) && HasColumn(t, limit.value)
  }

  /** The limit cell of `row`, or missing when that limit takes no part. */
  function LimitCell(t: Table, row: Row, limit: Option<string>): Cell {
    if LimitUsed(t, limit) then ColumnCell(t, row, limit.value) else Missing
  }

  /** The measure cell of `row`; the measure is read only when some limit takes part. */
  function MeasureCell(t: Table, row: Row, measureVar: string): Cell {
    if HasColumn(t, measureVar) then ColumnCell(t, row, measureVar) else Missing
  }

  /** The outlier column the rule gives, row by row. */
  function OutlierColumn(t: Table, measureVar: string, lowVar: Option<string>, highVar: Option<string>): (vs: seq<Cell>)
    ensures |vs| == |t.rows|
    ensures forall i :: 0 <= i < |t.rows| ==>
              vs[i] == OutlierValue(MeasureCell(t, t.rows[i], measureVar),
                                    LimitCell(t, t.rows[i], lowVar), LimitCell(t, t.rows[i], highVar))
  {
    seq(|t.rows|, i requires 0 <= i < |t.rows| =>
      OutlierValue(MeasureCell(t, t.rows[i], measureVar), LimitCell(t, t.rows[i], lowVar), LimitCell(t, t.rows[i], highVar)))
  }

  /**
   * A limit is read when it is named and is a column of the copy, which by then also holds
   * `<measure>_outlier`.
   */
  predicate LimitTakesPart(t: Table, measureVar: string, limit: Option<string>) {
    Given(limit) && (HasColumn(t, limit.value) || limit.value == OutlierName(measureVar))
  }

  /** The low limit of `row` as the low pass reads it, after `<measure>_outlier` was set to NaN. */
  function LowLimitCell(t: Table, row: Row, measureVar: string, lowVar: Option<string>): Cell {
    if Given(lowVar) && lowVar.value == OutlierName(measureVar) then Missing else LimitCell(t, row, lowVar)
  }

  /** The outlier cell of `row` after the low pass. */
  function LowPassCell(t: Table, row: Row, measureVar: string, lowVar: Option<string>): Cell {
    OutlierValue(MeasureCell(t, row, measureVar), LowLimitCell(t, row, measureVar, lowVar), Missing)
  }

  /** The high limit of `row` as the high pass reads it, after the low pass. */
  function HighLimitCell(t: Table, row: Row, measureVar: string, lowVar: Option<string>, highVar: Option<string>): Cell {
    if Given(highVar) && highVar.value == OutlierName(measureVar) then LowPassCell(t, row, measureVar, lowVar)
    else LimitCell(t, row, highVar)
  }

  /** The outlier column `detect_outliers` leaves: the rule applied to the limits each pass reads. */
  function DetectedColumn(t: Table, measureVar: string, lowVar: Option<string>, highVar: Option<string>): (vs: seq<Cell>)
    ensures |vs| == |t.rows|
  {
    seq(|t.rows|, i requires 0 <= i < |t.rows| =>
      OutlierValue(MeasureCell(t, t.rows[i], measureVar), LowLimitCell(t, t.rows[i], measureVar, lowVar),
                   HighLimitCell(t, t.rows[i], measureVar, lowVar, highVar)))
  }

  /**
   * `detect_outliers(df, measure_var, low_var, high_var)`: a copy with a float column
   * `<measure>_outlier`, first all missing, then set to the measure on the rows below the
   * low limit and then on the rows above the high limit. Each pass reads its limit from the
   * copy as it stands, so a limit named `<measure>_outlier` reads the column being built.
   */
  method DetectOutliers(t: Table, measureVar: string, lowVar: Option<string>, highVar: Option<string>) returns (r: Table)
    requires WellFormed(t)
    requires LimitTakesPart(t, measureVar, lowVar) || LimitTakesPart(t, measureVar, highVar) ==> HasColumn(t, measureVar)
    ensures r == SetColumn(t, OutlierName(measureVar), Float, DetectedColumn(t, measureVar, lowVar, highVar))
  {
    var n, out := |t.rows|, OutlierName(measureVar);
    var flagged: seq<Cell> := seq(n, i => Missing);
    if LimitTakesPart(t, measureVar, lowVar) {
      var j := IndexOf(t.header, measureVar);
      var lows := if lowVar.value == out then flagged else ColumnValues(t, lowVar.value);
      flagged := seq(n, i requires 0 <= i < n =>
        var m, lo := t.rows[i][j], lows[i];
        if m.Num? && lo.Num? && m.value < lo.value then m else flagged[i]);
    }
    assert forall i :: 0 <= i < n ==> flagged[i] == LowPassCell(t, t.rows[i], measureVar, lowVar);
    if LimitTakesPart(t, measureVar, highVar) {
      var j := IndexOf(t.header, measureVar);
      var highs := if highVar.value == out then flagged else ColumnValues(t, highVar.value);
      flagged := seq(n, i requires 0 <= i < n =>
        var m, hi := t.rows[i][j], highs[i];
        if m.Num? && hi.Num? && m.value > hi.value then m else flagged[i]);
    }
    assert flagged == DetectedColumn(t, measureVar, lowVar, highVar);
    r := SetColumn(t, out, Float, flagged);
  }

  /** When neither limit is `<measure>_outlier`, the column is the rule on the input's limits. */
  lemma DetectedIsOutlierColumn(t: Table, measureVar: string, lowVar: Option<string>, highVar: Option<string>)
    requires !(Given(lowVar) && lowVar.value == OutlierName(measureVar))
    requires !(Given(highVar) && highVar.value == OutlierName(measureVar))
    ensures DetectedColumn(t, measureVar, lowVar, highVar) == OutlierColumn(t, measureVar, lowVar, highVar)
  {
  }

  /** A low limit named `<measure>_outlier` reads the NaN just written, so it flags no row. */
  lemma OutlierAsLowLimit(t: Table, measureVar: string, highVar: Option<string>)
    ensures DetectedColumn(t, measureVar, Some(OutlierName(measureVar)), highVar)
            == DetectedColumn(t, measureVar, None, highVar)
  {
  }

  /**
   * A high limit named `<measure>_outlier` reads the low pass's output, which is missing or
   * the measure itself, so it flags no further row.
   */
  lemma OutlierAsHighLimit(t: Table, measureVar: string, lowVar: Option<string>)
    ensures DetectedColumn(t, measureVar, lowVar, Some(OutlierName(measureVar)))
            == DetectedColumn(t, measureVar, lowVar, None)
  {
  }

  /** `trt_format`: the PROC FORMAT codes of placebo, high dose and low dose. */
  function TrtFormat(): map<real, string> {
    map[0.0 := "P", 54.0 := "X-high", 81.0 := "X-low"]
  }

  /** `series.map(trt_format)` on one cell: the label of a known code, missing otherwise. */
  function FormatCode(c: Cell): (d: Cell)
    ensures d == Missing <==> !(c.Num? && c.value in TrtFormat())
    ensures d != Missing ==> d == Text(TrtFormat()[c.value])
  {
    if c.Num? && c.value in TrtFormat() then Text(TrtFormat()[c.value]) else Missing
  }

  /** The column the codes are read from: `trt_n_var` when named and present, `trt_var` otherwise. */
  function CodeColumn(t: Table, trtVar: string, trtNVar: Option<string>): string {
    if Given(trtNVar) && HasColumn(t, trtNVar.value) then trtNVar.value else trtVar
  }

  /** The abbreviation column: the label of the row's code, or else the row's treatment. */
  function AbbreviationColumn(t: Table, trtVar: string, trtNVar: Option<string>): (vs: seq<Cell>)
    requires WellFormed(t) && HasColumn(t, trtVar)
    ensures |vs| == |t.rows|
    ensures forall i :: 0 <= i < |t.rows| ==>
              var code := ColumnCell(t, t.rows[i], CodeColumn(t, trtVar, trtNVar));
              if code.Num? && code.value in TrtFormat() then vs[i] == Text(TrtFormat()[code.value])
              else vs[i] == ColumnCell(t, t.rows[i], trtVar)
  {
    var c := CodeColumn(t, trtVar, trtNVar);
    seq(|t.rows|, i requires 0 <= i < |t.rows| =>
      var mapped := FormatCode(ColumnCell(t, t.rows[i], c));
      if mapped == Missing then ColumnCell(t, t.rows[i], trtVar) else mapped)
  }

  /** Every abbreviation is one of the three labels or the row's own treatment value. */
  lemma AbbreviationValues(t: Table, trtVar: string, trtNVar: Option<string>, i: nat)
    requires WellFormed(t) && HasColumn(t, trtVar) && i < |t.rows|
    ensures var v := AbbreviationColumn(t, trtVar, trtNVar)[i];
            v in {Text("P"), Text("X-high"), Text("X-low"), ColumnCell(t, t.rows[i], trtVar)}
  {
  }

  /**
   * `create_treatment_abbreviations(df, trt_var, trt_n_var)`: a copy with the object column
   * `<trt>_short` (codes mapped, then the gaps filled from `trt_var`), and the format map.
   */
  method CreateTreatmentAbbreviations(t: Table, trtVar: string, trtNVar: Option<string>)
    returns (r: Table, format: map<int, string>)
    requires WellFormed(t) && HasColumn(t, trtVar)
    ensures r == SetColumn(t, trtVar + "_short", Object, AbbreviationColumn(t, trtVar, trtNVar))
    ensures format.Keys == {0, 54, 81}
    ensures format[0] == "P" && format[54] == "X-high" && format[81] == "X-low"
  {
    var n := |t.rows|;
    var abbrevCol := trtVar + "_short";
    var codeCol := CodeColumn(t, trtVar, trtNVar);
    var mapped := seq(n, i requires 0 <= i < n => FormatCode(ColumnCell(t, t.rows[i], codeCol)));
    var first := SetColumn(t, abbrevCol, Object, mapped);
    // `fillna(result[trt_var])`: the treatment column is not the abbreviation column, so it is still `t`'s.
    var filled := seq(n, i requires 0 <= i < n => if mapped[i] == Missing then ColumnCell(t, t.rows[i], trtVar) else mapped[i]);
    assert filled == AbbreviationColumn(t, trtVar, trtNVar);
    r := SetColumnTwice(t, abbrevCol, Object, mapped, filled);
    format := map[0 := "P", 54 := "X-high", 81 := "X-low"];
  }

  /** Assigning a column twice leaves the second assignment. */
  function SetColumnTwice(t: Table, name: string, dtype: DType, first: seq<Cell>, second: seq<Cell>): (r: Table)
    requires WellFormed(t) && |first| == |t.rows| && |second| == |t.rows|
    ensures r == SetColumn(t, name, dtype, second)
  {
    var once := SetColumn(t, name, dtype, first);
    var twice := SetColumn(once, name, dtype, second);
    assert twice == SetColumn(t, name, dtype, second) by {
      SetColumnOverwrite(t, name, dtype, first, second);
    }
    twice
  }

  lemma SetColumnOverwrite(t: Table, name: string, dtype: DType, first: seq<Cell>, second: seq<Cell>)
    requires WellFormed(t) && |first| == |t.rows| && |second| == |t.rows|
    ensures SetColumn(SetColumn(t, name, dtype, first), name, dtype, second) == SetColumn(t, name, dtype, second)
  {
    var once := SetColumn(t, name, dtype, first);
    var twice := SetColumn(once, name, dtype, second);
    var direct := SetColumn(t, name, dtype, second);
    if HasColumn(t, name) {
      var j := IndexOf(t.header, name);
      IndexOfUnique(once.header, name, j);
      assert forall i :: 0 <= i < |t.rows| ==> twice.rows[i] == direct.rows[i];
    } else {
      IndexOfUnique(once.header, name, |t.header|);
      assert forall i :: 0 <= i < |t.rows| ==> twice.rows[i] == direct.rows[i];
    }
  }
}

=== FILE: data_preprocessing.dfy ===
/**
 * The Spark preprocessing steps of the pipeline: the configured row filter (parameters,
 * visits, population and analysis flags) and the treatment abbreviation column.
 */
module DataPreprocessing {
  import opened Wrappers
  import opened Frames
  import Boxplot

  /**
   * The configuration entries the steps read; an absent entry takes its default
   * (`data_sources.parameters`, `data_sources.visits`, `variables.population_flag`,
   * `variables.analysis_flag`, `variables.treatment_num_var`).
   */
  datatype Config = Config(parameters: Option<seq<string>>, visits: Option<seq<real>>,
                           populationFlag: Option<string>, analysisFlag: Option<string>,
                           treatmentNumVar: Option<string>)

  function Parameters(c: Config): seq<string> {
    if c.parameters.Some? then c.parameters.value else ["ALB"]
  }

  function Visits(c: Config): seq<real> {
    if c.visits.Some? then c.visits.value else [0.0, 2.0, 4.0, 6.0]
  }

  function PopulationFlag(c: Config): string {
    if c.populationFlag.Some? then c.populationFlag.value else "saffl"
  }

  function AnalysisFlag(c: Config): string {
    if c.analysisFlag.Some? then c.analysisFlag.value else "anl01fl"
  }

  function TreatmentNumVar(c: Config): string {
    if c.treatmentNumVar.Some? then c.treatmentNumVar.value else "trtpn"
  }

  /** The parameter and visit filters name their columns without checking them, so those must exist. */
  predicate FilterColumnsPresent(t: Table, c: Config) {
    && (Parameters(c) != [] ==> HasColumn(t, "paramcd"))
    && (Visits(c) != [] ==> HasColumn(t, "avisitn"))
  }

  /** `paramcd.isin(parameters)`; it keeps every row when the list is empty. */
  function ParamMask(t: Table, c: Config): Row -> bool {
    row => Parameters(c) == [] || (HasColumn(t, "paramcd") && Boxplot.TextIn(ColumnCell(t, row, "paramcd"), set p | p in Parameters(c)))
  }

  /** `avisitn.isin(visits)`; it keeps every row when the list is empty. */
  function VisitMask(t: Table, c: Config): Row -> bool {
    row => Visits(c) == [] || (HasColumn(t, "avisitn") && Boxplot.NumberIn(ColumnCell(t, row, "avisitn"), set v | v in Visits(c)))
  }

  /** `flag == "Y"`; it keeps every row when the flag column does not exist. */
  function FlagMask(t: Table, flag: string): Row -> bool {
    row => !HasColumn(t, flag) || ColumnCell(t, row, flag) == Text("Y")
  }

  /** The rows the configured filter keeps. */
  predicate KeepRow(t: Table, c: Config, row: Row) {
    && (Parameters(c) != [] ==> HasColumn(t, "paramcd") && Boxplot.TextIn(ColumnCell(t, row, "paramcd"), set p | p in Parameters(c)))
    && (Visits(c) != [] ==> HasColumn(t, "avisitn") && Boxplot.NumberIn(ColumnCell(t, row, "avisitn"), set v | v in Visits(c)))
    && (HasColumn(t, PopulationFlag(c)) ==> ColumnCell(t, row, PopulationFlag(c)) == Text("Y"))
    && (HasColumn(t, AnalysisFlag(c)) ==> ColumnCell(t, row, AnalysisFlag(c)) == Text("Y"))
  }

  /**
   * `filter_dataset(df, config)`: the parameter filter when parameters are given, the visit
   * filter when visits are given, and each flag filter when its column exists, in turn.
   */
  function FilterDatasetSpark(t: Table, c: Config): (r: Table)
    requires WellFormed(t) && FilterColumnsPresent(t, c)
    ensures WellFormed(r) && r.header == t.header && |r.rows| <= |t.rows|
    ensures forall row :: row in r.rows <==> row in t.rows && KeepRow(t, c, row)
  {
    var byParam := if Parameters(c) != [] then Where(t, ParamMask(t, c)) else t;
    var byVisit := if Visits(c) != [] then Where(byParam, VisitMask(t, c)) else byParam;
    var byPopulation := if HasColumn(t, PopulationFlag(c)) then Where(byVisit, FlagMask(t, PopulationFlag(c))) else byVisit;
    if HasColumn(t, AnalysisFlag(c)) then Where(byPopulation, FlagMask(t, AnalysisFlag(c))) else byPopulation
  }

  /** `filter_dataset` is the four masks applied in turn. */
  lemma FilterDatasetSparkAsMasks(t: Table, c: Config)
    requires WellFormed(t) && FilterColumnsPresent(t, c)
    ensures FilterDatasetSpark(t, c)
            == Where(Where(Where(Where(t, ParamMask(t, c)), VisitMask(t, c)),
                           FlagMask(t, PopulationFlag(c))), FlagMask(t, AnalysisFlag(c)))
  {
    var pm, vm := ParamMask(t, c), VisitMask(t, c);
    var fm1, fm2 := FlagMask(t, PopulationFlag(c)), FlagMask(t, AnalysisFlag(c));
    Boxplot.OptionalWhere(t, Parameters(c) != [], pm);
    var byParam := Where(t, pm);
    Boxplot.OptionalWhere(byParam, Visits(c) != [], vm);
    var byVisit := Where(byParam, vm);
    Boxplot.OptionalWhere(byVisit, HasColumn(t, PopulationFlag(c)), fm1);
    var byPopulation := Where(byVisit, fm1);
    Boxplot.OptionalWhere(byPopulation, HasColumn(t, AnalysisFlag(c)), fm2);
  }

  /** The four masks together keep exactly the rows `KeepRow` describes. */
  lemma KeepRowIsAllMasks(t: Table, c: Config)
    ensures forall row ::
              Both(Both(Both(ParamMask(t, c), VisitMask(t, c)), FlagMask(t, PopulationFlag(c))), FlagMask(t, AnalysisFlag(c)))(row)
              == KeepRow(t, c, row)
  {
  }

  /** The filter keeps, in their original order and under the original header, exactly the rows `KeepRow` accepts. */
  lemma FilterDatasetSparkIsOneMask(t: Table, c: Config)
    requires WellFormed(t) && FilterColumnsPresent(t, c)
    ensures FilterDatasetSpark(t, c) == Where(t, row => KeepRow(t, c, row))
  {
    var pm, vm := ParamMask(t, c), VisitMask(t, c);
    var fm1, fm2 := FlagMask(t, PopulationFlag(c)), FlagMask(t, AnalysisFlag(c));
    FilterDatasetSparkAsMasks(t, c);
    WhereTwice(t, pm, vm);
    WhereTwice(t, Both(pm, vm), fm1);
    WhereTwice(t, Both(Both(pm, vm), fm1), fm2);
    KeepRowIsAllMasks(t, c);
    FilterRowsExt(t.rows, Both(Both(Both(pm, vm), fm1), fm2), row => KeepRow(t, c, row));
  }

  /**
   * `abbreviate_treatment(trt_num)`: the codes 0, 54 and 81 become "P", "X-high" and
   * "X-low"; anything else, a missing value included, becomes "UNEXPECTED".
   */
  function AbbreviateTreatment(code: Cell): (s: string)
    ensures s == "P" <==> code == Num(0.0)
    ensures s == "X-high" <==> code == Num(54.0)
    ensures s == "X-low" <==> code == Num(81.0)
    ensures s == "UNEXPECTED" <==> code != Num(0.0) && code != Num(54.0) && code != Num(81.0)
  {
    if code == Num(0.0) then "P"
    else if code == Num(54.0) then "X-high"
    else if code == Num(81.0) then "X-low"
    else "UNEXPECTED"
  }

  /**
   * The Spark abbreviations agree with the pandas treatment format on the three known
   * codes; where the pandas step falls back to the treatment value, Spark says "UNEXPECTED".
   */
  lemma AbbreviationsAgreeWithFormat(code: Cell)
    ensures Boxplot.FormatCode(code) != Missing ==> Boxplot.FormatCode(code) == Text(AbbreviateTreatment(code))
    ensures Boxplot.FormatCode(code) == Missing <==> AbbreviateTreatment(code) == "UNEXPECTED"
  {
  }

  /** The abbreviation column, row by row. */
  function AbbreviationCells(t: Table, codeVar: string): (vs: seq<Cell>)
    requires WellFormed(t) && HasColumn(t, codeVar)
    ensures |vs| == |t.rows|
    ensures forall i :: 0 <= i < |t.rows| ==> vs[i] == Text(AbbreviateTreatment(ColumnValues(t, codeVar)[i]))
  {
    var codes := ColumnValues(t, codeVar);
    seq(|t.rows|, i requires 0 <= i < |t.rows| => Text(AbbreviateTreatment(codes[i])))
  }

  /**
   * `create_treatment_abbreviations(df, config)`: `withColumn("trtp_short", ...)` over the
   * configured treatment-number column; every other column keeps its values.
   */
  function CreateTreatmentAbbreviationsSpark(t: Table, c: Config): (r: Table)
    requires WellFormed(t) && HasColumn(t, TreatmentNumVar(c))
    ensures WellFormed(r) && |r.rows| == |t.rows| && HasColumn(r, "trtp_short")
    ensures DTypeOf(r, "trtp_short") == Object
    ensures |r.header| == |t.header| + (if HasColumn(t, "trtp_short") then 0 else 1)
    ensures forall i :: 0 <= i < |t.rows| ==>
              ColumnValues(r, "trtp_short")[i] == Text(AbbreviateTreatment(ColumnValues(t, TreatmentNumVar(c))[i]))
    ensures forall k :: 0 <= k < |t.header| && t.header[k].name != "trtp_short" ==> r.header[k] == t.header[k]
    ensures forall i, k :: 0 <= i < |t.rows| && 0 <= k < |t.header| && t.header[k].name != "trtp_short" ==>
              r.rows[i][k] == t.rows[i][k]
  {
    SetColumn(t, "trtp_short", Object, AbbreviationCells(t, TreatmentNumVar(c)))
  }
}

=== FILE: frames.dfy ===
/**
 * The tabular data model shared by every modelled operation: a table is a header of
 * named, typed columns and a sequence of rows of cells.  A cell is a number, a string,
 * or the missing marker (NaN, None and pd.NA all read as missing to `pd.isna`).
 */
module Frames {
  import opened Wrappers

  /** One cell of a table. */
  datatype Cell = Missing | Num(value: real) | Text(text: string)

  /**
   * The dtype kind of a column as far as the modelled code inspects it: `Float` is numpy
   * kind 'f' (the only kind that passes compare's `kind in 'fc'` test here), `Integer` is
   * the other `np.number` kind, `Object` holds strings and mixed values.
   */
  datatype DType = Float | Integer | Object

  datatype Column = Column(name: string, dtype: DType)

  type Row = seq<Cell>

  datatype Table = Table(header: seq<Column>, rows: seq<Row>)

  /** `np.issubdtype(dtype, np.number)` */
  predicate IsNumericType(d: DType) {
    d == Float || d == Integer
  }

  predicate DistinctNames(h: seq<Column>) {
    forall i, j :: 0 <= i < j < |h| ==> h[i].name != h[j].name
  }

  /** A rectangular table whose column names are distinct. */
  predicate WellFormed(t: Table) {
    && DistinctNames(t.header)
    && forall i :: 0 <= i < |t.rows| ==> |t.rows[i]| == |t.header|
  }

  /** `set(df.columns)` */
  function NameSet(h: seq<Column>): set<string> {
    set c | c in h :: c.name
  }

  /** `name in df.columns` */
  predicate HasColumn(t: Table, name: string) {
    name in NameSet(t.header)
  }

  /** Position of the column called `name`. */
  function IndexOf(h: seq<Column>, name: string): (j: nat)
    requires name in NameSet(h)
    ensures j < |h| && h[j].name == name
    ensures forall k :: 0 <= k < j ==> h[k].name != name
  {
    if h[0].name == name then 0
    else
      assert name in NameSet(h[1..]) by {
        var c :| c in h && c.name == name;
        var k :| 0 <= k < |h| && h[k] == c;
        assert k != 0 && h[1..][k - 1] == c;
      }
      1 + IndexOf(h[1..], name)
  }

  lemma IndexOfUnique(h: seq<Column>, name: string, k: nat)
    requires DistinctNames(h) && k < |h| && h[k].name == name
    ensures name in NameSet(h) && IndexOf(h, name) == k
  {
    assert h[k] in h;
  }

  /** `df[name]`, the values of one column, top to bottom. */
  function ColumnValues(t: Table, name: string): (vs: seq<Cell>)
    requires WellFormed(t) && HasColumn(t, name)
    ensures |vs| == |t.rows|
    ensures forall i :: 0 <= i < |t.rows| ==> vs[i] == t.rows[i][IndexOf(t.header, name)]
  {
    var j := IndexOf(t.header, name);
    seq(|t.rows|, i requires 0 <= i < |t.rows| => t.rows[i][j])
  }

  /** `df[name].dtype` */
  function DTypeOf(t: Table, name: string): DType
    requires HasColumn(t, name)
  {
    t.header[IndexOf(t.header, name)].dtype
  }

  /** The numbers of a column with missing values dropped (`series.dropna()` on a numeric column). */
  function Numbers(cells: seq<Cell>): (xs: seq<real>)
    ensures |xs| <= |cells|
    ensures forall x :: x in xs <==> Num(x) in cells
  {
    if cells == [] then []
    else
      var rest := Numbers(cells[1..]);
      assert forall c :: c in cells <==> c == cells[0] || c in cells[1..];
      if cells[0].Num? then [cells[0].value] + rest else rest
  }

  /** The rows of `s` for which `keep` holds, in their original order (a boolean mask). */
  function FilterRows<T(!new)>(s: seq<T>, keep: T -> bool): (r: seq<T>)
    ensures |r| <= |s|
    ensures forall x :: x in r <==> x in s && keep(x)
  {
    if s == [] then []
    else
      var rest := FilterRows(s[1..], keep);
      assert forall x :: x in s <==> x == s[0] || x in s[1..];
      if keep(s[0]) then [s[0]] + rest else rest
  }

  /** The mask that holds where both `p` and `q` hold. */
  function Both<T>(p: T -> bool, q: T -> bool): T -> bool {
    x => p(x) && q(x)
  }

  /** Filtering twice keeps exactly the rows that pass both masks, in the same order. */
  lemma {:induction false} FilterRowsCompose<T(!new)>(s: seq<T>, p: T -> bool, q: T -> bool)
    ensures FilterRows(FilterRows(s, p), q) == FilterRows(s, Both(p, q))
  {
    if s != [] {
      FilterRowsCompose(s[1..], p, q);
      if p(s[0]) {
        assert FilterRows(s, p) == [s[0]] + FilterRows(s[1..], p);
        assert FilterRows(s, p)[1..] == FilterRows(s[1..], p);
      }
    }
  }

  /** `unique()` / `drop_duplicates()`: the first occurrence of every element, in order. */
  function Distinct<T(==,!new)>(s: seq<T>): (r: seq<T>)
    ensures |r| <= |s|
    ensures forall x :: x in r <==> x in s
    ensures forall i, j :: 0 <= i < j < |r| ==> r[i] != r[j]
    decreases |s|
  {
    if s == [] then []
    else
      var n := |s| - 1;
      var front := Distinct(s[..n]);
      assert forall x :: x in s <==> x in s[..n] || x == s[n];
      if s[n] in front then front else front + [s[n]]
  }

  /** Filtering a concatenation filters each part. */
  lemma {:induction false} FilterRowsAppend<T(!new)>(a: seq<T>, b: seq<T>, keep: T -> bool)
    ensures FilterRows(a + b, keep) == FilterRows(a, keep) + FilterRows(b, keep)
  {
    if a != [] {
      FilterRowsAppend(a[1..], b, keep);
      assert (a + b)[0] == a[0];
      assert (a + b)[1..] == a[1..] + b;
    } else {
      assert a + b == b;
    }
  }

  /** The first occurrences within a prefix come first among the first occurrences of the whole. */
  lemma {:induction false} DistinctPrefix<T(!new)>(s: seq<T>, n: nat) returns (rest: seq<T>)
    requires n <= |s|
    ensures Distinct(s) == Distinct(s[..n]) + rest
    decreases |s|
  {
    if n == |s| {
      assert s[..n] == s;
      rest := [];
    } else {
      var m := |s| - 1;
      assert s[..m][..n] == s[..n];
      var front := DistinctPrefix(s[..m], n);
      rest := if s[m] in Distinct(s[..m]) then front else front + [s[m]];
    }
  }

  /** A sequence without repetitions has as many elements as the set of its elements. */
  lemma {:induction false} NoRepeatsCardinality<T>(s: seq<T>)
    requires forall i, j :: 0 <= i < j < |s| ==> s[i] != s[j]
    ensures |set x | x in s| == |s|
    decreases |s|
  {
    if s != [] {
      var n := |s| - 1;
      NoRepeatsCardinality(s[..n]);
      assert (set x | x in s) == (set x | x in s[..n]) + {s[n]};
      assert s[n] !in (set x | x in s[..n]);
    }
  }

  /** `nunique` counts the distinct elements: `Distinct` keeps exactly one copy of each. */
  lemma DistinctCardinality<T(!new)>(s: seq<T>)
    ensures |Distinct(s)| == |set x | x in s|
  {
    NoRepeatsCardinality(Distinct(s));
    assert (set x | x in Distinct(s)) == (set x | x in s);
  }

  /** Two masks that agree on every row select the same rows. */
  lemma {:induction false} FilterRowsExt<T(!new)>(s: seq<T>, p: T -> bool, q: T -> bool)
    requires forall x :: x in s ==> p(x) == q(x)
    ensures FilterRows(s, p) == FilterRows(s, q)
  {
    if s != [] {
      assert forall x :: x in s[1..] ==> x in s;
      FilterRowsExt(s[1..], p, q);
    }
  }

  /** The cell of `row` at position `j`, or missing past its end. */
  function CellAt(row: Row, j: nat): Cell {
    if j < |row| then row[j] else Missing
  }

  /** The cell of `row` in the column called `name` of `t`. */
  function ColumnCell(t: Table, row: Row, name: string): Cell
    requires HasColumn(t, name)
  {
    CellAt(row, IndexOf(t.header, name))
  }

  /** `df[mask]`: the rows for which `keep` holds, in order, under the same header. */
  function Where(t: Table, keep: Row -> bool): (r: Table)
    requires WellFormed(t)
    ensures WellFormed(r) && r.header == t.header && |r.rows| <= |t.rows|
    ensures forall row :: row in r.rows <==> row in t.rows && keep(row)
  {
    var rows := FilterRows(t.rows, keep);
    assert forall i :: 0 <= i < |rows| ==> rows[i] in t.rows;
    Table(t.header, rows)
  }

  /** Masking twice is masking once with both conditions. */
  lemma WhereTwice(t: Table, p: Row -> bool, q: Row -> bool)
    requires WellFormed(t)
    ensures Where(Where(t, p), q) == Where(t, Both(p, q))
  {
    FilterRowsCompose(t.rows, p, q);
  }

  /** Positions of the columns whose name is in `keep`, ascending. */
  function KeptIndices(h: seq<Column>, keep: set<string>): (ks: seq<nat>)
    ensures forall i :: 0 <= i < |ks| ==> ks[i] < |h| && h[ks[i]].name in keep
    ensures forall i, j :: 0 <= i < j < |ks| ==> ks[i] < ks[j]
    ensures forall k :: 0 <= k < |h| && h[k].name in keep ==> k in ks
    decreases |h|
  {
    if h == [] then []
    else
      var n := |h| - 1;
      var front := KeptIndices(h[..n], keep);
      if h[n].name in keep then front + [n] else front
  }

  /** The elements of `s` at positions `ks`. */
  function Pick<T>(s: seq<T>, ks: seq<nat>): (r: seq<T>)
    requires forall i :: 0 <= i < |ks| ==> ks[i] < |s|
    ensures |r| == |ks| && forall i :: 0 <= i < |ks| ==> r[i] == s[ks[i]]
  {
    seq(|ks|, i requires 0 <= i < |ks| => s[ks[i]])
  }

  /** `df[cols]` for the columns whose name is in `keep`, kept in the table's own order. */
  function Select(t: Table, keep: set<string>): (r: Table)
    requires WellFormed(t)
    ensures WellFormed(r) && |r.rows| == |t.rows|
    ensures NameSet(r.header) == NameSet(t.header) * keep
  {
    var ks := KeptIndices(t.header, keep);
    var h := Pick(t.header, ks);
    assert NameSet(h) == NameSet(t.header) * keep by {
      forall n | n in NameSet(t.header) * keep ensures n in NameSet(h) {
        var c :| c in t.header && c.name == n;
        var k :| 0 <= k < |t.header| && t.header[k] == c;
        var i :| 0 <= i < |ks| && ks[i] == k;
        assert h[i] == c;
      }
    }
    Table(h, seq(|t.rows|, i requires 0 <= i < |t.rows| => Pick(t.rows[i], ks)))
  }

  /**
   * `df[name] = values`: an existing column keeps its position and takes the new values
   * and dtype; a new column is appended after the last one.
   */
  function SetColumn(t: Table, name: string, dtype: DType, values: seq<Cell>): (r: Table)
    requires WellFormed(t) && |values| == |t.rows|
    ensures WellFormed(r) && |r.rows| == |t.rows|
    ensures HasColumn(r, name) && ColumnValues(r, name) == values && DTypeOf(r, name) == dtype
    ensures !HasColumn(t, name) ==> r.header == t.header + [Column(name, dtype)]
    ensures HasColumn(t, name) ==> r.header == t.header[IndexOf(t.header, name) := Column(name, dtype)]
    ensures forall i, k :: 0 <= i < |t.rows| && 0 <= k < |t.header| && t.header[k].name != name ==>
              r.rows[i][k] == t.rows[i][k]
  {
    if HasColumn(t, name) then
      var j := IndexOf(t.header, name);
      var r := Table(t.header[j := Column(name, dtype)],
                     seq(|t.rows|, i requires 0 <= i < |t.rows| => t.rows[i][j := values[i]]));
      IndexOfUnique(r.header, name, j);
      r
    else
      var r := Table(t.header + [Column(name, dtype)],
                     seq(|t.rows|, i requires 0 <= i < |t.rows| => t.rows[i] + [values[i]]));
      assert forall k :: 0 <= k < |t.header| ==> t.header[k] in t.header;
      IndexOfUnique(r.header, name, |t.header|);
      r
  }

  /**
   * The normal-range outlier rule: the measure itself when it is a number below a known
   * low limit or above a known high limit, the missing marker otherwise.
   */
  function OutlierValue(measure: Cell, low: Cell, high: Cell): (r: Cell)
    ensures r == Missing || r == measure
    ensures r != Missing <==>
              measure.Num? && ((low.Num? && measure.value < low.value) || (high.Num? && measure.value > high.value))
  {
    if (measure.Num? && low.Num? && measure.value < low.value)
       || (measure.Num? && high.Num? && measure.value > high.value)
    then measure
    else Missing
  }
}

=== FILE: macros.dfy ===
/**
 * The comparison engine of the SAS comparison macros: `compvars` (schema partition) and
 * `compare` (the PROC COMPARE stand-in).  `compare` runs in one of two modes:
 *
 *  - keyed mode, when `by` is non-empty and names columns present in both tables: both
 *    tables are sorted by the keys and the key sets are counted; the per-group cell
 *    comparison is computed into a local list that never reaches the report, so the
 *    report of a keyed comparison always has no differences;
 *  - positional mode otherwise: a row-count finding when the lengths differ, then every
 *    common column is compared cell by cell over the first `min(len)` rows.
 *
 * Columns (and keys) are visited in Python set order, which is unspecified; the model
 * visits them in an arbitrary order and the report is characterised for every order.
 *
 * `complibs` runs `compare` on every dataset name two library directories share.
 */
module Macros {
  import opened Wrappers
  import opened Frames
  import opened Reals
  import opened RowOrder
  import opened Strings
  import opened Readers

  /** `numeric_abs_tol` and `numeric_rel_tol` defaults: 1e-9 and 1e-6. */
  const DefaultAbsTol: real := 0.000000001
  const DefaultRelTol: real := 0.000001

  /** What `compvars` returns: columns only in the first table, only in the second, in both. */
  datatype VarLists = VarLists(left: set<string>, right: set<string>, both: set<string>)

  /** `compvars(ds1, ds2)` */
  function CompVars(ds1: Table, ds2: Table): (v: VarLists)
    ensures v.left !! v.right && v.left !! v.both && v.right !! v.both
    ensures v.left + v.both == NameSet(ds1.header)
    ensures v.right + v.both == NameSet(ds2.header)
  {
    var a, b := NameSet(ds1.header), NameSet(ds2.header);
    VarLists(a - b, b - a, a * b)
  }

  /** Swapping the tables swaps the one-sided lists and keeps the common one. */
  lemma CompVarsSwap(ds1: Table, ds2: Table)
    ensures CompVars(ds2, ds1) == VarLists(CompVars(ds1, ds2).right, CompVars(ds1, ds2).left, CompVars(ds1, ds2).both)
  {
    var v, w := CompVars(ds1, ds2), CompVars(ds2, ds1);
    assert w.left == v.right && w.right == v.left;
    assert w.both == v.both;
  }

  /** The two tables have the same columns exactly when neither one-sided list has a name. */
  lemma CompVarsSameColumns(ds1: Table, ds2: Table)
    ensures NameSet(ds1.header) == NameSet(ds2.header) <==> CompVars(ds1, ds2).left == {} && CompVars(ds1, ds2).right == {}
  {
    var v := CompVars(ds1, ds2);
    if v.left == {} && v.right == {} {
      assert NameSet(ds1.header) == v.both == NameSet(ds2.header);
    }
  }

  /** numpy's `isclose(a, b, rtol, atol)`: the relative allowance scales with `|b|` only. */
  predicate IsClose(a: real, b: real, atol: real, rtol: real) {
    Abs(a - b) <= atol + rtol * Abs(b)
  }

  /** `isclose` is not symmetric: swapping the operands can change the verdict. */
  lemma IsCloseNotSymmetric()
    ensures IsClose(1.0, 2.0, 0.0, 0.5) && !IsClose(2.0, 1.0, 0.0, 0.5)
  {
  }

  /** The kinds of cell-level finding. */
  datatype Issue = MissingValueMismatch | ValueMismatch(difference: Option<real>)

  /** One entry of the `differences` list. */
  datatype Difference =
    | RowCountMismatch(byValues: Option<seq<Cell>>, column: Option<string>, baseRows: nat, compRows: nat)
    | CellMismatch(byKey: Option<seq<Cell>>, variable: string, row: nat, baseValue: Cell, compValue: Cell, issue: Issue)

  /** The outcome of comparing one pair of cells. */
  datatype Verdict = Same | Mismatch(issue: Issue)

  /**
   * The comparison of one base cell with one comparison cell: two missing cells agree,
   * exactly one missing cell is a missing-value mismatch, two numbers of floating columns
   * are compared with `isclose` (the finding records `comp - base`), everything else by
   * exact equality.
   */
  function Judge(b: Cell, c: Cell, floating: bool, atol: real, rtol: real): (v: Verdict)
    ensures b.Missing? && c.Missing? ==> v == Same
    ensures v == Mismatch(MissingValueMismatch) <==> b.Missing? != c.Missing?
    ensures !floating ==> (v == Same <==> b == c)
    ensures v.Mismatch? && v.issue.ValueMismatch? && v.issue.difference.Some? ==>
              floating && b.Num? && c.Num? && v.issue.difference.value == c.value - b.value
    ensures floating && b.Num? && c.Num? ==>
              && (v == Same <==> IsClose(b.value, c.value, atol, rtol))
              && (v != Same ==> v == Mismatch(ValueMismatch(Some(c.value - b.value))))
  {
    if b.Missing? && c.Missing? then Same
    else if b.Missing? || c.Missing? then Mismatch(MissingValueMismatch)
    else if floating && b.Num? && c.Num? then
      if IsClose(b.value, c.value, atol, rtol) then Same else Mismatch(ValueMismatch(Some(c.value - b.value)))
    else if b != c then Mismatch(ValueMismatch(None))
    else Same
  }

  /** A cell always agrees with itself when the tolerances are not negative. */
  lemma JudgeReflexive(x: Cell, floating: bool, atol: real, rtol: real)
    requires atol >= 0.0 && rtol >= 0.0
    ensures Judge(x, x, floating, atol, rtol) == Same
  {
  }

  /** The finding (if any) for row `i` of column `col`. */
  function CellFinding(key: Option<seq<Cell>>, col: string, i: nat, b: Cell, c: Cell,
                       floating: bool, atol: real, rtol: real): seq<Difference>
  {
    match Judge(b, c, floating, atol, rtol)
    case Same => []
    case Mismatch(issue) => [CellMismatch(key, col, i, b, c, issue)]
  }

  /** `d` is the record of a disagreeing row of the column whose cells are `bs` and `cs`. */
  predicate ValidFinding(d: Difference, key: Option<seq<Cell>>, col: string, bs: seq<Cell>, cs: seq<Cell>,
                         floating: bool, atol: real, rtol: real)
    requires |bs| == |cs|
  {
    && d.CellMismatch? && d.byKey == key && d.variable == col && d.row < |bs|
    && d.baseValue == bs[d.row] && d.compValue == cs[d.row]
    && Judge(bs[d.row], cs[d.row], floating, atol, rtol) == Mismatch(d.issue)
  }

  /**
   * The findings of one column, row by row: one record per disagreeing row, in row order,
   * and nothing for an agreeing row (see ColumnFindingsOrdered and ColumnFindingsComplete).
   */
  function ColumnFindings(key: Option<seq<Cell>>, col: string, bs: seq<Cell>, cs: seq<Cell>,
                          floating: bool, atol: real, rtol: real): (ds: seq<Difference>)
    requires |bs| == |cs|
    ensures |ds| <= |bs|
    ensures forall k :: 0 <= k < |ds| ==> ValidFinding(ds[k], key, col, bs, cs, floating, atol, rtol)
    decreases |bs|
  {
    if bs == [] then []
    else
      var n := |bs| - 1;
      var front := ColumnFindings(key, col, bs[..n], cs[..n], floating, atol, rtol);
      var ds := front + CellFinding(key, col, n, bs[n], cs[n], floating, atol, rtol);
      assert forall k :: 0 <= k < |front| ==> ds[k] == front[k] && front[k].row < n;
      assert forall i :: 0 <= i < n ==> bs[..n][i] == bs[i] && cs[..n][i] == cs[i];
      ds
  }

  /** Cell findings listed in strictly increasing row order. */
  predicate AscendingRows(ds: seq<Difference>) {
    forall k, l :: 0 <= k < l < |ds| ==> ds[k].CellMismatch? && ds[l].CellMismatch? && ds[k].row < ds[l].row
  }

  /** The findings of a column are in strictly increasing row order. */
  lemma {:induction false} ColumnFindingsOrdered(key: Option<seq<Cell>>, col: string, bs: seq<Cell>, cs: seq<Cell>,
                                                 floating: bool, atol: real, rtol: real)
    requires |bs| == |cs|
    ensures AscendingRows(ColumnFindings(key, col, bs, cs, floating, atol, rtol))
    decreases |bs|
  {
    if bs != [] {
      var n := |bs| - 1;
      var front := ColumnFindings(key, col, bs[..n], cs[..n], floating, atol, rtol);
      ColumnFindingsOrdered(key, col, bs[..n], cs[..n], floating, atol, rtol);
      var ds := ColumnFindings(key, col, bs, cs, floating, atol, rtol);
      var last := CellFinding(key, col, n, bs[n], cs[n], floating, atol, rtol);
      assert ds == front + last;
      forall k, l | 0 <= k < l < |ds| ensures ds[k].CellMismatch? && ds[l].CellMismatch? && ds[k].row < ds[l].row {
        assert ds[k] == front[k];
        assert ValidFinding(front[k], key, col, bs[..n], cs[..n], floating, atol, rtol);
        if l >= |front| {
          assert ds[l] == last[0] && last[0].row == n;
        } else {
          assert ds[l] == front[l];
        }
      }
    }
  }

  /** Every disagreeing row has a finding. */
  lemma {:induction false} ColumnFindingsComplete(key: Option<seq<Cell>>, col: string, bs: seq<Cell>, cs: seq<Cell>,
                                                  floating: bool, atol: real, rtol: real, i: nat)
    requires |bs| == |cs| && i < |bs| && Judge(bs[i], cs[i], floating, atol, rtol) != Same
    ensures exists k :: 0 <= k < |ColumnFindings(key, col, bs, cs, floating, atol, rtol)| &&
                        ColumnFindings(key, col, bs, cs, floating, atol, rtol)[k].row == i
    decreases |bs|
  {
    var n := |bs| - 1;
    var front := ColumnFindings(key, col, bs[..n], cs[..n], floating, atol, rtol);
    var ds := ColumnFindings(key, col, bs, cs, floating, atol, rtol);
    assert ds == front + CellFinding(key, col, n, bs[n], cs[n], floating, atol, rtol);
    if i == n {
      assert ds[|front|].row == i;
    } else {
      assert bs[..n][i] == bs[i] && cs[..n][i] == cs[i];
      ColumnFindingsComplete(key, col, bs[..n], cs[..n], floating, atol, rtol, i);
      var k :| 0 <= k < |front| && front[k].row == i;
      assert ds[k] == front[k];
    }
  }

  /** A column has no findings exactly when every one of its rows agrees. */
  lemma ColumnFindingsEmpty(key: Option<seq<Cell>>, col: string, bs: seq<Cell>, cs: seq<Cell>,
                            floating: bool, atol: real, rtol: real)
    requires |bs| == |cs|
    ensures ColumnFindings(key, col, bs, cs, floating, atol, rtol) == [] <==>
            forall i :: 0 <= i < |bs| ==> Judge(bs[i], cs[i], floating, atol, rtol) == Same
  {
    var ds := ColumnFindings(key, col, bs, cs, floating, atol, rtol);
    if ds != [] {
      assert ValidFinding(ds[0], key, col, bs, cs, floating, atol, rtol);
    } else {
      forall i | 0 <= i < |bs| ensures Judge(bs[i], cs[i], floating, atol, rtol) == Same {
        if Judge(bs[i], cs[i], floating, atol, rtol) != Same {
          ColumnFindingsComplete(key, col, bs, cs, floating, atol, rtol, i);
        }
      }
    }
  }

  /**
   * The inner row loop of both modes (`for i, (base_val, comp_val) in enumerate(zip(...))`):
   * appends the findings of one column to nothing.
   */
  method ScanColumn(key: Option<seq<Cell>>, col: string, bs: seq<Cell>, cs: seq<Cell>,
                    floating: bool, atol: real, rtol: real) returns (found: seq<Difference>)
    requires |bs| == |cs|
    ensures found == ColumnFindings(key, col, bs, cs, floating, atol, rtol)
  {
    found := [];
    var i := 0;
    while i < |bs|
      invariant 0 <= i <= |bs|
      invariant found == ColumnFindings(key, col, bs[..i], cs[..i], floating, atol, rtol)
    {
      var v := Judge(bs[i], cs[i], floating, atol, rtol);
      if v.Mismatch? {
        found := found + [CellMismatch(key, col, i, bs[i], cs[i], v.issue)];
      }
      assert bs[..i + 1][..i] == bs[..i] && cs[..i + 1][..i] == cs[..i];
      i := i + 1;
    }
    assert bs[..i] == bs && cs[..i] == cs;
  }

  /** Both columns have floating dtype (`dtype.kind in 'fc'` on each side). */
  predicate Floating(base: Table, comp: Table, col: string)
    requires HasColumn(base, col) && HasColumn(comp, col)
  {
    DTypeOf(base, col) == Float && DTypeOf(comp, col) == Float
  }

  /** `set(base.columns) & set(comp.columns)` */
  function Common(base: Table, comp: Table): set<string> {
    NameSet(base.header) * NameSet(comp.header)
  }

  /** `order` lists every name of `s` exactly once: one possible iteration order of the set. */
  ghost predicate IsColumnOrder(order: seq<string>, s: set<string>) {
    && (forall i, j :: 0 <= i < j < |order| ==> order[i] != order[j])
    && (forall c :: c in order <==> c in s)
  }

  /** The positional findings of the first `n` rows of the columns in `order`, column after column. */
  function ColumnsFindings(base: Table, comp: Table, order: seq<string>, n: nat, atol: real, rtol: real): (ds: seq<Difference>)
    requires WellFormed(base) && WellFormed(comp) && n <= |base.rows| && n <= |comp.rows|
    requires forall c :: c in order ==> c in Common(base, comp)
    decreases |order|
  {
    if order == [] then []
    else
      var k := |order| - 1;
      var col := order[k];
      assert col in order && col in Common(base, comp);
      ColumnsFindings(base, comp, order[..k], n, atol, rtol)
        + ColumnFindings(None, col, ColumnValues(base, col)[..n], ColumnValues(comp, col)[..n],
                         Floating(base, comp, col), atol, rtol)
  }

  /** Every row below `n` of column `col` agrees. */
  predicate CleanColumn(base: Table, comp: Table, col: string, n: nat, atol: real, rtol: real)
    requires WellFormed(base) && WellFormed(comp) && n <= |base.rows| && n <= |comp.rows|
    requires HasColumn(base, col) && HasColumn(comp, col)
  {
    forall i :: 0 <= i < n ==>
      Judge(ColumnValues(base, col)[i], ColumnValues(comp, col)[i], Floating(base, comp, col), atol, rtol) == Same
  }

  /** Every column of `order` is clean. */
  predicate AllClean(base: Table, comp: Table, order: seq<string>, n: nat, atol: real, rtol: real)
    requires WellFormed(base) && WellFormed(comp) && n <= |base.rows| && n <= |comp.rows|
    requires forall c :: c in order ==> c in Common(base, comp)
  {
    forall c :: c in order ==> c in Common(base, comp) && CleanColumn(base, comp, c, n, atol, rtol)
  }

  /** The columns of a non-empty order are clean when those before the last one are and the last one is. */
  lemma AllCleanSnoc(base: Table, comp: Table, order: seq<string>, n: nat, atol: real, rtol: real)
    requires WellFormed(base) && WellFormed(comp) && n <= |base.rows| && n <= |comp.rows|
    requires forall c :: c in order ==> c in Common(base, comp)
    requires order != []
    ensures forall c :: c in order[..|order| - 1] ==> c in Common(base, comp)
    ensures order[|order| - 1] in Common(base, comp)
    ensures AllClean(base, comp, order, n, atol, rtol) <==>
            AllClean(base, comp, order[..|order| - 1], n, atol, rtol)
            && CleanColumn(base, comp, order[|order| - 1], n, atol, rtol)
  {
    var k := |order| - 1;
    assert order == order[..k] + [order[k]];
    assert forall c :: c in order <==> c in order[..k] || c == order[k];
  }

  /** The column-by-column findings are empty exactly when every listed column is clean. */
  lemma {:induction false} ColumnsFindingsEmpty(base: Table, comp: Table, order: seq<string>, n: nat, atol: real, rtol: real)
    requires WellFormed(base) && WellFormed(comp) && n <= |base.rows| && n <= |comp.rows|
    requires forall c :: c in order ==> c in Common(base, comp)
    ensures ColumnsFindings(base, comp, order, n, atol, rtol) == [] <==> AllClean(base, comp, order, n, atol, rtol)
    decreases |order|
  {
    if order != [] {
      var k := |order| - 1;
      var front, col := order[..k], order[k];
      AllCleanSnoc(base, comp, order, n, atol, rtol);
      var bs, cs := ColumnValues(base, col)[..n], ColumnValues(comp, col)[..n];
      var floating := Floating(base, comp, col);
      assert ColumnsFindings(base, comp, order, n, atol, rtol)
             == ColumnsFindings(base, comp, front, n, atol, rtol) + ColumnFindings(None, col, bs, cs, floating, atol, rtol);
      ColumnsFindingsEmpty(base, comp, front, n, atol, rtol);
      CleanColumnIff(base, comp, col, n, atol, rtol);
    }
  }

  /** A column is clean exactly when its positional findings are empty. */
  lemma CleanColumnIff(base: Table, comp: Table, col: string, n: nat, atol: real, rtol: real)
    requires WellFormed(base) && WellFormed(comp) && n <= |base.rows| && n <= |comp.rows|
    requires HasColumn(base, col) && HasColumn(comp, col)
    ensures CleanColumn(base, comp, col, n, atol, rtol) <==>
            ColumnFindings(None, col, ColumnValues(base, col)[..n], ColumnValues(comp, col)[..n],
                           Floating(base, comp, col), atol, rtol) == []
  {
    var bs, cs := ColumnValues(base, col)[..n], ColumnValues(comp, col)[..n];
    ColumnFindingsEmpty(None, col, bs, cs, Floating(base, comp, col), atol, rtol);
    assert forall i :: 0 <= i < n ==> bs[i] == ColumnValues(base, col)[i] && cs[i] == ColumnValues(comp, col)[i];
  }

  /** At most one finding per listed column and compared row. */
  lemma {:induction false} ColumnsFindingsBound(base: Table, comp: Table, order: seq<string>, n: nat, atol: real, rtol: real)
    requires WellFormed(base) && WellFormed(comp) && n <= |base.rows| && n <= |comp.rows|
    requires forall c :: c in order ==> c in Common(base, comp)
    ensures |ColumnsFindings(base, comp, order, n, atol, rtol)| <= |order| * n
    decreases |order|
  {
    if order != [] {
      var k := |order| - 1;
      var front, col := order[..k], order[k];
      assert col in order && col in Common(base, comp);
      var bs, cs := ColumnValues(base, col)[..n], ColumnValues(comp, col)[..n];
      var floating := Floating(base, comp, col);
      assert ColumnsFindings(base, comp, order, n, atol, rtol)
             == ColumnsFindings(base, comp, front, n, atol, rtol) + ColumnFindings(None, col, bs, cs, floating, atol, rtol);
      ColumnsFindingsBound(base, comp, front, n, atol, rtol);
      assert |ColumnFindings(None, col, bs, cs, floating, atol, rtol)| <= n;
      MulSucc(k, n);
    }
  }

  lemma MulSucc(k: nat, n: nat)
    ensures (k + 1) * n == k * n + n
  {
  }

  /** The leading row-count finding of positional mode. */
  function RowCountHead(base: Table, comp: Table): (ds: seq<Difference>)
    ensures ds == [] <==> |base.rows| == |comp.rows|
  {
    if |base.rows| != |comp.rows| then [RowCountMismatch(None, None, |base.rows|, |comp.rows|)] else []
  }

  /** The findings of positional mode for one column order. */
  function PositionalFindings(base: Table, comp: Table, order: seq<string>, atol: real, rtol: real): seq<Difference>
    requires WellFormed(base) && WellFormed(comp)
    requires forall c :: c in order ==> c in Common(base, comp)
  {
    var n := if |base.rows| <= |comp.rows| then |base.rows| else |comp.rows|;
    RowCountHead(base, comp) + ColumnsFindings(base, comp, order, n, atol, rtol)
  }

  /** Keyed mode is taken when `by` is non-empty and every key column is in both tables. */
  predicate KeyedMode(base: Table, comp: Table, byVars: seq<string>) {
    |byVars| > 0 && forall b :: b in byVars ==> HasColumn(base, b) && HasColumn(comp, b)
  }

  /**
   * An element of `set(map(tuple, df[by].values))`.  A missing cell of a float key column is
   * a NaN scalar of its own, equal to no other object, so a row holding one is a key that
   * no other row of either table shares: `Lone` names it by its table and row.  Any other
   * row is the tuple of its key cells (a missing object cell is the single `None`).
   */
  datatype GroupKey = Tuple(cells: seq<Cell>) | Lone(inBase: bool, row: nat)

  /** The row's key holds a missing cell of a float column. */
  predicate FloatMissingKey(h: seq<Column>, ks: seq<nat>, r: Row) {
    exists j :: 0 <= j < |ks| && ks[j] < |h| && ks[j] < |r| && h[ks[j]].dtype == Float && r[ks[j]] == Missing
  }

  /** The key of row `i` of a table. */
  function KeyOf(h: seq<Column>, ks: seq<nat>, r: Row, inBase: bool, i: nat): GroupKey {
    if FloatMissingKey(h, ks, r) then Lone(inBase, i) else Tuple(RowKey(r, ks))
  }

  /** `set(map(tuple, df[by].values))`: the distinct keys of the base (or the comparison) table. */
  function KeySet(t: Table, byVars: seq<string>, inBase: bool): (keys: set<GroupKey>)
    requires forall b :: b in byVars ==> b in NameSet(t.header)
    ensures forall i :: 0 <= i < |t.rows| ==>
              (Lone(inBase, i) in keys <==> FloatMissingKey(t.header, Positions(t.header, byVars), t.rows[i]))
    ensures forall k :: k in keys && k.Lone? ==> k.inBase == inBase && k.row < |t.rows|
    ensures forall c :: Tuple(c) in keys <==>
              exists r :: r in t.rows && !FloatMissingKey(t.header, Positions(t.header, byVars), r)
                          && RowKey(r, Positions(t.header, byVars)) == c
  {
    var ks := Positions(t.header, byVars);
    var keys := set i | 0 <= i < |t.rows| :: KeyOf(t.header, ks, t.rows[i], inBase, i);
    forall c | Tuple(c) in keys
      ensures exists r :: r in t.rows && !FloatMissingKey(t.header, ks, r) && RowKey(r, ks) == c
    {
      var i :| 0 <= i < |t.rows| && KeyOf(t.header, ks, t.rows[i], inBase, i) == Tuple(c);
      assert t.rows[i] in t.rows;
    }
    forall c | exists r :: r in t.rows && !FloatMissingKey(t.header, ks, r) && RowKey(r, ks) == c
      ensures Tuple(c) in keys
    {
      var r :| r in t.rows && !FloatMissingKey(t.header, ks, r) && RowKey(r, ks) == c;
      var i :| 0 <= i < |t.rows| && t.rows[i] == r;
      assert KeyOf(t.header, ks, t.rows[i], inBase, i) == Tuple(c);
    }
    keys
  }

  /** Reordering the rows (as sorting does) keeps the tuple keys of a table. */
  lemma KeySetPermutation(t: Table, u: Table, byVars: seq<string>, inBase: bool)
    requires t.header == u.header && multiset(t.rows) == multiset(u.rows)
    requires forall b :: b in byVars ==> b in NameSet(t.header)
    ensures forall k: GroupKey :: k.Tuple? ==> (k in KeySet(t, byVars, inBase) <==> k in KeySet(u, byVars, inBase))
  {
    var ks := Positions(t.header, byVars);
    forall k: GroupKey | k.Tuple? && k in KeySet(t, byVars, inBase) ensures k in KeySet(u, byVars, inBase) {
      var i :| 0 <= i < |t.rows| && KeyOf(t.header, ks, t.rows[i], inBase, i) == k;
      assert t.rows[i] in multiset(u.rows);
      var j :| 0 <= j < |u.rows| && u.rows[j] == t.rows[i];
      assert KeyOf(u.header, ks, u.rows[j], inBase, j) == k;
    }
    forall k: GroupKey | k.Tuple? && k in KeySet(u, byVars, inBase) ensures k in KeySet(t, byVars, inBase) {
      var j :| 0 <= j < |u.rows| && KeyOf(u.header, ks, u.rows[j], inBase, j) == k;
      assert u.rows[j] in multiset(t.rows);
      var i :| 0 <= i < |t.rows| && t.rows[i] == u.rows[j];
      assert KeyOf(t.header, ks, t.rows[i], inBase, i) == k;
    }
  }

  /** A key that two tables share is a tuple: a NaN key belongs to one row of one table. */
  lemma CommonKeysAreTuples(base: Table, comp: Table, byVars: seq<string>)
    requires forall b :: b in byVars ==> b in NameSet(base.header) && b in NameSet(comp.header)
    ensures forall k :: k in KeySet(base, byVars, true) * KeySet(comp, byVars, false) ==> k.Tuple?
  {
    var ks := Positions(comp.header, byVars);
    forall k | k in KeySet(comp, byVars, false) ensures !(k.Lone? && k.inBase) {
      var i :| 0 <= i < |comp.rows| && KeyOf(comp.header, ks, comp.rows[i], false, i) == k;
    }
  }

  /** The keys `Lone(inBase, i)` for the first `n` rows: `n` distinct keys. */
  lemma {:induction false} LoneKeysCount(inBase: bool, n: nat)
    ensures |set i | 0 <= i < n :: Lone(inBase, i)| == n
  {
    if n > 0 {
      LoneKeysCount(inBase, n - 1);
      assert (set i | 0 <= i < n :: Lone(inBase, i))
             == (set i | 0 <= i < n - 1 :: Lone(inBase, i)) + {Lone(inBase, n - 1)};
    }
  }

  /** When every row's key holds a missing float cell, every row is a group of its own. */
  lemma AllLoneKeys(t: Table, byVars: seq<string>, inBase: bool)
    requires forall b :: b in byVars ==> b in NameSet(t.header)
    requires forall r :: r in t.rows ==> FloatMissingKey(t.header, Positions(t.header, byVars), r)
    ensures KeySet(t, byVars, inBase) == set i | 0 <= i < |t.rows| :: Lone(inBase, i)
    ensures |KeySet(t, byVars, inBase)| == |t.rows|
  {
    var ks := Positions(t.header, byVars);
    assert forall i :: 0 <= i < |t.rows| ==> KeyOf(t.header, ks, t.rows[i], inBase, i) == Lone(inBase, i) by {
      forall i | 0 <= i < |t.rows| ensures KeyOf(t.header, ks, t.rows[i], inBase, i) == Lone(inBase, i) {
        assert t.rows[i] in t.rows;
      }
    }
    LoneKeysCount(inBase, |t.rows|);
  }

  /** The group counts of keyed mode. */
  datatype GroupCounts = GroupCounts(byGroupCountMatch: bool, baseOnlyGroups: nat, compOnlyGroups: nat, commonGroups: nat)

  /**
   * The group counts of the two key sets.  They are consistent: each side's keys split into
   * its own and the common ones, so the key counts agree exactly when the one-sided counts do.
   */
  function CountGroups(baseKeys: set<GroupKey>, compKeys: set<GroupKey>): (g: GroupCounts)
    ensures g.baseOnlyGroups + g.commonGroups == |baseKeys|
    ensures g.compOnlyGroups + g.commonGroups == |compKeys|
    ensures g.byGroupCountMatch <==> g.baseOnlyGroups == g.compOnlyGroups
  {
    assert baseKeys == (baseKeys - compKeys) + (baseKeys * compKeys);
    assert compKeys == (compKeys - baseKeys) + (baseKeys * compKeys);
    GroupCounts(|baseKeys| == |compKeys|, |baseKeys - compKeys|, |compKeys - baseKeys|, |baseKeys * compKeys|)
  }

  /** The result dictionary of `compare`. */
  datatype Report = Report(
    rowCountMatch: bool, baseRows: nat, compRows: nat,
    columnCountMatch: bool, baseColumns: nat, compColumns: nat,
    columnNamesMatch: bool,
    groups: Option<GroupCounts>,
    differences: seq<Difference>,
    matches: bool, differenceCount: nat)

  /**
   * What `compare` promises: the shape counts; in keyed mode the group counts of the key
   * sets of the sorted tables and no differences; in positional mode the findings of some iteration order of
   * the common columns; and `match` / `difference_count` read off the differences.
   */
  ghost predicate IsReport(base: Table, comp: Table, byVars: seq<string>, atol: real, rtol: real, r: Report)
    requires WellFormed(base) && WellFormed(comp)
  {
    && r.rowCountMatch == (|base.rows| == |comp.rows|)
    && r.baseRows == |base.rows| && r.compRows == |comp.rows|
    && r.columnCountMatch == (|base.header| == |comp.header|)
    && r.baseColumns == |base.header| && r.compColumns == |comp.header|
    && r.columnNamesMatch == (NameSet(base.header) == NameSet(comp.header))
    && (if KeyedMode(base, comp, byVars) then
          r.groups == Some(CountGroups(KeySet(SortTable(base, byVars, false), byVars, true),
                                       KeySet(SortTable(comp, byVars, false), byVars, false)))
          && r.differences == []
        else
          r.groups == None
          && exists order :: IsColumnOrder(order, Common(base, comp))
                             && r.differences == PositionalFindings(base, comp, order, atol, rtol))
    && r.matches == (r.differences == [])
    && r.differenceCount == |r.differences|
  }

  /**
   * The rows of a sorted table whose key equals `key` (the `.loc[...]` group selection).
   * The element-wise `==` of pandas is false on a missing cell, so a key holding a missing
   * cell selects no row.
   */
  function Group(t: Table, ks: seq<nat>, key: seq<Cell>): (g: Table)
    requires WellFormed(t)
    ensures WellFormed(g) && g.header == t.header
  {
    var rows := FilterRows(t.rows, (r: Row) => RowKey(r, ks) == key && Missing !in key);
    assert forall i :: 0 <= i < |rows| ==> rows[i] in t.rows;
    Table(t.header, rows)
  }

  /**
   * The per-group comparison of keyed mode: for each common key and each common non-key
   * column, a row-count finding when the group sizes differ, otherwise the cell findings.
   * `compare` computes this list and drops it.
   */
  method KeyedFindings(baseSorted: Table, compSorted: Table, byVars: seq<string>,
                       commonKeys: set<GroupKey>, atol: real, rtol: real) returns (differences: seq<Difference>)
    requires WellFormed(baseSorted) && WellFormed(compSorted) && KeyedMode(baseSorted, compSorted, byVars)
    requires forall k :: k in commonKeys ==> k.Tuple?
    ensures forall d :: d in differences ==> d.RowCountMismatch? || d.CellMismatch?
    ensures forall d :: d in differences && d.RowCountMismatch? ==>
              d.byValues.Some? && Tuple(d.byValues.value) in commonKeys && d.column.Some? && d.column.value !in byVars
    ensures forall d :: d in differences && d.CellMismatch? ==>
              d.byKey.Some? && Tuple(d.byKey.value) in commonKeys && d.variable !in byVars
  {
    differences := [];
    var keys := commonKeys;
    while keys != {}
      invariant keys <= commonKeys
      invariant forall d :: d in differences && d.RowCountMismatch? ==>
                  d.byValues.Some? && Tuple(d.byValues.value) in commonKeys && d.column.Some? && d.column.value !in byVars
      invariant forall d :: d in differences && d.CellMismatch? ==>
                  d.byKey.Some? && Tuple(d.byKey.value) in commonKeys && d.variable !in byVars
      decreases keys
    {
      var k :| k in keys;
      var key := k.cells;
      var baseGroup := Group(baseSorted, Positions(baseSorted.header, byVars), key);
      var compGroup := Group(compSorted, Positions(compSorted.header, byVars), key);
      var cols := Common(baseGroup, compGroup);
      while cols != {}
        invariant cols <= Common(baseGroup, compGroup)
        invariant forall d :: d in differences && d.RowCountMismatch? ==>
                    d.byValues.Some? && Tuple(d.byValues.value) in commonKeys && d.column.Some? && d.column.value !in byVars
        invariant forall d :: d in differences && d.CellMismatch? ==>
                    d.byKey.Some? && Tuple(d.byKey.value) in commonKeys && d.variable !in byVars
        decreases cols
      {
        var col :| col in cols;
        if col !in byVars {
          var bs, cs := ColumnValues(baseGroup, col), ColumnValues(compGroup, col);
          if |bs| != |cs| {
            differences := differences + [RowCountMismatch(Some(key), Some(col), |bs|, |cs|)];
          } else {
            var found := ScanColumn(Some(key), col, bs, cs, Floating(baseGroup, compGroup, col), atol, rtol);
            assert forall d :: d in found ==> d.CellMismatch? && d.byKey == Some(key) && d.variable == col by {
              forall d | d in found ensures d.CellMismatch? && d.byKey == Some(key) && d.variable == col {
                var k :| 0 <= k < |found| && found[k] == d;
              }
            }
            differences := differences + found;
          }
        }
        cols := cols - {col};
      }
      keys := keys - {k};
    }
  }

  /**
   * The column loop of positional mode: visits every common column once, in an order the
   * set iteration chooses, and collects the findings of its first `n` rows.
   */
  method ScanColumns(base: Table, comp: Table, n: nat, atol: real, rtol: real)
    returns (differences: seq<Difference>, ghost order: seq<string>)
    requires WellFormed(base) && WellFormed(comp) && n <= |base.rows| && n <= |comp.rows|
    ensures IsColumnOrder(order, Common(base, comp))
    ensures differences == ColumnsFindings(base, comp, order, n, atol, rtol)
    ensures differences == [] <==> forall c :: c in Common(base, comp) ==> CleanColumn(base, comp, c, n, atol, rtol)
  {
    differences := [];
    order := [];
    var remaining := Common(base, comp);
    while remaining != {}
      invariant remaining <= Common(base, comp)
      invariant forall i, j :: 0 <= i < j < |order| ==> order[i] != order[j]
      invariant forall c :: c in order <==> c in Common(base, comp) && c !in remaining
      invariant differences == ColumnsFindings(base, comp, order, n, atol, rtol)
      decreases remaining
    {
      var col :| col in remaining;
      var bs, cs := ColumnValues(base, col)[..n], ColumnValues(comp, col)[..n];
      var found := ScanColumn(None, col, bs, cs, Floating(base, comp, col), atol, rtol);
      differences := differences + found;
      ghost var prev := order;
      order := order + [col];
      assert order[..|order| - 1] == prev;
      remaining := remaining - {col};
    }
    ColumnsFindingsEmpty(base, comp, order, n, atol, rtol);
  }

  /** `compare(base, comp, by, numeric_abs_tol, numeric_rel_tol)` */
  method Compare(base: Table, comp: Table, byVars: seq<string>, absTol: real, relTol: real) returns (r: Report)
    requires WellFormed(base) && WellFormed(comp)
    ensures IsReport(base, comp, byVars, absTol, relTol, r)
  {
    var differences: seq<Difference> := [];
    var groups: Option<GroupCounts> := None;
    if KeyedMode(base, comp, byVars) {
      var baseSorted := SortTable(base, byVars, false);
      var compSorted := SortTable(comp, byVars, false);
      var baseKeys, compKeys := KeySet(baseSorted, byVars, true), KeySet(compSorted, byVars, false);
      CommonKeysAreTuples(baseSorted, compSorted, byVars);
      groups := Some(CountGroups(baseKeys, compKeys));
      var local := KeyedFindings(baseSorted, compSorted, byVars, baseKeys * compKeys, absTol, relTol);
    } else {
      var n := if |base.rows| <= |comp.rows| then |base.rows| else |comp.rows|;
      ghost var order: seq<string>;
      var found: seq<Difference>;
      found, order := ScanColumns(base, comp, n, absTol, relTol);
      differences := RowCountHead(base, comp) + found;
    }
    r := Report(|base.rows| == |comp.rows|, |base.rows|, |comp.rows|,
                |base.header| == |comp.header|, |base.header|, |comp.header|,
                NameSet(base.header) == NameSet(comp.header),
                groups, differences, |differences| == 0, |differences|);
  }

  /** Comparing a table with itself reports a match, in either mode. */
  lemma CompareSelfMatches(t: Table, byVars: seq<string>, atol: real, rtol: real, r: Report)
    requires WellFormed(t) && atol >= 0.0 && rtol >= 0.0
    requires IsReport(t, t, byVars, atol, rtol, r)
    ensures r.matches && r.differenceCount == 0 && r.rowCountMatch && r.columnNamesMatch
  {
    if !KeyedMode(t, t, byVars) {
      var order :| IsColumnOrder(order, Common(t, t)) && r.differences == PositionalFindings(t, t, order, atol, rtol);
      forall c | c in order ensures CleanColumn(t, t, c, |t.rows|, atol, rtol) {
        forall i | 0 <= i < |t.rows| {
          JudgeReflexive(ColumnValues(t, c)[i], Floating(t, t, c), atol, rtol);
        }
      }
      ColumnsFindingsEmpty(t, t, order, |t.rows|, atol, rtol);
    }
  }

  /**
   * In positional mode the report matches exactly when the row counts agree and every
   * common column agrees on every compared row.
   */
  lemma PositionalMatchIff(base: Table, comp: Table, byVars: seq<string>, atol: real, rtol: real, r: Report)
    requires WellFormed(base) && WellFormed(comp) && !KeyedMode(base, comp, byVars)
    requires IsReport(base, comp, byVars, atol, rtol, r)
    ensures r.matches <==>
              |base.rows| == |comp.rows|
              && forall c :: c in Common(base, comp) ==> CleanColumn(base, comp, c, |base.rows|, atol, rtol)
  {
    var order :| IsColumnOrder(order, Common(base, comp)) && r.differences == PositionalFindings(base, comp, order, atol, rtol);
    var n := if |base.rows| <= |comp.rows| then |base.rows| else |comp.rows|;
    ColumnsFindingsEmpty(base, comp, order, n, atol, rtol);
  }

  /** The positional report holds at most one row-count finding plus one finding per common cell compared. */
  lemma PositionalDifferenceBound(base: Table, comp: Table, byVars: seq<string>, atol: real, rtol: real, r: Report)
    requires WellFormed(base) && WellFormed(comp) && !KeyedMode(base, comp, byVars)
    requires IsReport(base, comp, byVars, atol, rtol, r)
    ensures r.differenceCount <= 1 + |Common(base, comp)| * (if |base.rows| <= |comp.rows| then |base.rows| else |comp.rows|)
  {
    var order :| IsColumnOrder(order, Common(base, comp)) && r.differences == PositionalFindings(base, comp, order, atol, rtol);
    var n := if |base.rows| <= |comp.rows| then |base.rows| else |comp.rows|;
    ColumnsFindingsBound(base, comp, order, n, atol, rtol);
    DistinctLength(order, Common(base, comp));
  }

  /** A duplicate-free listing of a set is as long as the set is large. */
  lemma {:induction false} DistinctLength(order: seq<string>, s: set<string>)
    requires IsColumnOrder(order, s)
    ensures |order| == |s|
    decreases |order|
  {
    if order != [] {
      var k := |order| - 1;
      var front := order[..k];
      assert order == front + [order[k]];
      assert IsColumnOrder(front, s - {order[k]}) by {
        forall c ensures c in front <==> c in s - {order[k]} {
          if c in front {
            var i :| 0 <= i < k && front[i] == c;
          }
        }
      }
      DistinctLength(front, s - {order[k]});
    }
  }

  /**
   * Keyed mode never reports a difference: the per-group findings are collected into a
   * list that the report does not include.
   */
  lemma KeyedModeMatches(base: Table, comp: Table, byVars: seq<string>, atol: real, rtol: real, r: Report)
    requires WellFormed(base) && WellFormed(comp) && KeyedMode(base, comp, byVars)
    requires IsReport(base, comp, byVars, atol, rtol, r)
    ensures r.matches && r.differenceCount == 0 && r.groups.Some?
    ensures r.groups.value.byGroupCountMatch <==> r.groups.value.baseOnlyGroups == r.groups.value.compOnlyGroups
  {
  }

  /**
   * Rows whose key holds a missing float cell never group together: when every row of both
   * tables has one, each row is a one-sided group of its own and no group is common.
   */
  lemma MissingFloatKeysAreSeparateGroups(base: Table, comp: Table, byVars: seq<string>, atol: real, rtol: real, r: Report)
    requires WellFormed(base) && WellFormed(comp) && KeyedMode(base, comp, byVars)
    requires IsReport(base, comp, byVars, atol, rtol, r)
    requires forall row :: row in base.rows ==> FloatMissingKey(base.header, Positions(base.header, byVars), row)
    requires forall row :: row in comp.rows ==> FloatMissingKey(comp.header, Positions(comp.header, byVars), row)
    ensures r.groups == Some(GroupCounts(|base.rows| == |comp.rows|, |base.rows|, |comp.rows|, 0))
  {
    var bs, cs := SortTable(base, byVars, false), SortTable(comp, byVars, false);
    SortedRowsLone(base, bs, byVars);
    SortedRowsLone(comp, cs, byVars);
    LoneGroupCounts(bs, cs, byVars);
  }

  /** The group counts of two tables whose every key holds a missing float cell. */
  lemma LoneGroupCounts(base: Table, comp: Table, byVars: seq<string>)
    requires forall b :: b in byVars ==> b in NameSet(base.header) && b in NameSet(comp.header)
    requires forall row :: row in base.rows ==> FloatMissingKey(base.header, Positions(base.header, byVars), row)
    requires forall row :: row in comp.rows ==> FloatMissingKey(comp.header, Positions(comp.header, byVars), row)
    ensures CountGroups(KeySet(base, byVars, true), KeySet(comp, byVars, false))
            == GroupCounts(|base.rows| == |comp.rows|, |base.rows|, |comp.rows|, 0)
  {
    AllLoneKeys(base, byVars, true);
    AllLoneKeys(comp, byVars, false);
    var bk, ck := KeySet(base, byVars, true), KeySet(comp, byVars, false);
    assert bk * ck == {};
    assert bk - ck == bk;
    assert ck - bk == ck;
  }

  /** Sorting keeps the row count and the rows, so a property of every row survives it. */
  lemma SortedRowsLone(t: Table, u: Table, byVars: seq<string>)
    requires u.header == t.header && multiset(u.rows) == multiset(t.rows)
    requires forall b :: b in byVars ==> b in NameSet(t.header)
    requires forall row :: row in t.rows ==> FloatMissingKey(t.header, Positions(t.header, byVars), row)
    ensures |u.rows| == |t.rows|
    ensures forall row :: row in u.rows ==> FloatMissingKey(u.header, Positions(u.header, byVars), row)
  {
    assert |multiset(u.rows)| == |multiset(t.rows)|;
    forall row | row in u.rows ensures row in t.rows {
      assert row in multiset(u.rows);
    }
  }

  /** A library directory as the file system shows it: its path, whether it is a directory, its listing. */
  datatype Library = Library(path: string, isDirectory: bool, entries: seq<string>)

  /** The `ValueError` of `complibs`, naming the library that is not a directory. */
  datatype LibError = FirstNotDirectory(path: string) | SecondNotDirectory(path: string)

  /**
   * `os.path.splitext(f)[0]`: the name without its last extension, where an extension is a
   * final `.` after the last `/` with some character other than `.` before it in the file name.
   */
  function Stem(f: string): (s: string)
    ensures |s| <= |f| && s == f[..|s|]
  {
    var dot, sep := LastIndex(f, '.'), LastIndex(f, '/');
    if dot > sep && exists k :: sep < k < dot && f[k] != '.' then f[..dot] else f
  }

  /** A lower-cased character is a dot only when it was one. */
  lemma LowerCharDot(c: char)
    ensures LowerChar(c) == '.' <==> c == '.'
  {
  }

  /**
   * The stem of a `.sas7bdat` file name (any letter case) whose name has something other
   * than dots before the extension is the name without its last nine characters.
   */
  lemma StemOfSasFile(f: string)
    requires EndsWith(Lower(f), ".sas7bdat") && forall i :: 0 <= i < |f| ==> f[i] != '/'
    requires exists k :: 0 <= k < |f| - 9 && f[k] != '.'
    ensures Stem(f) == f[..|f| - 9]
  {
    SasExtension(f);
    assert LastIndex(f, '.') == |f| - 9;
    assert LastIndex(f, '/') == -1;
  }

  /** A name whose lower-cased form ends in `.sas7bdat` has its last dot nine characters from the end. */
  lemma SasExtension(f: string)
    requires EndsWith(Lower(f), ".sas7bdat")
    ensures |f| >= 9 && f[|f| - 9] == '.'
    ensures forall j :: |f| - 9 < j < |f| ==> f[j] != '.'
  {
    var d := |f| - 9;
    var ext := Lower(f)[d..];
    assert ext == ".sas7bdat";
    forall j | d <= j < |f| ensures LowerChar(f[j]) == ext[j - d] {
    }
    LowerCharDot(f[d]);
    forall j | d < j < |f| ensures f[j] != '.' {
      LowerCharDot(f[j]);
    }
  }

  /** The listing entries whose lower-cased name ends in `.sas7bdat`, in listing order. */
  function SasFiles(lib: Library): (fs: seq<string>)
    ensures forall f :: f in fs <==> f in lib.entries && EndsWith(Lower(f), ".sas7bdat")
  {
    FilterRows(lib.entries, (f: string) => EndsWith(Lower(f), ".sas7bdat"))
  }

  /** The dataset name of a file: its lower-cased stem. */
  function DatasetName(f: string): (n: string)
    ensures |n| <= |f| && Lower(n) == n
  {
    LowerIdempotent(Stem(f));
    Lower(Stem(f))
  }

  /** `{f(x) for x in s}` */
  function Image<T, U>(s: seq<T>, f: T -> U): (r: set<U>)
    ensures forall i :: 0 <= i < |s| ==> f(s[i]) in r
  {
    if s == [] then {} else {f(s[0])} + Image(s[1..], f)
  }

  /** Every element of the image is the image of some element. */
  lemma {:induction false} ImageWitness<T, U>(s: seq<T>, f: T -> U, y: U)
    requires y in Image(s, f)
    ensures exists i :: 0 <= i < |s| && f(s[i]) == y
  {
    if f(s[0]) != y {
      ImageWitness(s[1..], f, y);
      var i :| 0 <= i < |s[1..]| && f(s[1..][i]) == y;
      assert f(s[i + 1]) == y;
    }
  }

  /** The image holds exactly the images of the elements. */
  lemma ImageMembers<T, U>(s: seq<T>, f: T -> U)
    ensures forall y :: y in Image(s, f) <==> exists x :: x in s && f(x) == y
  {
    forall y | y in Image(s, f) ensures exists x :: x in s && f(x) == y {
      ImageWitness(s, f, y);
      var i :| 0 <= i < |s| && f(s[i]) == y;
      assert s[i] in s;
    }
    forall y | exists x :: x in s && f(x) == y ensures y in Image(s, f) {
      var x :| x in s && f(x) == y;
      var i :| 0 <= i < |s| && s[i] == x;
    }
  }

  /** `set(lib_names)` */
  function DatasetNames(lib: Library): set<string> {
    Image(SasFiles(lib), DatasetName)
  }

  /** The dataset names are exactly the names of the listed `.sas7bdat` files. */
  lemma DatasetNamesMembers(lib: Library)
    ensures forall n :: n in DatasetNames(lib) <==> exists f :: f in SasFiles(lib) && DatasetName(f) == n
  {
    ImageMembers(SasFiles(lib), DatasetName);
  }

  /** Dataset names are lower case, so a name matches however its files are capitalised. */
  lemma DatasetNamesLowerCase(lib: Library, name: string)
    requires name in DatasetNames(lib)
    ensures Lower(name) == name
  {
    var fs := SasFiles(lib);
    ImageWitness(fs, DatasetName, name);
    var i :| 0 <= i < |fs| && DatasetName(fs[i]) == name;
    LowerIdempotent(Stem(fs[i]));
  }

  /** `common_datasets` */
  function CommonDatasets(lib1: Library, lib2: Library): set<string> {
    DatasetNames(lib1) * DatasetNames(lib2)
  }

  /** A dataset is common when each library lists a `.sas7bdat` file of that name. */
  lemma CommonDatasetsMembers(lib1: Library, lib2: Library, n: string)
    ensures n in CommonDatasets(lib1, lib2) <==>
              (exists f :: f in SasFiles(lib1) && DatasetName(f) == n) && (exists f :: f in SasFiles(lib2) && DatasetName(f) == n)
  {
    DatasetNamesMembers(lib1);
    DatasetNamesMembers(lib2);
  }

  /** `next(x for x in s[from:] if p(x))`: the position of the first element at or after `from` that satisfies `p`. */
  function FirstIndex<T>(s: seq<T>, p: T -> bool, from: nat): (i: nat)
    requires from <= |s| && exists j :: from <= j < |s| && p(s[j])
    ensures from <= i < |s| && p(s[i])
    ensures forall j :: from <= j < i ==> !p(s[j])
    decreases |s| - from
  {
    if p(s[from]) then from else FirstIndex(s, p, from + 1)
  }

  /** `next(f for f in files if stem(f).lower() == name)`: the first file of dataset `name`. */
  function FirstFileFor(files: seq<string>, name: string): (f: string)
    requires name in Image(files, DatasetName)
    ensures f in files && DatasetName(f) == name
  {
    var p := (g: string) => DatasetName(g) == name;
    assert exists j :: 0 <= j < |files| && p(files[j]) by {
      ImageWitness(files, DatasetName, name);
    }
    files[FirstIndex(files, p, 0)]
  }

  /** `os.path.join(dir, f)` for a relative file name. */
  function JoinPath(dir: string, f: string): (p: string)
    ensures EndsWith(p, f)
  {
    var p := if f != [] && f[0] == '/' then f
             else if dir == [] || dir[|dir| - 1] == '/' then dir + f
             else dir + "/" + f;
    assert p[|p| - |f|..] == f;
    p
  }

  /** Lower-casing a path lower-cases its tail, so the joined path keeps the file's extension. */
  lemma JoinedSasPath(dir: string, f: string)
    requires EndsWith(Lower(f), ".sas7bdat")
    ensures FormatOf(JoinPath(dir, f)) == Some(Sas7bdat)
  {
    var p := JoinPath(dir, f);
    var n := |p| - |f|;
    LowerSuffix(p, n);
    assert p[n..] == f;
    assert Lower(p)[|p| - 9..] == Lower(f)[|f| - 9..];
  }

  /** The file of dataset `name` in `lib`, read with `read_sas` and with its missing markers converted. */
  function LoadDataset(lib: Library, name: string,
                       readSas7bdat: string -> (Table, Meta), readXport: string -> (Table, Meta)): (t: Table)
    requires name in DatasetNames(lib)
    requires forall p :: WellFormed(readSas7bdat(p).0)
    ensures WellFormed(t)
    ensures t == HandleSasMissing(readSas7bdat(JoinPath(lib.path, FirstFileFor(SasFiles(lib), name))).0)
  {
    var f := FirstFileFor(SasFiles(lib), name);
    var path := JoinPath(lib.path, f);
    JoinedSasPath(lib.path, f);
    var read := ReadSas(path, true, readSas7bdat, readXport);
    HandleSasMissing(read.value.0)
  }

  /** `[v for v in sortvars if v in ds1.columns and v in ds2.columns]` */
  function SharedSortVars(ds1: Table, ds2: Table, sortvars: seq<string>): (ks: seq<string>)
    ensures forall v :: v in ks <==> v in sortvars && HasColumn(ds1, v) && HasColumn(ds2, v)
  {
    FilterRows(sortvars, (v: string) => HasColumn(ds1, v) && HasColumn(ds2, v))
  }

  /**
   * `sort_values(sort_vars)` of both tables when some sort variable is in both, each table
   * itself otherwise: each result holds its table's rows under its header, ordered by the
   * shared sort variables with missing keys last.
   */
  function SortedPair(ds1: Table, ds2: Table, sortvars: seq<string>): (pair: (Table, Table))
    requires WellFormed(ds1) && WellFormed(ds2)
    ensures WellFormed(pair.0) && WellFormed(pair.1)
    ensures pair.0.header == ds1.header && multiset(pair.0.rows) == multiset(ds1.rows)
    ensures pair.1.header == ds2.header && multiset(pair.1.rows) == multiset(ds2.rows)
    ensures SharedSortVars(ds1, ds2, sortvars) == [] ==> pair == (ds1, ds2)
    ensures SharedSortVars(ds1, ds2, sortvars) != [] ==>
              && SortedBy(pair.0.rows, Positions(ds1.header, SharedSortVars(ds1, ds2, sortvars)), false)
              && SortedBy(pair.1.rows, Positions(ds2.header, SharedSortVars(ds1, ds2, sortvars)), false)
  {
    var ks := SharedSortVars(ds1, ds2, sortvars);
    if |sortvars| > 0 && |ks| > 0 then (SortTable(ds1, ks, false), SortTable(ds2, ks, false)) else (ds1, ds2)
  }

  /** The two tables `complibs` compares for `name`: the loaded datasets, sorted by the shared sort variables. */
  function PreparedPair(lib1: Library, lib2: Library, name: string, sortvars: seq<string>,
                        readSas7bdat: string -> (Table, Meta), readXport: string -> (Table, Meta)): (pair: (Table, Table))
    requires name in CommonDatasets(lib1, lib2)
    requires forall p :: WellFormed(readSas7bdat(p).0)
    ensures WellFormed(pair.0) && WellFormed(pair.1)
    ensures pair == SortedPair(LoadDataset(lib1, name, readSas7bdat, readXport),
                               LoadDataset(lib2, name, readSas7bdat, readXport), sortvars)
  {
    SortedPair(LoadDataset(lib1, name, readSas7bdat, readXport), LoadDataset(lib2, name, readSas7bdat, readXport), sortvars)
  }

  /** `ds[vars_both] if vars_both else pd.DataFrame()` */
  function Projected(ds: Table, both: set<string>): (t: Table)
    requires WellFormed(ds)
    ensures WellFormed(t)
    ensures both == {} ==> t == Table([], [])
    ensures both != {} ==> NameSet(t.header) == NameSet(ds.header) * both && |t.rows| == |ds.rows|
  {
    if both == {} then Table([], []) else Select(ds, both)
  }

  /** One value of the `complibs` result dictionary. */
  datatype LibEntry = LibEntry(rowCountMatch: bool, ds1Rows: nat, ds2Rows: nat,
                               varsLeft: set<string>, varsRight: set<string>, varsBoth: set<string>,
                               comparison: Report)

  /**
   * What `complibs` records for one prepared pair of tables: their row counts, their
   * variable partition, and a `compare` report of their common columns with `by = sortvars`.
   */
  ghost predicate IsEntry(pair: (Table, Table), sortvars: seq<string>, e: LibEntry) {
    && WellFormed(pair.0) && WellFormed(pair.1)
    && var v := CompVars(pair.0, pair.1);
    && e.rowCountMatch == (|pair.0.rows| == |pair.1.rows|)
    && e.ds1Rows == |pair.0.rows| && e.ds2Rows == |pair.1.rows|
    && e.varsLeft == v.left && e.varsRight == v.right && e.varsBoth == v.both
    && IsReport(Projected(pair.0, v.both), Projected(pair.1, v.both), sortvars, DefaultAbsTol, DefaultRelTol, e.comparison)
  }

  /** The body of the `complibs` loop for one prepared pair: partition the variables, compare the common ones. */
  method CompareDataset(pair: (Table, Table), sortvars: seq<string>) returns (e: LibEntry)
    requires WellFormed(pair.0) && WellFormed(pair.1)
    ensures IsEntry(pair, sortvars, e)
  {
    var ds1, ds2 := pair.0, pair.1;
    var v := CompVars(ds1, ds2);
    var comparison := Compare(Projected(ds1, v.both), Projected(ds2, v.both), sortvars, DefaultAbsTol, DefaultRelTol);
    e := LibEntry(|ds1.rows| == |ds2.rows|, |ds1.rows|, |ds2.rows|, v.left, v.right, v.both, comparison);
  }

  /**
   * `complibs(lib1_path, lib2_path, sortvars)`: fails when either path is not a directory
   * (the first one is checked first), otherwise maps every dataset name the two libraries
   * share to its entry.  `readSas7bdat` and `readXport` are the binary decoders.
   */
  method CompLibs(lib1: Library, lib2: Library, sortvars: seq<string>,
                  readSas7bdat: string -> (Table, Meta), readXport: string -> (Table, Meta))
    returns (r: Result<map<string, LibEntry>, LibError>)
    requires forall p :: WellFormed(readSas7bdat(p).0)
    ensures !lib1.isDirectory ==> r == Failure(FirstNotDirectory(lib1.path))
    ensures lib1.isDirectory && !lib2.isDirectory ==> r == Failure(SecondNotDirectory(lib2.path))
    ensures lib1.isDirectory && lib2.isDirectory ==>
              && r.Success? && r.value.Keys == CommonDatasets(lib1, lib2)
              && forall name :: name in r.value ==>
                   IsEntry(PreparedPair(lib1, lib2, name, sortvars, readSas7bdat, readXport), sortvars, r.value[name])
  {
    if !lib1.isDirectory {
      return Failure(FirstNotDirectory(lib1.path));
    }
    if !lib2.isDirectory {
      return Failure(SecondNotDirectory(lib2.path));
    }
    var common := CommonDatasets(lib1, lib2);
    var prepare := (name: string) requires name in common && forall p :: WellFormed(readSas7bdat(p).0) =>
      PreparedPair(lib1, lib2, name, sortvars, readSas7bdat, readXport);
    var results := CompareEach(common, prepare, sortvars);
    r := Success(results);
  }

  /** The loop of `complibs` over the common dataset names, in set-iteration order; `prepare` loads and sorts one pair. */
  method CompareEach(common: set<string>, prepare: string --> (Table, Table), sortvars: seq<string>)
    returns (results: map<string, LibEntry>)
    requires forall name :: name in common ==>
               prepare.requires(name) && WellFormed(prepare(name).0) && WellFormed(prepare(name).1)
    ensures results.Keys == common
    ensures forall name :: name in results ==> IsEntry(prepare(name), sortvars, results[name])
  {
    var remaining := common;
    results := map[];
    while remaining != {}
      invariant remaining <= common
      invariant results.Keys == common - remaining
      invariant forall name :: name in results ==> IsEntry(prepare(name), sortvars, results[name])
      decreases remaining
    {
      var name :| name in remaining;
      var entry := CompareDataset(prepare(name), sortvars);
      results := results[name := entry];
      remaining := remaining - {name};
    }
  }

  /** Comparing a library with itself matches every dataset on every count and every cell. */
  lemma CompLibsSelfMatches(lib: Library, name: string, sortvars: seq<string>,
                            readSas7bdat: string -> (Table, Meta), readXport: string -> (Table, Meta), e: LibEntry)
    requires name in CommonDatasets(lib, lib)
    requires forall p :: WellFormed(readSas7bdat(p).0)
    requires IsEntry(PreparedPair(lib, lib, name, sortvars, readSas7bdat, readXport), sortvars, e)
    ensures e.rowCountMatch && e.varsLeft == {} && e.varsRight == {}
    ensures e.comparison.matches
  {
    var pair := PreparedPair(lib, lib, name, sortvars, readSas7bdat, readXport);
    var v := CompVars(pair.0, pair.1);
    assert pair.0 == pair.1;
    CompareSelfMatches(Projected(pair.0, v.both), sortvars, DefaultAbsTol, DefaultRelTol, e.comparison);
  }
}

=== FILE: phuse_utils.dfy ===
/**
 * The PhUSE utility macros of the pandas implementation: parameter labels, distinct counts,
 * reference lines, padded axis ranges and fixed-size visit pages.
 */
module PhuseUtils {
  import opened Wrappers
  import opened Frames
  import opened Reals

  /** The (code, label) cell pair of every row, in row order: `df[[code_col, label_col]]`. */
  function CodeLabelPairs(t: Table, codeCol: string, labelCol: string): (ps: seq<(Cell, Cell)>)
    requires WellFormed(t) && HasColumn(t, codeCol) && HasColumn(t, labelCol)
    ensures |ps| == |t.rows|
    ensures forall i :: 0 <= i < |t.rows| ==>
              ps[i] == (t.rows[i][IndexOf(t.header, codeCol)], t.rows[i][IndexOf(t.header, labelCol)])
  {
    var c, l := IndexOf(t.header, codeCol), IndexOf(t.header, labelCol);
    seq(|t.rows|, i requires 0 <= i < |t.rows| => (t.rows[i][c], t.rows[i][l]))
  }

  /** A pair in which neither cell is missing survives `dropna()`. */
  predicate Complete(p: (Cell, Cell)) {
    p.0 != Missing && p.1 != Missing
  }

  /**
   * `dict(zip(codes, labels))`: every code becomes a key, mapped to the label of one of its
   * pairs (`ZipToMapLastWins`: of its last pair).
   */
  function ZipToMap(ps: seq<(Cell, Cell)>): (m: map<Cell, Cell>)
    ensures forall k :: k in m <==> exists i :: 0 <= i < |ps| && ps[i].0 == k
    ensures forall k :: k in m ==> (k, m[k]) in ps
    decreases |ps|
  {
    if ps == [] then map[]
    else
      var n := |ps| - 1;
      var front := ZipToMap(ps[..n]);
      var m := front[ps[n].0 := ps[n].1];
      forall k | exists i :: 0 <= i < |ps| && ps[i].0 == k
        ensures k in m
      {
        var i :| 0 <= i < |ps| && ps[i].0 == k;
        if i < n {
          assert ps[..n][i].0 == k;
        }
      }
      forall k | k in m
        ensures (k, m[k]) in ps
      {
        if k != ps[n].0 {
          assert (k, front[k]) in ps[..n];
        }
      }
      m
  }

  /** A code that occurs more than once takes the label of its last pair. */
  lemma {:induction false} ZipToMapLastWins(ps: seq<(Cell, Cell)>, i: nat)
    requires i < |ps| && forall j :: i < j < |ps| ==> ps[j].0 != ps[i].0
    ensures ps[i].0 in ZipToMap(ps) && ZipToMap(ps)[ps[i].0] == ps[i].1
    decreases |ps|
  {
    var n := |ps| - 1;
    if i < n {
      ZipToMapLastWins(ps[..n], i);
    }
  }

  /**
   * `get_parameter_metadata(df, code, label)`: the distinct complete (code, label) pairs, in
   * order of first occurrence, turned into a dictionary.
   */
  function GetParameterMetadata(t: Table, codeCol: string, labelCol: string): (m: map<Cell, Cell>)
    requires WellFormed(t) && HasColumn(t, codeCol) && HasColumn(t, labelCol)
    ensures forall k :: k in m <==>
              exists i :: 0 <= i < |t.rows| && CodeLabelPairs(t, codeCol, labelCol)[i].0 == k
                          && Complete(CodeLabelPairs(t, codeCol, labelCol)[i])
    ensures forall k :: k in m ==>
              m[k] != Missing && (k, m[k]) in CodeLabelPairs(t, codeCol, labelCol)
  {
    var ps := CodeLabelPairs(t, codeCol, labelCol);
    var kept := FilterRows(Distinct(ps), Complete);
    var m := ZipToMap(kept);
    assert forall k :: k in m ==> (k, m[k]) in kept;
    forall k | exists i :: 0 <= i < |ps| && ps[i].0 == k && Complete(ps[i])
      ensures k in m
    {
      var i :| 0 <= i < |ps| && ps[i].0 == k && Complete(ps[i]);
      assert ps[i] in kept;
    }
    m
  }

  /**
   * When every complete row with a given code carries the same label, the dictionary gives
   * every complete row's code that row's label.
   */
  lemma ParameterMetadataFunctional(t: Table, codeCol: string, labelCol: string, i: nat)
    requires WellFormed(t) && HasColumn(t, codeCol) && HasColumn(t, labelCol)
    requires i < |t.rows| && Complete(CodeLabelPairs(t, codeCol, labelCol)[i])
    requires forall a, b ::
               (a in CodeLabelPairs(t, codeCol, labelCol) && b in CodeLabelPairs(t, codeCol, labelCol)
                && Complete(a) && Complete(b) && a.0 == b.0) ==> a.1 == b.1
    ensures var ps := CodeLabelPairs(t, codeCol, labelCol);
            ps[i].0 in GetParameterMetadata(t, codeCol, labelCol)
            && GetParameterMetadata(t, codeCol, labelCol)[ps[i].0] == ps[i].1
  {
    var ps := CodeLabelPairs(t, codeCol, labelCol);
    var m := GetParameterMetadata(t, codeCol, labelCol);
    assert ps[i] in ps;
    var k := ps[i].0;
    assert k in m;
    assert (k, m[k]) in ps;
  }

  /**
   * A code with several labels takes the label of the complete pair that occurs first last:
   * `drop_duplicates` keeps first occurrences in order, and `dict` keeps the last pair it is
   * given for a code.  Row `i` is the first occurrence of its pair, and every complete pair
   * with the same code already occurs by row `i`.
   */
  lemma ParameterMetadataLastWins(t: Table, codeCol: string, labelCol: string, i: nat)
    requires WellFormed(t) && HasColumn(t, codeCol) && HasColumn(t, labelCol)
    requires i < |t.rows| && Complete(CodeLabelPairs(t, codeCol, labelCol)[i])
    requires CodeLabelPairs(t, codeCol, labelCol)[i] !in CodeLabelPairs(t, codeCol, labelCol)[..i]
    requires forall j :: 0 <= j < |t.rows| && Complete(CodeLabelPairs(t, codeCol, labelCol)[j])
                         && CodeLabelPairs(t, codeCol, labelCol)[j].0 == CodeLabelPairs(t, codeCol, labelCol)[i].0
                         ==> CodeLabelPairs(t, codeCol, labelCol)[j] in CodeLabelPairs(t, codeCol, labelCol)[..i + 1]
    ensures var ps := CodeLabelPairs(t, codeCol, labelCol);
            ps[i].0 in GetParameterMetadata(t, codeCol, labelCol)
            && GetParameterMetadata(t, codeCol, labelCol)[ps[i].0] == ps[i].1
  {
    DistinctPairsLastWins(CodeLabelPairs(t, codeCol, labelCol), i);
  }

  /** `ParameterMetadataLastWins` on the pairs themselves. */
  lemma DistinctPairsLastWins(ps: seq<(Cell, Cell)>, i: nat)
    requires i < |ps| && Complete(ps[i]) && ps[i] !in ps[..i]
    requires forall j :: 0 <= j < |ps| && Complete(ps[j]) && ps[j].0 == ps[i].0 ==> ps[j] in ps[..i + 1]
    ensures ps[i].0 in ZipToMap(FilterRows(Distinct(ps), Complete))
            && ZipToMap(FilterRows(Distinct(ps), Complete))[ps[i].0] == ps[i].1
  {
    var kept := FilterRows(Distinct(ps), Complete);
    var p := FirstOccurrenceKept(ps, i, Complete);
    forall q | p < q < |kept| ensures kept[q].0 != ps[i].0 {
      var j :| 0 <= j < |ps| && ps[j] == kept[q];
    }
    ZipToMapLastWins(kept, p);
  }

  /**
   * A first occurrence that passes the mask keeps its place among the kept first
   * occurrences, and everything kept after it first occurs later.
   */
  lemma FirstOccurrenceKept<T(!new)>(ps: seq<T>, i: nat, keep: T -> bool) returns (p: nat)
    requires i < |ps| && ps[i] !in ps[..i] && keep(ps[i])
    ensures p < |FilterRows(Distinct(ps), keep)| && FilterRows(Distinct(ps), keep)[p] == ps[i]
    ensures forall q :: p < q < |FilterRows(Distinct(ps), keep)| ==>
              var y := FilterRows(Distinct(ps), keep)[q];
              y in ps && y !in ps[..i + 1] && keep(y)
  {
    var x := ps[i];
    var before := Distinct(ps[..i]);
    var rest := DistinctAround(ps, i);
    FilterRowsAppend(before + [x], rest, keep);
    FilterRowsAppend(before, [x], keep);
    assert FilterRows([x], keep) == [x];
    var kept := FilterRows(Distinct(ps), keep);
    p := |FilterRows(before, keep)|;
    var tail := FilterRows(rest, keep);
    assert kept == FilterRows(before, keep) + [x] + tail;
    forall q | p < q < |kept| ensures kept[q] in ps && kept[q] !in ps[..i + 1] && keep(kept[q]) {
      assert kept[q] == tail[q - p - 1];
      assert kept[q] in tail;
      LaterFirstOccurrence(ps, i, before, rest, kept[q]);
    }
  }

  /** A first occurrence splits the first occurrences into those before it, itself, and the rest. */
  lemma DistinctAround<T(!new)>(ps: seq<T>, i: nat) returns (rest: seq<T>)
    requires i < |ps| && ps[i] !in ps[..i]
    ensures Distinct(ps) == Distinct(ps[..i]) + [ps[i]] + rest
    ensures Distinct(ps[..i + 1]) == Distinct(ps[..i]) + [ps[i]]
  {
    assert ps[..i + 1][..i] == ps[..i];
    assert Distinct(ps[..i + 1]) == Distinct(ps[..i]) + [ps[i]];
    rest := DistinctPrefix(ps, i + 1);
  }

  /** An element listed after position `i` among the first occurrences does not occur by position `i`. */
  lemma LaterFirstOccurrence<T(!new)>(ps: seq<T>, i: nat, before: seq<T>, rest: seq<T>, y: T)
    requires i < |ps| && Distinct(ps) == before + [ps[i]] + rest
    requires Distinct(ps[..i + 1]) == before + [ps[i]]
    requires y in rest
    ensures y in ps && y !in ps[..i + 1]
  {
    var d := Distinct(ps);
    var L := |before| + 1;
    assert d[..L] == before + [ps[i]];
    var b :| 0 <= b < |rest| && rest[b] == y;
    assert d[L + b] == y;
    forall a | 0 <= a < L ensures d[a] != y {
      assert d[a] != d[L + b];
    }
    assert y !in Distinct(ps[..i + 1]);
  }

  /** `df[column].nunique()`: the number of distinct non-missing values of the column. */
  function CountUniqueValues(t: Table, column: string): (n: nat)
    requires WellFormed(t) && HasColumn(t, column)
    ensures n == |set c | c in ColumnValues(t, column) && c != Missing|
    ensures n <= |t.rows|
  {
    var present := FilterRows(ColumnValues(t, column), (c: Cell) => c != Missing);
    DistinctCardinality(present);
    assert (set c | c in present) == (set c | c in ColumnValues(t, column) && c != Missing);
    |Distinct(present)|
  }

  /** A column argument that Python treats as true: given and not the empty string. */
  predicate Given(name: Option<string>) {
    name.Some? && name.value != ""
  }

  /** A `fixed_values` argument that Python treats as true: given and not empty. */
  predicate HasFixed(fixed: Option<seq<real>>) {
    fixed.Some? && fixed.value != []
  }

  /** The early exit of `get_reference_lines`: type `NONE`, or neither column nor fixed value given. */
  predicate NoReferenceLines(refType: string, lowCol: Option<string>, highCol: Option<string>, fixed: Option<seq<real>>) {
    refType == "NONE" || (!Given(lowCol) && !Given(highCol) && !HasFixed(fixed))
  }

  /** The columns `get_reference_lines` looks up, each of which raises `KeyError` when absent. */
  predicate ReferenceColumnsPresent(t: Table, varCol: string, refType: string,
                                    lowCol: Option<string>, highCol: Option<string>, fixed: Option<seq<real>>) {
    !NoReferenceLines(refType, lowCol, highCol, fixed) ==>
      && ((refType == "UNIFORM" || refType == "ALL") ==> HasColumn(t, varCol))
      && (((refType == "UNIFORM" || refType == "ALL" || refType == "NARROW") && Given(lowCol) && Given(highCol)) ==>
            HasColumn(t, lowCol.value) && HasColumn(t, highCol.value))
  }

  /** The first row whose low and high limits are both numbers: the first row of `dropna().drop_duplicates()`. */
  function FirstComplete(lows: seq<Cell>, highs: seq<Cell>): (r: Option<nat>)
    requires |lows| == |highs|
    ensures r.Some? ==> r.value < |lows| && lows[r.value].Num? && highs[r.value].Num?
    ensures r.Some? ==> forall j :: 0 <= j < r.value ==> !(lows[j].Num? && highs[j].Num?)
    ensures r.None? ==> forall j :: 0 <= j < |lows| ==> !(lows[j].Num? && highs[j].Num?)
    decreases |lows|
  {
    if lows == [] then None
    else if lows[0].Num? && highs[0].Num? then Some(0)
    else match FirstComplete(lows[1..], highs[1..])
      case None => None
      case Some(k) => Some(k + 1)
  }

  /** The list `get_reference_lines` builds before removing missing values, duplicates and order. */
  function ReferenceCandidates(t: Table, varCol: string, refType: string,
                               lowCol: Option<string>, highCol: Option<string>, fixed: Option<seq<real>>): (c: seq<real>)
    requires WellFormed(t) && !NoReferenceLines(refType, lowCol, highCol, fixed)
    requires ReferenceColumnsPresent(t, varCol, refType, lowCol, highCol, fixed)
    ensures forall x :: x in c <==>
              || (HasFixed(fixed) && x in fixed.value)
              || ((refType == "UNIFORM" || refType == "ALL") && Given(lowCol) && Given(highCol)
                  && (Num(x) in ColumnValues(t, lowCol.value) || Num(x) in ColumnValues(t, highCol.value)))
              || (refType == "NARROW" && Given(lowCol) && Given(highCol)
                  && var f := FirstComplete(ColumnValues(t, lowCol.value), ColumnValues(t, highCol.value));
                     f.Some? && (Num(x) == ColumnValues(t, lowCol.value)[f.value] || Num(x) == ColumnValues(t, highCol.value)[f.value]))
  {
    var base := if HasFixed(fixed) then fixed.value else [];
    if refType == "UNIFORM" || refType == "ALL" then
      if Given(lowCol) && Given(highCol) then
        base + Numbers(ColumnValues(t, lowCol.value)) + Numbers(ColumnValues(t, highCol.value))
      else base
    else if refType == "NARROW" && Given(lowCol) && Given(highCol) then
      var lows, highs := ColumnValues(t, lowCol.value), ColumnValues(t, highCol.value);
      match FirstComplete(lows, highs)
      case Some(i) => base + [lows[i].value, highs[i].value]
      case None => base
    else base
  }

  /**
   * `get_reference_lines(df, var_col, ref_type, low_col, high_col, fixed_values)`: empty on
   * the early exit, otherwise the candidate values without duplicates, in ascending order.
   */
  function GetReferenceLines(t: Table, varCol: string, refType: string,
                             lowCol: Option<string>, highCol: Option<string>, fixed: Option<seq<real>>): (r: seq<real>)
    requires WellFormed(t) && ReferenceColumnsPresent(t, varCol, refType, lowCol, highCol, fixed)
    ensures StrictlyIncreasing(r)
    ensures NoReferenceLines(refType, lowCol, highCol, fixed) ==> r == []
    ensures !NoReferenceLines(refType, lowCol, highCol, fixed) ==>
              forall x :: x in r <==> x in ReferenceCandidates(t, varCol, refType, lowCol, highCol, fixed)
  {
    if NoReferenceLines(refType, lowCol, highCol, fixed) then []
    else SortedDistinct(ReferenceCandidates(t, varCol, refType, lowCol, highCol, fixed))
  }

  /** The result depends only on which values occur: exchanging the low and high columns changes nothing. */
  lemma ReferenceLinesSymmetric(t: Table, varCol: string, refType: string,
                                lowCol: Option<string>, highCol: Option<string>, fixed: Option<seq<real>>)
    requires WellFormed(t) && ReferenceColumnsPresent(t, varCol, refType, lowCol, highCol, fixed)
    requires refType != "NARROW"
    ensures ReferenceColumnsPresent(t, varCol, refType, highCol, lowCol, fixed)
    ensures GetReferenceLines(t, varCol, refType, lowCol, highCol, fixed) ==
            GetReferenceLines(t, varCol, refType, highCol, lowCol, fixed)
  {
    var a := GetReferenceLines(t, varCol, refType, lowCol, highCol, fixed);
    var b := GetReferenceLines(t, varCol, refType, highCol, lowCol, fixed);
    if !NoReferenceLines(refType, lowCol, highCol, fixed) {
      StrictlyIncreasingUnique(a, b);
    }
  }

  /** A column is fit for `get_var_min_max` when none of its cells is text. */
  predicate NumericColumn(t: Table, varCol: string)
    requires WellFormed(t) && HasColumn(t, varCol)
  {
    forall c :: c in ColumnValues(t, varCol) ==> !c.Text?
  }

  /** `lo` and `hi` are the smallest and the largest number among `cells`. */
  predicate IsRangeOf(cells: seq<Cell>, lo: real, hi: real) {
    && Num(lo) in cells && Num(hi) in cells
    && forall c :: c in cells && c.Num? ==> lo <= c.value <= hi
  }

  /** The minimum and the maximum of the numbers among `cells` are their range. */
  lemma NumbersRange(cells: seq<Cell>)
    requires Numbers(cells) != []
    ensures IsRangeOf(cells, MinOf(Numbers(cells)), MaxOf(Numbers(cells)))
  {
    var data := Numbers(cells);
    forall c | c in cells && c.Num?
      ensures MinOf(data) <= c.value <= MaxOf(data)
    {
      assert Num(c.value) == c;
      assert c.value in data;
    }
  }

  /** The range from `lo` to `hi` widened on both sides by `padding` times its width. */
  function Padded(lo: real, hi: real, padding: real): (real, real) {
    (lo - (hi - lo) * padding, hi + (hi - lo) * padding)
  }

  /**
   * `get_var_min_max(df, var_col, padding)`: `(0, 1)` for a column without data, otherwise
   * its minimum and maximum pushed apart by `padding` times their distance.
   */
  function GetVarMinMax(t: Table, varCol: string, padding: real): (r: (real, real))
    requires WellFormed(t) && HasColumn(t, varCol) && NumericColumn(t, varCol)
    ensures (forall c :: c in ColumnValues(t, varCol) ==> c == Missing) ==> r == (0.0, 1.0)
    ensures (exists c :: c in ColumnValues(t, varCol) && c != Missing) ==>
              exists lo, hi :: IsRangeOf(ColumnValues(t, varCol), lo, hi) && r == Padded(lo, hi, padding)
  {
    var cells := ColumnValues(t, varCol);
    var data := Numbers(cells);
    if data == [] then
      assert forall c :: c in cells ==> c == Missing;
      (0.0, 1.0)
    else
      var lo, hi := MinOf(data), MaxOf(data);
      NumbersRange(cells);
      assert IsRangeOf(ColumnValues(t, varCol), lo, hi);
      Padded(lo, hi, padding)
  }

  /** With a non-negative padding every number of the column lies inside the range. */
  lemma VarMinMaxEncloses(t: Table, varCol: string, padding: real, x: real)
    requires WellFormed(t) && HasColumn(t, varCol) && NumericColumn(t, varCol)
    requires padding >= 0.0 && Num(x) in ColumnValues(t, varCol)
    ensures GetVarMinMax(t, varCol, padding).0 <= x <= GetVarMinMax(t, varCol, padding).1
  {
    var cells := ColumnValues(t, varCol);
    var data := Numbers(cells);
    assert x in data;
    var lo, hi := MinOf(data), MaxOf(data);
    assert lo <= x <= hi;
    PaddedEncloses(lo, hi, padding, x);
    assert GetVarMinMax(t, varCol, padding) == Padded(lo, hi, padding);
  }

  /** Widening by a non-negative padding keeps every point of the original range inside. */
  lemma PaddedEncloses(lo: real, hi: real, padding: real, x: real)
    requires lo <= x <= hi && padding >= 0.0
    ensures Padded(lo, hi, padding).0 <= x <= Padded(lo, hi, padding).1
  {
    var w := (hi - lo) * padding;
    assert w >= 0.0;
    assert Padded(lo, hi, padding) == (lo - w, hi + w);
  }

  /**
   * The errors of `boxplot_block_ranges`: the `TypeError` of `sorted` on visits that Python
   * cannot order, and the `ZeroDivisionError` of the page count when `max_boxes_per_page`
   * is zero.
   */
  datatype PageError = UnorderableVisits | ZeroBoxesPerPage

  /**
   * `sorted(df[visit_col].unique())` raises when two of the visits cannot be compared: a
   * string beside a number or a missing value, or, in a column that is not float, a number
   * beside `None`.  A float column's missing value is NaN, which compares with numbers.
   */
  predicate VisitsUnorderable(t: Table, visitCol: string)
    requires WellFormed(t) && HasColumn(t, visitCol)
  {
    var vs := ColumnValues(t, visitCol);
    || ((exists c :: c in vs && c.Text?) && (exists c :: c in vs && !c.Text?))
    || (DTypeOf(t, visitCol) != Float && Missing in vs && exists c :: c in vs && c.Num?)
  }

  /** Python's `a // b`, which rounds toward minus infinity for either sign of `b`. */
  function FloorDiv(a: int, b: int): (q: int)
    requires b != 0
    ensures b > 0 ==> q * b <= a < q * b + b
    ensures b < 0 ==> q * b + b < a <= q * b
  {
    if b > 0 then a / b else (-a) / (-b)
  }

  /** `len(range(k))` */
  function RangeLength(k: int): nat {
    if k < 0 then 0 else k
  }

  /** Page `i` of `boxplot_block_ranges`: from `i·m` to `(i+1)·m − 1`, cut at the last visit. */
  function PageRange(i: int, m: int, n: int): (int, int) {
    (i * m, if (i + 1) * m - 1 < n - 1 then (i + 1) * m - 1 else n - 1)
  }

  /** The page ranges `boxplot_block_ranges` lists for `n` visits and `m` boxes per page. */
  function FixedPages(n: nat, m: int): (p: seq<(int, int)>)
    requires m != 0
    ensures |p| == RangeLength(FloorDiv(n + m - 1, m))
  {
    seq(RangeLength(FloorDiv(n + m - 1, m)), i => PageRange(i, m, n))
  }

  /**
   * `boxplot_block_ranges(df, visit_col, max_boxes_per_page)`: one `(start, end)` index pair
   * per page of the distinct visits.
   */
  method BoxplotBlockRanges(t: Table, visitCol: string, maxBoxesPerPage: int) returns (r: Result<seq<(int, int)>, PageError>)
    requires WellFormed(t) && HasColumn(t, visitCol)
    ensures VisitsUnorderable(t, visitCol) ==> r == Failure(UnorderableVisits)
    ensures !VisitsUnorderable(t, visitCol) && maxBoxesPerPage == 0 ==> r == Failure(ZeroBoxesPerPage)
    ensures !VisitsUnorderable(t, visitCol) && maxBoxesPerPage != 0 ==>
              r == Success(FixedPages(|Distinct(ColumnValues(t, visitCol))|, maxBoxesPerPage))
  {
    if VisitsUnorderable(t, visitCol) {
      return Failure(UnorderableVisits);
    }
    var nVisits := |Distinct(ColumnValues(t, visitCol))|;
    if maxBoxesPerPage == 0 {
      return Failure(ZeroBoxesPerPage);
    }
    var nPages := FloorDiv(nVisits + maxBoxesPerPage - 1, maxBoxesPerPage);
    var pageRanges: seq<(int, int)> := [];
    var i := 0;
    while i < nPages
      invariant 0 <= i <= RangeLength(nPages)
      invariant pageRanges == FixedPages(nVisits, maxBoxesPerPage)[..i]
    {
      var startIdx := i * maxBoxesPerPage;
      var endIdx := if (i + 1) * maxBoxesPerPage - 1 < nVisits - 1 then (i + 1) * maxBoxesPerPage - 1 else nVisits - 1;
      pageRanges := pageRanges + [(startIdx, endIdx)];
      i := i + 1;
    }
    assert pageRanges == FixedPages(nVisits, maxBoxesPerPage);
    r := Success(pageRanges);
  }

  /**
   * A negative page size lists no page once there are two visits or more, but the floor
   * division still gives one or two pages for fewer visits.
   */
  lemma FixedPagesNegative(n: nat, m: int)
    requires m < 0
    ensures FixedPages(n, m) == [] <==> n >= 2
  {
    var a := n + m - 1;
    var q := FloorDiv(a, m);
    assert (q - 1) * m == q * m - m;
    if n >= 2 {
      assert (q - 1) * m > 0;
      NegativeFactor(q - 1, m);
    } else {
      assert q * m < 0;
      NegativeFactor(q, m);
    }
  }

  /** With a negative factor, the sign of a product is the opposite of the other factor's. */
  lemma NegativeFactor(x: int, m: int)
    requires m < 0
    ensures x * m > 0 ==> x < 0
    ensures x * m < 0 ==> x > 0
  {
    assert x * (-m) == -(x * m);
    if x >= 0 {
      MulMono(0, x, -m);
    } else {
      MulMono(x, 0, -m);
    }
  }

  lemma MulMono(a: int, b: int, m: int)
    requires a <= b && m >= 0
    ensures a * m <= b * m
  {
    assert b * m - a * m == (b - a) * m;
  }

  /** `ceil(n / m)` pages for a positive `m`: none for no visits, and just enough to hold `n` visits of `m` each. */
  lemma FixedPagesCount(n: nat, m: int)
    requires m > 0
    ensures FixedPages(n, m) == [] <==> n == 0
    ensures (|FixedPages(n, m)| - 1) * m < n <= |FixedPages(n, m)| * m
  {
    var q := (n + m - 1) / m;
    var rem := (n + m - 1) % m;
    assert n + m - 1 == q * m + rem;
    assert |FixedPages(n, m)| == q;
    assert (q - 1) * m == q * m - m;
  }

  /**
   * For a positive `m` the pages tile the visits `0 .. n−1`: the first starts at 0, each one
   * starts right after the previous ends, and the last ends at `n − 1`.
   */
  lemma FixedPagesContiguous(n: nat, m: int)
    requires m > 0 && n > 0
    ensures FixedPages(n, m)[0].0 == 0
    ensures FixedPages(n, m)[|FixedPages(n, m)| - 1].1 == n - 1
    ensures forall i :: 0 <= i < |FixedPages(n, m)| - 1 ==> FixedPages(n, m)[i + 1].0 == FixedPages(n, m)[i].1 + 1
  {
    var p := FixedPages(n, m);
    var k := |p|;
    FixedPagesCount(n, m);
    assert k * m >= n;
    forall i | 0 <= i < k - 1 ensures p[i + 1].0 == p[i].1 + 1 {
      MulMono(i + 2, k, m);
      assert (i + 2) * m == (i + 1) * m + m;
    }
    assert (k - 1) * m + m == k * m;
  }

  /** For a positive `m` every page holds between one and `m` visits. */
  lemma FixedPagesSpan(n: nat, m: int, i: nat)
    requires m > 0 && i < |FixedPages(n, m)|
    ensures 1 <= FixedPages(n, m)[i].1 - FixedPages(n, m)[i].0 + 1 <= m
  {
    var k := |FixedPages(n, m)|;
    FixedPagesCount(n, m);
    MulMono(i + 1, k, m);
    assert (i + 1) * m == i * m + m;
    assert (k - 1) * m == k * m - m;
  }
}

=== FILE: readers.dfy ===
/**
 * Reading SAS datasets and normalising what was read: format dispatch on the file
 * extension, column relabelling from the dataset metadata, conversion of the SAS missing
 * markers, and the SAS sort order (missing keys first).  The binary decoders themselves
 * are parameters of the model.
 */
module Readers {
  import opened Wrappers
  import opened Frames
  import opened Strings
  import opened RowOrder

  /** The metadata the model uses: `column_names_to_labels`, absent when the key is missing. */
  datatype Meta = Meta(columnNamesToLabels: Option<map<string, string>>)

  datatype ReadError = FileNotFound(path: string) | UnsupportedFormat(path: string)

  /** The two file formats `read_sas` accepts. */
  datatype Format = Sas7bdat | Xport

  /** The format a path names, by its lower-cased extension; `.sas7bdat` is tested first. */
  function FormatOf(path: string): (f: Option<Format>)
    ensures f == Some(Sas7bdat) <==> EndsWith(Lower(path), ".sas7bdat")
    ensures f == Some(Xport) <==> !EndsWith(Lower(path), ".sas7bdat") && EndsWith(Lower(path), ".xpt")
  {
    if EndsWith(Lower(path), ".sas7bdat") then Some(Sas7bdat)
    else if EndsWith(Lower(path), ".xpt") then Some(Xport)
    else None
  }

  /** The extension test ignores letter case. */
  lemma FormatOfCaseInsensitive(p: string, q: string)
    requires Lower(p) == Lower(q)
    ensures FormatOf(p) == FormatOf(q)
  {
  }

  /**
   * `read_sas(file_path)`: a missing file is reported before the extension is looked at;
   * a `.sas7bdat` path goes to the sas7bdat decoder, an `.xpt` path to the transport
   * decoder, anything else is unsupported.  `fileExists` is the answer of the file system.
   */
  function ReadSas(path: string, fileExists: bool,
                   readSas7bdat: string -> (Table, Meta), readXport: string -> (Table, Meta))
    : (r: Result<(Table, Meta), ReadError>)
    ensures !fileExists ==> r == Failure(FileNotFound(path))
    ensures fileExists && FormatOf(path) == None ==> r == Failure(UnsupportedFormat(path))
    ensures r.Success? <==> fileExists && FormatOf(path).Some?
    ensures r.Success? && FormatOf(path) == Some(Sas7bdat) ==> r.value == readSas7bdat(path)
    ensures r.Success? && FormatOf(path) == Some(Xport) ==> r.value == readXport(path)
  {
    if !fileExists then Failure(FileNotFound(path))
    else match FormatOf(path)
      case Some(Sas7bdat) => Success(readSas7bdat(path))
      case Some(Xport) => Success(readXport(path))
      case None => Failure(UnsupportedFormat(path))
  }

  /** `meta['column_names_to_labels'].get(col)` is truthy: the column has a non-empty label. */
  predicate HasLabel(labels: map<string, string>, name: string) {
    name in labels && labels[name] != ""
  }

  /** The display name of one column: `"col (label)"` when it has a label, the name otherwise. */
  function LabelledName(name: string, labels: map<string, string>): (s: string)
    ensures HasLabel(labels, name) ==> |s| == |name| + |labels[name]| + 3 && s[..|name|] == name
    ensures !HasLabel(labels, name) ==> s == name
  {
    if HasLabel(labels, name) then name + " (" + labels[name] + ")" else name
  }

  /** The header after relabelling: same columns and dtypes, names replaced by their display names. */
  function RelabelHeader(h: seq<Column>, meta: Meta): (r: seq<Column>)
    ensures |r| == |h|
    ensures forall i :: 0 <= i < |h| ==> r[i].dtype == h[i].dtype
    ensures meta.columnNamesToLabels.None? || meta.columnNamesToLabels == Some(map[]) ==> r == h
    ensures forall i :: 0 <= i < |h| && meta.columnNamesToLabels.Some? ==>
              r[i].name == LabelledName(h[i].name, meta.columnNamesToLabels.value)
  {
    match meta.columnNamesToLabels
    case None => h
    case Some(labels) =>
      if labels == map[] then h
      else seq(|h|, i requires 0 <= i < |h| => Column(LabelledName(h[i].name, labels), h[i].dtype))
  }

  /** A column without a label keeps its name, and a labelled one keeps it as a prefix. */
  lemma RelabelKeepsNamePrefix(h: seq<Column>, meta: Meta, i: nat)
    requires i < |h|
    ensures |h[i].name| <= |RelabelHeader(h, meta)[i].name|
    ensures RelabelHeader(h, meta)[i].name[..|h[i].name|] == h[i].name
    ensures meta.columnNamesToLabels.Some? && !HasLabel(meta.columnNamesToLabels.value, h[i].name) ==>
              RelabelHeader(h, meta)[i].name == h[i].name
  {
    match meta.columnNamesToLabels
    case None =>
    case Some(labels) =>
      if labels != map[] {
        var s := LabelledName(h[i].name, labels);
      }
  }

  /** A pandas DataFrame whose column index can be reassigned in place. */
  class DataFrame {
    var header: seq<Column>
    var rows: seq<Row>

    constructor (t: Table)
      ensures header == t.header && rows == t.rows
    {
      header := t.header;
      rows := t.rows;
    }
  }

  /**
   * `apply_formats_and_labels(df, meta)`: relabels the columns of `df` itself (the caller's
   * frame changes) and returns the same frame; the data is untouched.
   */
  method ApplyFormatsAndLabels(df: DataFrame, meta: Meta) returns (r: DataFrame)
    modifies df
    ensures r == df
    ensures df.header == RelabelHeader(old(df.header), meta)
    ensures df.rows == old(df.rows)
  {
    if meta.columnNamesToLabels.Some? && meta.columnNamesToLabels.value != map[] {
      df.header := RelabelHeader(df.header, meta);
    }
    r := df;
  }

  /** `"."` and `".A"` to `".Z"`, the 27 SAS missing-value markers, in that order. */
  function SasMissingMarkers(): (ms: seq<string>)
    ensures |ms| == 27 && ms[0] == "."
  {
    ["."] + seq(26, i requires 0 <= i < 26 => ['.', ('A' as int + i) as char])
  }

  /** A string is a SAS missing marker: a lone dot, or a dot and one capital letter. */
  predicate IsSasMissingMarker(s: string) {
    s == "." || (|s| == 2 && s[0] == '.' && 'A' <= s[1] <= 'Z')
  }

  /** The marker list holds exactly the strings `IsSasMissingMarker` describes. */
  lemma SasMissingMarkersExact(s: string)
    ensures s in SasMissingMarkers() <==> IsSasMissingMarker(s)
  {
    var ms := SasMissingMarkers();
    if IsSasMissingMarker(s) && s != "." {
      var i := s[1] as int - 'A' as int;
      assert ms[i + 1] == s;
    }
    if s in ms && s != "." {
      var k :| 0 <= k < |ms| && ms[k] == s;
      assert k > 0;
    }
  }

  /** One cell after `replace(missing_map)`: a marker string becomes missing, anything else stays. */
  function NormalizeMissing(c: Cell): (d: Cell)
    ensures d == Missing || d == c
    ensures !(d.Text? && IsSasMissingMarker(d.text))
    ensures c.Text? && IsSasMissingMarker(c.text) ==> d == Missing
  {
    if c.Text? && IsSasMissingMarker(c.text) then Missing else c
  }

  /** The row with every marker cell replaced by the missing marker. */
  function NormalizeRow(r: Row): (s: Row)
    ensures |s| == |r| && forall j :: 0 <= j < |r| ==> s[j] == NormalizeMissing(r[j])
  {
    seq(|r|, j requires 0 <= j < |r| => NormalizeMissing(r[j]))
  }

  /**
   * `handle_sas_missing(df)`: a copy of the table in which every cell holding a SAS missing
   * marker string is missing; the argument is unchanged (tables are values).
   */
  function HandleSasMissing(t: Table): (r: Table)
    requires WellFormed(t)
    ensures WellFormed(r) && r.header == t.header && |r.rows| == |t.rows|
    ensures forall i, j :: 0 <= i < |r.rows| && 0 <= j < |r.rows[i]| ==>
              !(r.rows[i][j].Text? && IsSasMissingMarker(r.rows[i][j].text))
    ensures forall i, j :: 0 <= i < |t.rows| && 0 <= j < |t.rows[i]| ==>
              r.rows[i][j] == if t.rows[i][j].Text? && IsSasMissingMarker(t.rows[i][j].text) then Missing else t.rows[i][j]
  {
    Table(t.header, seq(|t.rows|, i requires 0 <= i < |t.rows| => NormalizeRow(t.rows[i])))
  }

  /** Converting the markers twice is converting them once. */
  lemma HandleSasMissingIdempotent(t: Table)
    requires WellFormed(t)
    ensures HandleSasMissing(HandleSasMissing(t)) == HandleSasMissing(t)
  {
    var once := HandleSasMissing(t);
    var twice := HandleSasMissing(once);
    assert forall i :: 0 <= i < |once.rows| ==> twice.rows[i] == once.rows[i];
  }

  /**
   * `sas_sort_order(df, by_vars)`: rows sorted by the key columns with missing keys first;
   * a key that is not a column raises `KeyError`.
   */
  function SasSortOrder(t: Table, byVars: seq<string>): (r: Result<Table, string>)
    requires WellFormed(t)
    ensures r.Failure? <==> exists b :: b in byVars && !HasColumn(t, b)
    ensures r.Failure? ==> r.error in byVars && !HasColumn(t, r.error)
    ensures r.Success? ==>
              && WellFormed(r.value) && r.value.header == t.header
              && multiset(r.value.rows) == multiset(t.rows)
              && SortedBy(r.value.rows, Positions(t.header, byVars), true)
  {
    match FirstAbsent(t, byVars)
    case None => Success(SortTable(t, byVars, true))
    case Some(b) => Failure(b)
  }

  /** The first name of `names` that is not a column of `t`, if any. */
  function FirstAbsent(t: Table, names: seq<string>): (r: Option<string>)
    ensures r.None? <==> forall b :: b in names ==> HasColumn(t, b)
    ensures r.Some? ==> r.value in names && !HasColumn(t, r.value)
  {
    if names == [] then None
    else if !HasColumn(t, names[0]) then Some(names[0])
    else
      assert forall b :: b in names ==> b == names[0] || b in names[1..];
      FirstAbsent(t, names[1..])
  }

  /**
   * In the SAS order, rows whose first key is missing form a prefix: any row before one
   * with a missing first key has a missing first key too.
   */
  lemma {:induction false} MissingFirstPrefix(rows: seq<Row>, ks: seq<nat>, j: nat, i: nat)
    requires SortedBy(rows, ks, true) && |ks| > 0
    requires i <= j < |rows| && RowKey(rows[j], ks)[0] == Missing
    ensures RowKey(rows[i], ks)[0] == Missing
    decreases j - i
  {
    if i < j {
      MissingFirstPrefix(rows, ks, j, i + 1);
      assert KeyLe(RowKey(rows[i], ks), RowKey(rows[i + 1], ks), true);
    }
  }
}

=== FILE: reals.dfy ===
/** Real-number helpers: absolute value, extremes of a list, and `sorted(set(xs))`. */
module Reals {

  function Abs(x: real): (r: real)
    ensures r >= 0.0 && (r == x || r == -x)
  {
    if x < 0.0 then -x else x
  }

  /** `min(xs)` of a non-empty list. */
  function MinOf(xs: seq<real>): (m: real)
    requires |xs| > 0
    ensures m in xs && forall x :: x in xs ==> m <= x
  {
    if |xs| == 1 then xs[0]
    else
      var rest := MinOf(xs[1..]);
      assert forall x :: x in xs ==> x == xs[0] || x in xs[1..];
      if xs[0] <= rest then xs[0] else rest
  }

  /** `max(xs)` of a non-empty list. */
  function MaxOf(xs: seq<real>): (m: real)
    requires |xs| > 0
    ensures m in xs && forall x :: x in xs ==> x <= m
  {
    if |xs| == 1 then xs[0]
    else
      var rest := MaxOf(xs[1..]);
      assert forall x :: x in xs ==> x == xs[0] || x in xs[1..];
      if xs[0] >= rest then xs[0] else rest
  }

  /** `xs[0] + ... + xs[n-1]` */
  function Sum(xs: seq<real>): real {
    if xs == [] then 0.0 else xs[0] + Sum(xs[1..])
  }

  predicate StrictlyIncreasing(xs: seq<real>) {
    forall i, j :: 0 <= i < j < |xs| ==> xs[i] < xs[j]
  }

  /** Adds `x` to a strictly increasing list unless it is already there. */
  function InsertUnique(x: real, s: seq<real>): (r: seq<real>)
    requires StrictlyIncreasing(s)
    ensures StrictlyIncreasing(r)
    ensures forall y :: y in r <==> y == x || y in s
    ensures |r| <= |s| + 1
  {
    if s == [] then [x]
    else if x < s[0] then
      var r := [x] + s;
      assert r[0] == x && forall i :: 0 < i < |r| ==> r[i] == s[i - 1];
      assert forall i :: 0 < i < |r| ==> x < r[i];
      r
    else if x == s[0] then s
    else
      var rest := InsertUnique(x, s[1..]);
      assert forall y :: y in s <==> y == s[0] || y in s[1..];
      assert forall y :: y in rest ==> s[0] < y;
      var r := [s[0]] + rest;
      assert r[0] == s[0] && forall i :: 0 < i < |r| ==> r[i] == rest[i - 1];
      assert forall i :: 0 < i < |r| ==> r[i] in rest;
      r
  }

  /** `sorted(set(xs))`: the distinct values of `xs` in ascending order. */
  function SortedDistinct(xs: seq<real>): (r: seq<real>)
    ensures StrictlyIncreasing(r)
    ensures forall y :: y in r <==> y in xs
    ensures |r| <= |xs|
  {
    if xs == [] then []
    else
      var rest := SortedDistinct(xs[1..]);
      assert forall y :: y in xs <==> y == xs[0] || y in xs[1..];
      if xs[0] in rest then rest else InsertUnique(xs[0], rest)
  }

  /** A strictly increasing list is determined by its elements. */
  lemma {:induction false} StrictlyIncreasingUnique(a: seq<real>, b: seq<real>)
    requires StrictlyIncreasing(a) && StrictlyIncreasing(b)
    requires forall y :: y in a <==> y in b
    ensures a == b
  {
    assert b != [] ==> b[0] in b;
    if a != [] {
      assert a[0] in a;
      assert b != [];
      assert a[0] == b[0] by {
        assert a[0] in b && b[0] in b && b[0] in a;
      }
      forall y ensures y in a[1..] <==> y in b[1..] {
        if y in a[1..] { assert y in b && y != b[0]; assert y in b[1..]; }
        if y in b[1..] { assert y in a && y != a[0]; assert y in a[1..]; }
      }
      StrictlyIncreasingUnique(a[1..], b[1..]);
      assert a == [a[0]] + a[1..] && b == [b[0]] + b[1..];
    } else if b != [] {
      assert false;
    }
  }
}

=== FILE: row_order.dfy ===
/**
 * Row sorting as `DataFrame.sort_values(by, na_position=...)` performs it: rows ordered
 * lexicographically by the cells of the key columns, missing keys placed first or last.
 * The sort is a stable insertion sort, one of the orders pandas may produce.
 */
module RowOrder {
  import opened Frames

  /** Python's string order: lexicographic by code point. */
  predicate StrLe(a: string, b: string)
    decreases |a|
  {
    a == [] || (b != [] && (a[0] < b[0] || (a[0] == b[0] && StrLe(a[1..], b[1..]))))
  }

  lemma {:induction false} StrLeTotal(a: string, b: string)
    ensures StrLe(a, b) || StrLe(b, a)
    decreases |a|
  {
    if a != [] && b != [] && a[0] == b[0] {
      StrLeTotal(a[1..], b[1..]);
    }
  }

  /**
   * The order of two cells of one key column: missing before (`missingFirst`) or after
   * everything else, numbers by value, strings by `StrLe`; a number sorts before a string.
   */
  predicate CellLe(x: Cell, y: Cell, missingFirst: bool) {
    match (x, y)
    case (Missing, Missing) => true
    case (Missing, _) => missingFirst
    case (_, Missing) => !missingFirst
    case (Num(a), Num(b)) => a <= b
    case (Num(_), Text(_)) => true
    case (Text(_), Num(_)) => false
    case (Text(a), Text(b)) => StrLe(a, b)
  }

  lemma CellLeTotal(x: Cell, y: Cell, missingFirst: bool)
    ensures CellLe(x, y, missingFirst) || CellLe(y, x, missingFirst)
  {
    if x.Text? && y.Text? {
      StrLeTotal(x.text, y.text);
    }
  }

  /** Lexicographic order of two key tuples: the first column that is not tied decides. */
  predicate KeyLe(a: seq<Cell>, b: seq<Cell>, missingFirst: bool)
    decreases |a|
  {
    if a == [] then true
    else if b == [] then false
    else if CellLe(a[0], b[0], missingFirst) && CellLe(b[0], a[0], missingFirst) then
      KeyLe(a[1..], b[1..], missingFirst)
    else CellLe(a[0], b[0], missingFirst)
  }

  lemma {:induction false} KeyLeTotal(a: seq<Cell>, b: seq<Cell>, missingFirst: bool)
    ensures KeyLe(a, b, missingFirst) || KeyLe(b, a, missingFirst)
    decreases |a|
  {
    if a != [] && b != [] {
      CellLeTotal(a[0], b[0], missingFirst);
      if CellLe(a[0], b[0], missingFirst) && CellLe(b[0], a[0], missingFirst) {
        KeyLeTotal(a[1..], b[1..], missingFirst);
      }
    }
  }

  /** The key tuple of a row: its cells at positions `ks` (`tuple(row[by])`). */
  function RowKey(r: Row, ks: seq<nat>): (k: seq<Cell>)
    ensures |k| == |ks|
  {
    seq(|ks|, i requires 0 <= i < |ks| => if ks[i] < |r| then r[ks[i]] else Missing)
  }

  /** Each row's key is at most the next row's key. */
  predicate SortedBy(rows: seq<Row>, ks: seq<nat>, missingFirst: bool) {
    forall i :: 0 <= i < |rows| - 1 ==> KeyLe(RowKey(rows[i], ks), RowKey(rows[i + 1], ks), missingFirst)
  }

  /** Inserts `x` into `s` after every leading row whose key is not greater than its own. */
  function Insert(x: Row, s: seq<Row>, ks: seq<nat>, missingFirst: bool): (r: seq<Row>)
    ensures |r| == |s| + 1
    ensures multiset(r) == multiset(s) + multiset{x}
    ensures r[0] == x || (s != [] && r[0] == s[0])
  {
    if s == [] then [x]
    else if !KeyLe(RowKey(s[0], ks), RowKey(x, ks), missingFirst) then [x] + s
    else
      assert s == [s[0]] + s[1..];
      [s[0]] + Insert(x, s[1..], ks, missingFirst)
  }

  /** Inserting into a sorted sequence keeps it sorted. */
  lemma {:induction false} InsertSorted(x: Row, s: seq<Row>, ks: seq<nat>, missingFirst: bool)
    requires SortedBy(s, ks, missingFirst)
    ensures SortedBy(Insert(x, s, ks, missingFirst), ks, missingFirst)
  {
    if s != [] {
      var kx, k0 := RowKey(x, ks), RowKey(s[0], ks);
      if !KeyLe(k0, kx, missingFirst) {
        KeyLeTotal(k0, kx, missingFirst);
      } else {
        var rest := Insert(x, s[1..], ks, missingFirst);
        InsertSorted(x, s[1..], ks, missingFirst);
        var r := [s[0]] + rest;
        assert r == Insert(x, s, ks, missingFirst);
        forall i | 0 <= i < |r| - 1
          ensures KeyLe(RowKey(r[i], ks), RowKey(r[i + 1], ks), missingFirst)
        {
          if i > 0 {
            assert r[i] == rest[i - 1] && r[i + 1] == rest[i];
          } else if rest[0] != x {
            assert rest[0] == s[1];
          }
        }
      }
    }
  }

  /** The rows in key order, equal keys keeping their input order. */
  function SortRows(rows: seq<Row>, ks: seq<nat>, missingFirst: bool): (r: seq<Row>)
    ensures |r| == |rows|
    ensures multiset(r) == multiset(rows)
    ensures SortedBy(r, ks, missingFirst)
    decreases |rows|
  {
    if rows == [] then []
    else
      var n := |rows| - 1;
      assert rows == rows[..n] + [rows[n]];
      var front := SortRows(rows[..n], ks, missingFirst);
      InsertSorted(rows[n], front, ks, missingFirst);
      Insert(rows[n], front, ks, missingFirst)
  }

  /** Positions of the named columns, in the order named. */
  function Positions(h: seq<Column>, names: seq<string>): (ks: seq<nat>)
    requires forall n :: n in names ==> n in NameSet(h)
    ensures |ks| == |names|
    ensures forall i :: 0 <= i < |names| ==> ks[i] == IndexOf(h, names[i]) && ks[i] < |h|
  {
    seq(|names|, i requires 0 <= i < |names| => IndexOf(h, names[i]))
  }

  /** `df.sort_values(by, na_position=...)` on a table whose columns include every name in `by`. */
  function SortTable(t: Table, byVars: seq<string>, missingFirst: bool): (r: Table)
    requires WellFormed(t)
    requires forall n :: n in byVars ==> n in NameSet(t.header)
    ensures WellFormed(r) && r.header == t.header
    ensures multiset(r.rows) == multiset(t.rows)
    ensures SortedBy(r.rows, Positions(t.header, byVars), missingFirst)
  {
    var rows := SortRows(t.rows, Positions(t.header, byVars), missingFirst);
    forall i | 0 <= i < |rows| ensures |rows[i]| == |t.header| {
      assert rows[i] in multiset(t.rows);
      var k :| 0 <= k < |t.rows| && t.rows[k] == rows[i];
    }
    Table(t.header, rows)
  }
}

=== FILE: spark_phuse_utils.dfy ===
/**
 * The Spark variants of the PhUSE utilities: reference lines with a parsed-list fallback,
 * greedy packing of visit blocks onto plot pages by box count, and the outlier column as
 * one column expression.  Spark queries are modelled on the same tables as the pandas code.
 */
module SparkPhuseUtils {
  import opened Wrappers
  import opened Frames
  import opened Strings
  import opened Reals
  import Boxplot

  // ---------------------------------------------------------------------------------------
  // get_reference_lines
  // ---------------------------------------------------------------------------------------

  /** The four reference-line types the function knows by name. */
  predicate IsKeyword(refType: string) {
    refType == "NONE" || refType == "UNIFORM" || refType == "NARROW" || refType == "ALL"
  }

  /**
   * `[float(x) for x in words]`: the numbers in order, or nothing as soon as one word is not
   * a number (`ValueError`).  `parseFloat` is Python's `float` on one word.
   */
  function ParseNumbers(words: seq<string>, parseFloat: string -> Option<real>): (r: Option<seq<real>>)
    ensures r.Some? <==> forall w :: w in words ==> parseFloat(w).Some?
    ensures r.Some? ==> |r.value| == |words| && forall i :: 0 <= i < |words| ==> parseFloat(words[i]) == Some(r.value[i])
  {
    if words == [] then Some([])
    else
      assert forall w :: w in words <==> w == words[0] || w in words[1..];
      match parseFloat(words[0])
      case None => None
      case Some(x) =>
        match ParseNumbers(words[1..], parseFloat)
        case None => None
        case Some(xs) => Some([x] + xs)
  }

  /** The type in force after the fallback: an unknown type that does not parse reads as UNIFORM. */
  function LineKind(refType: string, parseFloat: string -> Option<real>): string {
    if !IsKeyword(refType) && ParseNumbers(SplitWhitespace(refType), parseFloat).None? then "UNIFORM"
    else refType
  }

  /** The limit columns are queried exactly when the type in force is UNIFORM, NARROW or ALL. */
  predicate ReadsLimits(refType: string, parseFloat: string -> Option<real>) {
    var kind := LineKind(refType, parseFloat);
    kind == "UNIFORM" || kind == "NARROW" || kind == "ALL"
  }

  /** `df.select(col).distinct().filter(col.isNotNull())`, as the numbers of the column. */
  function LimitValues(t: Table, col: string): seq<real>
    requires WellFormed(t) && HasColumn(t, col)
  {
    Numbers(ColumnValues(t, col))
  }

  /** `x` is the one value of `xs`. */
  predicate IsOnlyValue(x: real, xs: seq<real>) {
    x in xs && forall y :: y in xs ==> y == x
  }

  predicate IsGreatest(x: real, xs: seq<real>) {
    x in xs && forall y :: y in xs ==> y <= x
  }

  predicate IsLeast(x: real, xs: seq<real>) {
    x in xs && forall y :: y in xs ==> x <= y
  }

  /** A sequence with one value and nothing else has that value as its only distinct element. */
  lemma OnlyValueDistinct(xs: seq<real>, x: real)
    requires IsOnlyValue(x, xs)
    ensures Distinct(xs) == [x]
  {
    var d := Distinct(xs);
    assert x in d;
    assert forall k :: 0 <= k < |d| ==> d[k] == x by {
      forall k | 0 <= k < |d| ensures d[k] == x {
        assert d[k] in xs;
      }
    }
    NoRepeatsCardinality(d);
    assert (set y | y in d) == {x};
  }

  /** `[values[0]] if len(values) == 1 else []` over the distinct values of `xs`. */
  function UniqueValue(xs: seq<real>): (r: seq<real>)
    ensures forall x :: x in r <==> IsOnlyValue(x, xs)
  {
    var d := Distinct(xs);
    if |d| == 1 then
      assert forall y :: y in xs ==> y == d[0] by {
        forall y | y in xs ensures y == d[0] {
          var k :| 0 <= k < |d| && d[k] == y;
        }
      }
      [d[0]]
    else
      assert forall x :: IsOnlyValue(x, xs) ==> d == [x] by {
        forall x | IsOnlyValue(x, xs) ensures d == [x] {
          OnlyValueDistinct(xs, x);
        }
      }
      []
  }

  /** The lines one limit-reading type draws from the low and high values. */
  function LimitLines(kind: string, lows: seq<real>, highs: seq<real>): (c: seq<real>)
    ensures kind == "UNIFORM" ==> forall x :: x in c <==> IsOnlyValue(x, lows) || IsOnlyValue(x, highs)
    ensures kind == "NARROW" ==> forall x :: x in c <==> IsGreatest(x, lows) || IsLeast(x, highs)
    ensures kind == "ALL" ==> forall x :: x in c <==> x in lows || x in highs
  {
    if kind == "UNIFORM" then UniqueValue(lows) + UniqueValue(highs)
    else if kind == "NARROW" then
      (if lows == [] then [] else [MaxOf(lows)]) + (if highs == [] then [] else [MinOf(highs)])
    else if kind == "ALL" then lows + highs
    else []
  }

  /**
   * `get_reference_lines(df, low_var, high_var, ref_lines_type)`: a type that is not a
   * keyword and parses as a list of numbers is returned as parsed (unsorted, duplicates
   * kept); NONE gives no lines; otherwise the lines the type in force draws, without
   * duplicates, in ascending order.
   */
  function SparkGetReferenceLines(t: Table, lowVar: string, highVar: string, refType: string,
                                  parseFloat: string -> Option<real>): (r: seq<real>)
    requires WellFormed(t)
    requires ReadsLimits(refType, parseFloat) ==> HasColumn(t, lowVar) && HasColumn(t, highVar)
    ensures !IsKeyword(refType) && ParseNumbers(SplitWhitespace(refType), parseFloat).Some? ==>
              r == ParseNumbers(SplitWhitespace(refType), parseFloat).value
    ensures refType == "NONE" ==> r == []
    ensures ReadsLimits(refType, parseFloat) ==>
              && StrictlyIncreasing(r)
              && forall x :: x in r <==>
                   x in LimitLines(LineKind(refType, parseFloat), LimitValues(t, lowVar), LimitValues(t, highVar))
  {
    var parsed := if IsKeyword(refType) then None else ParseNumbers(SplitWhitespace(refType), parseFloat);
    if parsed.Some? then parsed.value
    else
      var kind := LineKind(refType, parseFloat);
      if kind == "NONE" then []
      else if ReadsLimits(refType, parseFloat) then
        SortedDistinct(LimitLines(kind, LimitValues(t, lowVar), LimitValues(t, highVar)))
      else []
  }

  /** A type that is neither a keyword nor a list of numbers behaves exactly as UNIFORM. */
  lemma SparkReferenceLinesFallback(t: Table, lowVar: string, highVar: string, refType: string,
                                    parseFloat: string -> Option<real>)
    requires WellFormed(t) && HasColumn(t, lowVar) && HasColumn(t, highVar)
    requires !IsKeyword(refType) && ParseNumbers(SplitWhitespace(refType), parseFloat).None?
    ensures SparkGetReferenceLines(t, lowVar, highVar, refType, parseFloat)
            == SparkGetReferenceLines(t, lowVar, highVar, "UNIFORM", parseFloat)
  {
    var a := SparkGetReferenceLines(t, lowVar, highVar, refType, parseFloat);
    var b := SparkGetReferenceLines(t, lowVar, highVar, "UNIFORM", parseFloat);
    StrictlyIncreasingUnique(a, b);
  }

  // ---------------------------------------------------------------------------------------
  // boxplot_block_ranges: greedy packing
  // ---------------------------------------------------------------------------------------

  /** The category columns all exist (`select(*cat_vars)` resolves them). */
  predicate CatColumns(t: Table, catVars: seq<string>) {
    forall c :: c in catVars ==> HasColumn(t, c)
  }

  /** `sorted(df.select(block_var).distinct())`: the block values, ascending, each once. */
  function BlockValues(t: Table, blockVar: string): (bs: seq<real>)
    requires WellFormed(t) && HasColumn(t, blockVar)
    ensures StrictlyIncreasing(bs)
    ensures forall b :: b in bs <==> Num(b) in ColumnValues(t, blockVar)
  {
    SortedDistinct(Numbers(ColumnValues(t, blockVar)))
  }

  /** The category values of one row, in the order of `cat_vars`. */
  function CatTuple(t: Table, catVars: seq<string>, row: Row): (k: seq<Cell>)
    requires CatColumns(t, catVars)
    ensures |k| == |catVars| && forall i :: 0 <= i < |catVars| ==> k[i] == ColumnCell(t, row, catVars[i])
  {
    seq(|catVars|, i requires 0 <= i < |catVars| => ColumnCell(t, row, catVars[i]))
  }

  /**
   * `df.filter(block_var == b).select(*cat_vars).distinct().count()`: the number of boxes
   * block `b` draws, one per distinct combination of category values among its rows.
   */
  function BoxCount(t: Table, blockVar: string, catVars: seq<string>, b: real): (n: nat)
    requires WellFormed(t) && HasColumn(t, blockVar) && CatColumns(t, catVars)
    ensures n == |set row | row in t.rows && ColumnCell(t, row, blockVar) == Num(b) :: CatTuple(t, catVars, row)|
  {
    var rows := FilterRows(t.rows, (row: Row) => ColumnCell(t, row, blockVar) == Num(b));
    var tuples := seq(|rows|, i requires 0 <= i < |rows| => CatTuple(t, catVars, rows[i]));
    DistinctCardinality(tuples);
    assert (set x | x in tuples)
           == (set row | row in t.rows && ColumnCell(t, row, blockVar) == Num(b) :: CatTuple(t, catVars, row)) by {
      forall x | x in tuples
        ensures x in (set row | row in t.rows && ColumnCell(t, row, blockVar) == Num(b) :: CatTuple(t, catVars, row))
      {
        var i :| 0 <= i < |tuples| && tuples[i] == x;
        assert rows[i] in rows;
      }
      forall row | row in t.rows && ColumnCell(t, row, blockVar) == Num(b)
        ensures CatTuple(t, catVars, row) in tuples
      {
        var i :| 0 <= i < |rows| && rows[i] == row;
        assert tuples[i] == CatTuple(t, catVars, row);
      }
    }
    |Distinct(tuples)|
  }

  /** The boxes of a block, as looked up in `boxes_per_block`. */
  function BoxesOf(boxes: map<real, nat>, b: real): nat {
    if b in boxes then boxes[b] else 0
  }

  /** The number of boxes on a page. */
  function BoxSum(page: seq<real>, boxes: map<real, nat>): nat {
    if page == [] then 0 else BoxSum(page[..|page| - 1], boxes) + BoxesOf(boxes, page[|page| - 1])
  }

  /** Adding a block to a page adds its boxes. */
  lemma BoxSumSnoc(page: seq<real>, b: real, boxes: map<real, nat>)
    ensures BoxSum(page + [b], boxes) == BoxSum(page, boxes) + BoxesOf(boxes, b)
  {
    assert (page + [b])[..|page|] == page;
  }

  /** The blocks of the pages, page after page. */
  function Flatten(pages: seq<seq<real>>): seq<real> {
    if pages == [] then [] else pages[0] + Flatten(pages[1..])
  }

  /**
   * `pages` is the greedy packing of `blocks`: the pages hold the blocks in order, no page is
   * empty, a page exceeds the limit only when it holds a single block, and a page is closed
   * only when the next block would not fit on it.
   */
  predicate IsGreedyPacking(pages: seq<seq<real>>, blocks: seq<real>, boxes: map<real, nat>, maxBoxes: int) {
    Flatten(pages) == blocks && PagesOk(pages, boxes, maxBoxes)
  }

  /** The page-by-page conditions of a greedy packing. */
  predicate PagesOk(pages: seq<seq<real>>, boxes: map<real, nat>, maxBoxes: int) {
    && (forall i :: 0 <= i < |pages| ==> pages[i] != [])
    && (forall i :: 0 <= i < |pages| ==> |pages[i]| == 1 || BoxSum(pages[i], boxes) <= maxBoxes)
    && (forall i :: 1 <= i < |pages| ==> BoxSum(pages[i - 1], boxes) + BoxesOf(boxes, pages[i][0]) > maxBoxes)
  }

  /** Closing a page that fits, and that the previous page could not take the start of, keeps the conditions. */
  lemma PagesOkAppend(pages: seq<seq<real>>, page: seq<real>, boxes: map<real, nat>, maxBoxes: int)
    requires PagesOk(pages, boxes, maxBoxes) && page != []
    requires |page| == 1 || BoxSum(page, boxes) <= maxBoxes
    requires pages != [] ==> BoxSum(pages[|pages| - 1], boxes) + BoxesOf(boxes, page[0]) > maxBoxes
    ensures PagesOk(pages + [page], boxes, maxBoxes)
  {
    var ps := pages + [page];
    forall i | 0 <= i < |ps|
      ensures ps[i] != [] && (|ps[i]| == 1 || BoxSum(ps[i], boxes) <= maxBoxes)
    {
      if i < |pages| {
        assert ps[i] == pages[i];
      }
    }
    forall i | 1 <= i < |ps|
      ensures BoxSum(ps[i - 1], boxes) + BoxesOf(boxes, ps[i][0]) > maxBoxes
    {
      assert ps[i - 1] == pages[i - 1];
      if i < |pages| {
        assert ps[i] == pages[i];
      }
    }
  }

  lemma {:induction false} FlattenAppend(pages: seq<seq<real>>, page: seq<real>)
    ensures Flatten(pages + [page]) == Flatten(pages) + page
  {
    if pages != [] {
      assert (pages + [page])[1..] == pages[1..] + [page];
      FlattenAppend(pages[1..], page);
    }
  }

  /**
   * The packing loop of `boxplot_block_ranges`: a block goes on the current page unless the
   * page is non-empty and the block would take it over `max_boxes_per_page`, in which case
   * the page is closed and the block starts the next one.
   */
  method PackPages(blocks: seq<real>, boxes: map<real, nat>, maxBoxes: int) returns (pages: seq<seq<real>>)
    requires forall b :: b in blocks ==> b in boxes
    ensures IsGreedyPacking(pages, blocks, boxes, maxBoxes)
  {
    pages := [];
    var current: seq<real> := [];
    var currentBoxes := 0;
    for i := 0 to |blocks|
      invariant (pages, current) == Greedy(blocks[..i], boxes, maxBoxes)
      invariant currentBoxes == BoxSum(current, boxes)
    {
      var b := blocks[i];
      var blockBoxes := boxes[b];
      assert blocks[..i + 1][..i] == blocks[..i];
      BoxSumSnoc(current, b, boxes);
      BoxSumSnoc([], b, boxes);
      if currentBoxes + blockBoxes > maxBoxes && current != [] {
        pages := pages + [current];
        current := [b];
        currentBoxes := blockBoxes;
      } else {
        current := current + [b];
        currentBoxes := currentBoxes + blockBoxes;
      }
    }
    assert blocks[..|blocks|] == blocks;
    GreedyPartial(blocks, boxes, maxBoxes);
    FinishPacking(pages, current, blocks, boxes, maxBoxes);
    if current != [] {
      pages := pages + [current];
    }
  }

  /**
   * The closed pages and the open page after the blocks `done`: a block closes the open
   * page when it does not fit on it, and joins the open page otherwise.
   */
  function Greedy(done: seq<real>, boxes: map<real, nat>, maxBoxes: int): (seq<seq<real>>, seq<real>)
    decreases |done|
  {
    if done == [] then ([], [])
    else
      var prev := Greedy(done[..|done| - 1], boxes, maxBoxes);
      var b := done[|done| - 1];
      if BoxSum(prev.1, boxes) + BoxesOf(boxes, b) > maxBoxes && prev.1 != [] then (prev.0 + [prev.1], [b])
      else (prev.0, prev.1 + [b])
  }

  /** The loop state after any prefix of the blocks satisfies the page conditions. */
  lemma {:induction false} GreedyPartial(done: seq<real>, boxes: map<real, nat>, maxBoxes: int)
    ensures PartialPacking(Greedy(done, boxes, maxBoxes).0, Greedy(done, boxes, maxBoxes).1, done, boxes, maxBoxes)
    decreases |done|
  {
    if done != [] {
      var n := |done| - 1;
      GreedyPartial(done[..n], boxes, maxBoxes);
      var prev := Greedy(done[..n], boxes, maxBoxes);
      PackStep(prev.0, prev.1, done[..n], done[n], boxes, maxBoxes);
      assert done[..n] + [done[n]] == done;
    }
  }

  /**
   * The state of the packing loop after the blocks `done`: closed pages, the open page
   * `current` (empty only before the first block), and the page conditions so far.
   */
  predicate PartialPacking(pages: seq<seq<real>>, current: seq<real>, done: seq<real>, boxes: map<real, nat>, maxBoxes: int) {
    && Flatten(pages) + current == done
    && (done == [] ==> pages == [] && current == [])
    && (done != [] ==> current != [])
    && (|current| <= 1 || BoxSum(current, boxes) <= maxBoxes)
    && PagesOk(pages, boxes, maxBoxes)
    && (pages != [] && current != [] ==> BoxSum(pages[|pages| - 1], boxes) + BoxesOf(boxes, current[0]) > maxBoxes)
  }

  /** One block of the loop: it closes the open page when the block does not fit on it, and joins the open page otherwise. */
  lemma PackStep(pages: seq<seq<real>>, current: seq<real>, done: seq<real>, b: real, boxes: map<real, nat>, maxBoxes: int)
    requires PartialPacking(pages, current, done, boxes, maxBoxes)
    ensures BoxSum(current, boxes) + BoxesOf(boxes, b) > maxBoxes && current != [] ==>
              PartialPacking(pages + [current], [b], done + [b], boxes, maxBoxes)
    ensures !(BoxSum(current, boxes) + BoxesOf(boxes, b) > maxBoxes && current != []) ==>
              PartialPacking(pages, current + [b], done + [b], boxes, maxBoxes)
  {
    BoxSumSnoc(current, b, boxes);
    if BoxSum(current, boxes) + BoxesOf(boxes, b) > maxBoxes && current != [] {
      FlattenAppend(pages, current);
      PagesOkAppend(pages, current, boxes, maxBoxes);
      var ps := pages + [current];
      assert ps[|ps| - 1] == current;
    } else {
      assert Flatten(pages) + (current + [b]) == done + [b];
      if current != [] {
        assert (current + [b])[0] == current[0];
      }
    }
  }

  /** Closing the open page at the end of the blocks gives a greedy packing. */
  lemma FinishPacking(pages: seq<seq<real>>, current: seq<real>, blocks: seq<real>, boxes: map<real, nat>, maxBoxes: int)
    requires PartialPacking(pages, current, blocks, boxes, maxBoxes)
    ensures current == [] ==> IsGreedyPacking(pages, blocks, boxes, maxBoxes)
    ensures current != [] ==> IsGreedyPacking(pages + [current], blocks, boxes, maxBoxes)
  {
    if current != [] {
      FlattenAppend(pages, current);
      PagesOkAppend(pages, current, boxes, maxBoxes);
    }
  }

  /** A prefix of a page holds no more boxes than the page. */
  lemma {:induction false} BoxSumPrefix(page: seq<real>, boxes: map<real, nat>, k: nat)
    requires k <= |page|
    ensures BoxSum(page[..k], boxes) <= BoxSum(page, boxes)
    decreases |page|
  {
    if k < |page| {
      var n := |page| - 1;
      BoxSumPrefix(page[..n], boxes, k);
      assert page[..n][..k] == page[..k];
    } else {
      assert page[..k] == page;
    }
  }

  /** The first page of a greedy packing is as long as the first page of any other. */
  lemma FirstPageMaximal(p: seq<seq<real>>, q: seq<seq<real>>, blocks: seq<real>, boxes: map<real, nat>, maxBoxes: int)
    requires IsGreedyPacking(p, blocks, boxes, maxBoxes) && IsGreedyPacking(q, blocks, boxes, maxBoxes)
    requires p != [] && q != []
    ensures |q[0]| <= |p[0]|
  {
    var a, b := p[0], q[0];
    assert blocks == a + Flatten(p[1..]);
    assert blocks == b + Flatten(q[1..]);
    if |a| < |b| {
      var next := blocks[|a|];
      assert Flatten(p[1..]) != [];
      assert p[1..] != [];
      assert Flatten(p[1..]) == p[1] + Flatten(p[2..]) by {
        assert p[1..][1..] == p[2..];
      }
      assert p[1][0] == next;
      assert BoxSum(a, boxes) + BoxesOf(boxes, next) > maxBoxes;
      assert a == blocks[..|a|] && b[..|a| + 1] == blocks[..|a| + 1];
      assert b[..|a| + 1] == a + [next];
      assert (a + [next])[..|a|] == a;
      BoxSumPrefix(b, boxes, |a| + 1);
      assert false;
    }
  }

  /** Dropping the first page of a greedy packing leaves a greedy packing of the remaining blocks. */
  lemma RestIsGreedy(p: seq<seq<real>>, blocks: seq<real>, boxes: map<real, nat>, maxBoxes: int)
    requires IsGreedyPacking(p, blocks, boxes, maxBoxes) && p != []
    ensures |p[0]| <= |blocks| && IsGreedyPacking(p[1..], blocks[|p[0]|..], boxes, maxBoxes)
  {
    assert blocks == p[0] + Flatten(p[1..]);
    assert forall i :: 1 <= i < |p[1..]| ==> p[1..][i - 1] == p[i];
  }

  /** Greedy packing is determined by the blocks, the box counts and the limit. */
  lemma {:induction false} GreedyPackingUnique(p: seq<seq<real>>, q: seq<seq<real>>, blocks: seq<real>,
                                              boxes: map<real, nat>, maxBoxes: int)
    requires IsGreedyPacking(p, blocks, boxes, maxBoxes) && IsGreedyPacking(q, blocks, boxes, maxBoxes)
    ensures p == q
    decreases |blocks|
  {
    if p != [] && q != [] {
      FirstPageMaximal(p, q, blocks, boxes, maxBoxes);
      FirstPageMaximal(q, p, blocks, boxes, maxBoxes);
      var n := |p[0]|;
      assert p[0] == blocks[..n] && q[0] == blocks[..n] by {
        assert blocks == p[0] + Flatten(p[1..]);
        assert blocks == q[0] + Flatten(q[1..]);
      }
      RestIsGreedy(p, blocks, boxes, maxBoxes);
      RestIsGreedy(q, blocks, boxes, maxBoxes);
      GreedyPackingUnique(p[1..], q[1..], blocks[n..], boxes, maxBoxes);
      assert p == [p[0]] + p[1..] && q == [q[0]] + q[1..];
    }
  }

  /** A page over the limit holds a single block; every other page is within it. */
  lemma PagesWithinLimit(pages: seq<seq<real>>, blocks: seq<real>, boxes: map<real, nat>, maxBoxes: int, i: nat)
    requires IsGreedyPacking(pages, blocks, boxes, maxBoxes) && i < |pages|
    requires BoxSum(pages[i], boxes) > maxBoxes
    ensures |pages[i]| == 1 && pages[i][0] in blocks
  {
    FlattenContains(pages, i);
  }

  lemma {:induction false} FlattenContains(pages: seq<seq<real>>, i: nat)
    requires i < |pages|
    ensures forall b :: b in pages[i] ==> b in Flatten(pages)
  {
    if i > 0 {
      FlattenContains(pages[1..], i - 1);
    }
  }

  /** The number of boxes of every block: the `cat_counts` dictionary. */
  function BlockBoxes(t: Table, blockVar: string, catVars: seq<string>): (m: map<real, nat>)
    requires WellFormed(t) && HasColumn(t, blockVar) && CatColumns(t, catVars)
    ensures m.Keys == set b | b in BlockValues(t, blockVar)
    ensures forall b :: b in m ==> m[b] == BoxCount(t, blockVar, catVars, b)
  {
    map b | b in BlockValues(t, blockVar) :: BoxCount(t, blockVar, catVars, b)
  }

  /** The loop that fills `cat_counts`, one block after the other. */
  method CountBoxes(t: Table, blockVar: string, catVars: seq<string>, blocks: seq<real>) returns (counts: map<real, nat>)
    requires WellFormed(t) && HasColumn(t, blockVar) && CatColumns(t, catVars)
    ensures counts.Keys == set b | b in blocks
    ensures forall b :: b in counts ==> counts[b] == BoxCount(t, blockVar, catVars, b)
  {
    counts := map[];
    for i := 0 to |blocks|
      invariant counts.Keys == set b | b in blocks[..i]
      invariant forall b :: b in counts ==> counts[b] == BoxCount(t, blockVar, catVars, b)
    {
      assert blocks[..i + 1] == blocks[..i] + [blocks[i]];
      counts := counts[blocks[i] := BoxCount(t, blockVar, catVars, blocks[i])];
    }
    assert blocks[..|blocks|] == blocks;
  }

  /** `str(val)` for every value of a page, in order. */
  function Shown(page: seq<real>, show: real -> string): (ws: seq<string>)
    ensures |ws| == |page| && forall i :: 0 <= i < |page| ==> ws[i] == show(page[i])
  {
    seq(|page|, i requires 0 <= i < |page| => show(page[i]))
  }

  /**
   * `f"{block_var} IN ({', '.join(str(val) for val in page)})"`: the expression names the
   * block column, then lists the page's values between parentheses.
   */
  function FilterExpression(blockVar: string, page: seq<real>, show: real -> string): (e: string)
    ensures |e| >= |blockVar| + 5
    ensures e[..|blockVar| + 5] == blockVar + " IN ("
    ensures e[|e| - 1] == ')'
    ensures page == [] ==> e == blockVar + " IN ()"
    ensures |page| == 1 ==> e == blockVar + " IN (" + show(page[0]) + ")"
  {
    var e := blockVar + " IN (" + Join(", ", Shown(page, show)) + ")";
    assert e == (blockVar + " IN (") + (Join(", ", Shown(page, show)) + ")");
    e
  }

  /**
   * One more value on a page adds `, ` and that value before the closing parenthesis, so
   * the values appear in page order, separated by `, `.
   */
  lemma FilterExpressionSnoc(blockVar: string, page: seq<real>, v: real, show: real -> string)
    requires page != []
    ensures var e := FilterExpression(blockVar, page, show);
            FilterExpression(blockVar, page + [v], show) == e[..|e| - 1] + ", " + show(v) + ")"
  {
    var pre, ws := blockVar + " IN (", Shown(page, show);
    assert Shown(page + [v], show) == ws + [show(v)];
    JoinSnoc(", ", ws, show(v));
    var e := FilterExpression(blockVar, page, show);
    assert e == (pre + Join(", ", ws)) + ")";
    assert e[..|e| - 1] == pre + Join(", ", ws);
  }

  /** The loop that turns every page into its filter expression. */
  method FilterExpressions(blockVar: string, pages: seq<seq<real>>, show: real -> string) returns (exprs: seq<string>)
    ensures |exprs| == |pages|
    ensures forall i :: 0 <= i < |pages| ==> exprs[i] == FilterExpression(blockVar, pages[i], show)
  {
    exprs := [];
    for i := 0 to |pages|
      invariant |exprs| == i
      invariant forall k :: 0 <= k < i ==> exprs[k] == FilterExpression(blockVar, pages[k], show)
    {
      exprs := exprs + [FilterExpression(blockVar, pages[i], show)];
    }
  }

  /**
   * `boxplot_block_ranges(df, block_var, cat_vars, max_boxes_per_page)`: one filter
   * expression per page of the greedy packing of the sorted block values, each block
   * weighing its number of boxes.  `show` is Python's `str` on a block value.
   */
  method SparkBoxplotBlockRanges(t: Table, blockVar: string, catVars: seq<string>, maxBoxes: int,
                                 show: real -> string) returns (exprs: seq<string>, ghost pages: seq<seq<real>>)
    requires WellFormed(t) && HasColumn(t, blockVar) && CatColumns(t, catVars)
    requires forall c :: c in ColumnValues(t, blockVar) ==> c.Num?
    ensures IsGreedyPacking(pages, BlockValues(t, blockVar), BlockBoxes(t, blockVar, catVars), maxBoxes)
    ensures |exprs| == |pages|
    ensures forall i :: 0 <= i < |pages| ==> exprs[i] == FilterExpression(blockVar, pages[i], show)
    ensures exprs == [] <==> t.rows == []
  {
    var blocks := BlockValues(t, blockVar);
    var counts := CountBoxes(t, blockVar, catVars, blocks);
    assert counts == BlockBoxes(t, blockVar, catVars);
    var packed := PackPages(blocks, counts, maxBoxes);
    pages := packed;
    exprs := FilterExpressions(blockVar, packed, show);
    NoPagesIffNoBlocks(packed, blocks);
    if t.rows != [] {
      var first := ColumnValues(t, blockVar)[0];
      assert first in ColumnValues(t, blockVar);
      assert first.value in blocks;
    }
  }

  /** A packing has no page exactly when there is no block, since no page is empty. */
  lemma NoPagesIffNoBlocks(pages: seq<seq<real>>, blocks: seq<real>)
    requires Flatten(pages) == blocks
    requires forall i :: 0 <= i < |pages| ==> pages[i] != []
    ensures pages == [] <==> blocks == []
  {
    if pages != [] {
      assert pages[0] != [];
    }
  }

  // ---------------------------------------------------------------------------------------
  // detect_outliers
  // ---------------------------------------------------------------------------------------

  /** The Spark outlier expression, row by row. */
  function SparkOutlierColumn(t: Table, measureVar: string, lowVar: string, highVar: string): (vs: seq<Cell>)
    requires WellFormed(t) && HasColumn(t, measureVar) && HasColumn(t, lowVar) && HasColumn(t, highVar)
    ensures |vs| == |t.rows|
    ensures forall i :: 0 <= i < |t.rows| ==>
              var m := ColumnValues(t, measureVar)[i];
              var lo := ColumnValues(t, lowVar)[i];
              var hi := ColumnValues(t, highVar)[i];
              && (vs[i] == Missing || vs[i] == m)
              && (vs[i] != Missing <==> m.Num? && ((lo.Num? && m.value < lo.value) || (hi.Num? && m.value > hi.value)))
  {
    var m, lo, hi := ColumnValues(t, measureVar), ColumnValues(t, lowVar), ColumnValues(t, highVar);
    seq(|t.rows|, i requires 0 <= i < |t.rows| => OutlierValue(m[i], lo[i], hi[i]))
  }

  /**
   * `detect_outliers(df, measure_var, low_var, high_var)`: `withColumn` of
   * `<measure>_outlier`, of the measure's type; every other column keeps its values.
   */
  function SparkDetectOutliers(t: Table, measureVar: string, lowVar: string, highVar: string): (r: Table)
    requires WellFormed(t) && HasColumn(t, measureVar) && HasColumn(t, lowVar) && HasColumn(t, highVar)
    ensures WellFormed(r) && |r.rows| == |t.rows|
    ensures |r.header| == |t.header| + (if HasColumn(t, Boxplot.OutlierName(measureVar)) then 0 else 1)
    ensures HasColumn(r, Boxplot.OutlierName(measureVar))
    ensures !HasColumn(t, Boxplot.OutlierName(measureVar)) ==> r.header[|t.header|].name == Boxplot.OutlierName(measureVar)
    ensures DTypeOf(r, Boxplot.OutlierName(measureVar)) == DTypeOf(t, measureVar)
    ensures ColumnValues(r, Boxplot.OutlierName(measureVar)) == SparkOutlierColumn(t, measureVar, lowVar, highVar)
    ensures forall k :: 0 <= k < |t.header| && t.header[k].name != Boxplot.OutlierName(measureVar) ==>
              r.header[k] == t.header[k]
    ensures forall i, k :: 0 <= i < |t.rows| && 0 <= k < |t.header| && t.header[k].name != Boxplot.OutlierName(measureVar) ==>
              r.rows[i][k] == t.rows[i][k]
  {
    SetColumn(t, Boxplot.OutlierName(measureVar), DTypeOf(t, measureVar),
              SparkOutlierColumn(t, measureVar, lowVar, highVar))
  }

  /** With both limit columns present, the Spark and the pandas outlier columns hold the same values. */
  lemma SparkOutliersAgree(t: Table, measureVar: string, lowVar: string, highVar: string)
    requires WellFormed(t) && HasColumn(t, measureVar) && HasColumn(t, lowVar) && HasColumn(t, highVar)
    requires lowVar != "" && highVar != ""
    ensures SparkOutlierColumn(t, measureVar, lowVar, highVar)
            == Boxplot.OutlierColumn(t, measureVar, Some(lowVar), Some(highVar))
  {
    var a := SparkOutlierColumn(t, measureVar, lowVar, highVar);
    var b := Boxplot.OutlierColumn(t, measureVar, Some(lowVar), Some(highVar));
    assert Boxplot.LimitUsed(t, Some(lowVar)) && Boxplot.LimitUsed(t, Some(highVar));
    assert forall i :: 0 <= i < |t.rows| ==> a[i] == b[i];
  }
}

=== FILE: strings.dfy ===
/** String helpers used by the modelled code: ASCII lower-casing, suffix tests, joining, splitting. */
module Strings {

  /** `c.lower()` for ASCII letters; every other character is unchanged. */
  function LowerChar(c: char): char {
    if 'A' <= c <= 'Z' then (c as int + 32) as char else c
  }

  /** `s.lower()` over ASCII. */
  function Lower(s: string): (r: string)
    ensures |r| == |s| && forall i :: 0 <= i < |s| ==> r[i] == LowerChar(s[i])
  {
    seq(|s|, i requires 0 <= i < |s| => LowerChar(s[i]))
  }

  /** Lower-casing twice is lower-casing once. */
  lemma LowerIdempotent(s: string)
    ensures Lower(Lower(s)) == Lower(s)
  {
    assert forall i :: 0 <= i < |s| ==> LowerChar(LowerChar(s[i])) == LowerChar(s[i]);
  }

  /** Lower-casing commutes with taking a suffix. */
  lemma LowerSuffix(s: string, k: nat)
    requires k <= |s|
    ensures Lower(s)[k..] == Lower(s[k..])
  {
  }

  /** `s.endswith(suffix)` */
  predicate EndsWith(s: string, suffix: string) {
    |suffix| <= |s| && s[|s| - |suffix|..] == suffix
  }

  /** `s.rfind(c)`: the last position of `c`, or -1. */
  function LastIndex(s: string, c: char): (k: int)
    ensures -1 <= k < |s|
    ensures k >= 0 ==> s[k] == c
    ensures forall j :: k < j < |s| ==> s[j] != c
  {
    if s == [] then -1
    else if s[|s| - 1] == c then |s| - 1
    else LastIndex(s[..|s| - 1], c)
  }

  /** `sep.join(parts)` */
  function Join(sep: string, parts: seq<string>): string {
    if parts == [] then ""
    else if |parts| == 1 then parts[0]
    else parts[0] + sep + Join(sep, parts[1..])
  }

  /** Joining one more part appends the separator and that part. */
  lemma {:induction false} JoinSnoc(sep: string, parts: seq<string>, p: string)
    requires parts != []
    ensures Join(sep, parts + [p]) == Join(sep, parts) + sep + p
    decreases |parts|
  {
    if |parts| == 1 {
      assert parts + [p] == [parts[0], p];
      assert [parts[0], p][1..] == [p];
    } else {
      assert (parts + [p])[1..] == parts[1..] + [p];
      JoinSnoc(sep, parts[1..], p);
    }
  }

  /** The total length of a list of strings. */
  function TotalLength(parts: seq<string>): nat {
    if parts == [] then 0 else |parts[0]| + TotalLength(parts[1..])
  }

  /** A join holds every part plus one separator between each neighbouring pair. */
  lemma {:induction false} JoinLength(sep: string, parts: seq<string>)
    requires parts != []
    ensures |Join(sep, parts)| == TotalLength(parts) + (|parts| - 1) * |sep|
    decreases |parts|
  {
    if |parts| > 1 {
      JoinLength(sep, parts[1..]);
    }
  }

  /**
   * The characters `str.split()` treats as whitespace, restricted to ASCII: space, tab,
   * line feed, carriage return, vertical tab, form feed and the separators 0x1C-0x1F.
   */
  predicate IsSpace(c: char) {
    c == ' ' || c == '\t' || c == '\n' || c == '\r' || c == '\U{B}' || c == '\U{C}'
    || ('\U{1C}' <= c <= '\U{1F}')
  }

  /** The parts of a list of strings, one after another. */
  function Concat(parts: seq<string>): string {
    if parts == [] then "" else parts[0] + Concat(parts[1..])
  }

  /** `s` with every whitespace character removed. */
  function NonSpace(s: string): string {
    if s == [] then "" else (if IsSpace(s[0]) then "" else [s[0]]) + NonSpace(s[1..])
  }

  lemma {:induction false} NonSpaceAppend(a: string, b: string)
    ensures NonSpace(a + b) == NonSpace(a) + NonSpace(b)
  {
    if a == [] {
      assert a + b == b;
    } else {
      assert (a + b)[0] == a[0] && (a + b)[1..] == a[1..] + b;
      NonSpaceAppend(a[1..], b);
    }
  }

  lemma {:induction false} NonSpaceWord(w: string)
    requires forall i :: 0 <= i < |w| ==> !IsSpace(w[i])
    ensures NonSpace(w) == w
  {
    if w != [] {
      NonSpaceWord(w[1..]);
    }
  }

  /**
   * `s.split()` with no argument: non-empty words free of whitespace which, put back
   * together, are `s` without its whitespace.
   */
  function SplitWhitespace(s: string): (words: seq<string>)
    ensures forall w :: w in words ==> w != [] && forall c :: c in w ==> !IsSpace(c)
    ensures Concat(words) == NonSpace(s)
    decreases |s|
  {
    if s == [] then []
    else if IsSpace(s[0]) then SplitWhitespace(s[1..])
    else
      var n := WordLength(s);
      var rest := SplitWhitespace(s[n..]);
      assert ([s[..n]] + rest)[1..] == rest;
      assert s[..n] + s[n..] == s;
      NonSpaceAppend(s[..n], s[n..]);
      NonSpaceWord(s[..n]);
      [s[..n]] + rest
  }

  /** The length of the non-whitespace run that starts `s`. */
  function WordLength(s: string): (n: nat)
    ensures n <= |s|
    ensures forall i :: 0 <= i < n ==> !IsSpace(s[i])
    ensures n < |s| ==> IsSpace(s[n])
    ensures s != [] && !IsSpace(s[0]) ==> n > 0
  {
    if s == [] || IsSpace(s[0]) then 0 else 1 + WordLength(s[1..])
  }
}

=== FILE: test_helpers.dfy ===
/**
 * The parity-test helpers: a validator that decides whether two tables are equal up to
 * row order, column order and numeric tolerance, and the structural part of the comparison
 * report (row and column counts, column partition, per-column mean agreement, key overlap).
 */
module TestHelpers {
  import opened Wrappers
  import opened Frames
  import opened Reals
  import opened RowOrder
  import PhuseUtils

  // ---------------------------------------------------------------------------------------
  // assert_frame_equalish
  // ---------------------------------------------------------------------------------------

  /**
   * `np.testing.assert_allclose(actual, desired, rtol, atol, equal_nan=True)` on one pair of
   * cells: both missing, or both numbers with `|actual - desired| <= atol + rtol * |desired|`.
   */
  predicate NumClose(x: Cell, y: Cell, atol: real, rtol: real) {
    || (x == Missing && y == Missing)
    || (x.Num? && y.Num? && Abs(x.value - y.value) <= atol + rtol * Abs(y.value))
  }

  /**
   * `astype("string").fillna("<NA>")` on one cell of a column of dtype `d`; `show(d, x)` is
   * the string form of a number in such a column (`1` for an integer column, `1.0` for a
   * float one).
   */
  function Rendered(c: Cell, d: DType, show: (DType, real) -> string): string {
    match c
    case Missing => "<NA>"
    case Num(x) => show(d, x)
    case Text(s) => s
  }

  /** The column checks of the validator: tolerance when both dtypes are numeric, rendered strings otherwise. */
  predicate ColumnAgrees(a: Table, b: Table, name: string, atol: real, rtol: real, show: (DType, real) -> string)
    requires WellFormed(a) && WellFormed(b) && HasColumn(a, name) && HasColumn(b, name)
    requires |a.rows| == |b.rows|
  {
    var xs, ys := ColumnValues(a, name), ColumnValues(b, name);
    if IsNumericType(DTypeOf(a, name)) && IsNumericType(DTypeOf(b, name)) then
      forall i :: 0 <= i < |xs| ==> NumClose(xs[i], ys[i], atol, rtol)
    else
      forall i :: 0 <= i < |xs| ==> Rendered(xs[i], DTypeOf(a, name), show) == Rendered(ys[i], DTypeOf(b, name), show)
  }

  /** `sort_values(sort_by)` when `sort_by` is given (missing keys last), the table itself otherwise. */
  function SortedFor(t: Table, sortBy: seq<string>): (r: Table)
    requires WellFormed(t) && forall n :: n in sortBy ==> HasColumn(t, n)
    ensures WellFormed(r) && r.header == t.header && |r.rows| == |t.rows|
    ensures multiset(r.rows) == multiset(t.rows)
    ensures sortBy == [] ==> r == t
    ensures sortBy != [] ==> (forall n :: n in sortBy ==> n in NameSet(t.header))
                             && SortedBy(r.rows, Positions(t.header, sortBy), false)
  {
    if sortBy == [] then t
    else
      forall n | n in sortBy ensures n in NameSet(t.header) {
        assert HasColumn(t, n);
      }
      var r := SortTable(t, sortBy, false);
      assert |multiset(r.rows)| == |multiset(t.rows)|;
      r
  }

  /** The columns of `a`, in order, all exist in `b` and agree there. */
  predicate ColumnsAgree(a: Table, b: Table, upTo: nat, atol: real, rtol: real, show: (DType, real) -> string)
    requires WellFormed(a) && WellFormed(b) && |a.rows| == |b.rows| && upTo <= |a.header|
  {
    forall k :: 0 <= k < upTo ==>
      && HasColumn(a, a.header[k].name) && HasColumn(b, a.header[k].name)
      && ColumnAgrees(a, b, a.header[k].name, atol, rtol, show)
  }

  /**
   * The tables are equal-ish: after the optional sort they have as many rows, the same
   * column names, and every column of `a` agrees with the column of `b` of that name.
   */
  predicate FramesEqualish(a: Table, b: Table, atol: real, rtol: real, sortBy: seq<string>, show: (DType, real) -> string)
    requires WellFormed(a) && WellFormed(b)
    requires forall n :: n in sortBy ==> HasColumn(a, n) && HasColumn(b, n)
  {
    var sa, sb := SortedFor(a, sortBy), SortedFor(b, sortBy);
    && |sa.rows| == |sb.rows|
    && NameSet(sa.header) == NameSet(sb.header)
    && ColumnsAgree(sa, sb, |sa.header|, atol, rtol, show)
  }

  /**
   * The string check renders a number by its column's dtype: a number `v` in a column of
   * dtype `d` agrees with the text `show(d, v)` in an object column. So an integer `1` can
   * agree with `"1"` while a float `1.0` agrees with `"1.0"`.
   */
  lemma RenderingFollowsDType(d: DType, v: real, show: (DType, real) -> string)
    ensures var a := Table([Column("X", d)], [[Num(v)]]);
            var b := Table([Column("X", Object)], [[Text(show(d, v))]]);
            WellFormed(a) && WellFormed(b) && FramesEqualish(a, b, 0.0, 0.0, [], show)
  {
    var a := Table([Column("X", d)], [[Num(v)]]);
    var b := Table([Column("X", Object)], [[Text(show(d, v))]]);
    assert IndexOf(a.header, "X") == 0 && IndexOf(b.header, "X") == 0;
    assert WellFormed(a) && WellFormed(b);
    assert SortedFor(a, []) == a && SortedFor(b, []) == b;
    assert ColumnAgrees(a, b, "X", 0.0, 0.0, show);
  }

  /** The outcome of `assert_frame_equalish`: silence, or the assertion that fails. */
  datatype Verdict =
    | Equalish
    | RowCountsDiffer(countA: nat, countB: nat)
    | ColumnSetsDiffer(onlyInA: set<string>, onlyInB: set<string>)
    | ValuesDiffer(column: string)

  /** A column of `a` exists in `b` once the name sets are known to be equal. */
  lemma SharedColumn(a: Table, b: Table, k: nat)
    requires k < |a.header| && NameSet(a.header) == NameSet(b.header)
    ensures HasColumn(a, a.header[k].name) && HasColumn(b, a.header[k].name)
  {
    assert a.header[k] in a.header;
  }

  /**
   * `assert_frame_equalish(a, b, abs_tol=, rel_tol=, sort_by=)`: sorts both tables when
   * `sort_by` is given, then fails on a row-count difference, then on a column-set
   * difference, then on the first column of `a`, in `a`'s order, whose values disagree.
   */
  method AssertFrameEqualish(a: Table, b: Table, atol: real, rtol: real, sortBy: seq<string>, show: (DType, real) -> string)
    returns (v: Verdict)
    requires WellFormed(a) && WellFormed(b)
    requires forall n :: n in sortBy ==> HasColumn(a, n) && HasColumn(b, n)
    ensures v == Equalish <==> FramesEqualish(a, b, atol, rtol, sortBy, show)
    ensures v.RowCountsDiffer? <==> |a.rows| != |b.rows|
    ensures v.RowCountsDiffer? ==> v.countA == |a.rows| && v.countB == |b.rows|
    ensures v.ColumnSetsDiffer? <==> |a.rows| == |b.rows| && NameSet(a.header) != NameSet(b.header)
    ensures v.ColumnSetsDiffer? ==>
              v.onlyInA == NameSet(a.header) - NameSet(b.header) && v.onlyInB == NameSet(b.header) - NameSet(a.header)
    ensures v.ValuesDiffer? ==>
              && |a.rows| == |b.rows| && NameSet(a.header) == NameSet(b.header)
              && exists k :: 0 <= k < |a.header| && a.header[k].name == v.column
                             && ColumnsAgree(SortedFor(a, sortBy), SortedFor(b, sortBy), k, atol, rtol, show)
                             && !ColumnAgrees(SortedFor(a, sortBy), SortedFor(b, sortBy), v.column, atol, rtol, show)
  {
    var sa, sb := SortedFor(a, sortBy), SortedFor(b, sortBy);
    if |sa.rows| != |sb.rows| {
      return RowCountsDiffer(|sa.rows|, |sb.rows|);
    }
    var na, nb := NameSet(sa.header), NameSet(sb.header);
    if na != nb {
      return ColumnSetsDiffer(na - nb, nb - na);
    }
    for k := 0 to |sa.header|
      invariant ColumnsAgree(sa, sb, k, atol, rtol, show)
    {
      var name := sa.header[k].name;
      SharedColumn(sa, sb, k);
      if !ColumnAgrees(sa, sb, name, atol, rtol, show) {
        return ValuesDiffer(name);
      }
    }
    return Equalish;
  }

  /** A column of numeric dtype holds numbers and missing values only. */
  predicate NumericColumnsHoldNumbers(t: Table) {
    forall row: Row, k :: row in t.rows && 0 <= k < |t.header| && k < |row| && IsNumericType(t.header[k].dtype) ==> !row[k].Text?
  }

  /** Every cell agrees with itself under non-negative tolerances, in a column of either kind. */
  lemma ColumnAgreesWithItself(t: Table, name: string, atol: real, rtol: real, show: (DType, real) -> string)
    requires WellFormed(t) && HasColumn(t, name) && NumericColumnsHoldNumbers(t)
    requires atol >= 0.0 && rtol >= 0.0
    ensures ColumnAgrees(t, t, name, atol, rtol, show)
  {
    var xs := ColumnValues(t, name);
    var j := IndexOf(t.header, name);
    if IsNumericType(t.header[j].dtype) {
      forall i | 0 <= i < |xs| ensures NumClose(xs[i], xs[i], atol, rtol) {
        assert t.rows[i] in t.rows;
        if xs[i].Num? {
          assert Abs(xs[i].value - xs[i].value) == 0.0;
          assert rtol * Abs(xs[i].value) >= 0.0;
        }
      }
    }
  }

  /** A table is equal-ish to itself whenever the tolerances are not negative. */
  lemma EqualishReflexive(a: Table, atol: real, rtol: real, sortBy: seq<string>, show: (DType, real) -> string)
    requires WellFormed(a) && forall n :: n in sortBy ==> HasColumn(a, n)
    requires NumericColumnsHoldNumbers(a)
    requires atol >= 0.0 && rtol >= 0.0
    ensures FramesEqualish(a, a, atol, rtol, sortBy, show)
  {
    var sa := SortedFor(a, sortBy);
    assert NumericColumnsHoldNumbers(sa) by {
      forall row | row in sa.rows ensures row in a.rows {
        assert row in multiset(sa.rows);
      }
    }
    forall k | 0 <= k < |sa.header|
      ensures HasColumn(sa, sa.header[k].name) && ColumnAgrees(sa, sa, sa.header[k].name, atol, rtol, show)
    {
      SharedColumn(sa, sa, k);
      ColumnAgreesWithItself(sa, sa.header[k].name, atol, rtol, show);
    }
  }

  // ---------------------------------------------------------------------------------------
  // create_comparison_report
  // ---------------------------------------------------------------------------------------

  /** One `row_counts` / `column_counts` entry. */
  datatype CountComparison = CountComparison(countA: nat, countB: nat, matches: bool, diff: nat)

  function CompareCounts(x: nat, y: nat): (c: CountComparison)
    ensures c.countA == x && c.countB == y
    ensures c.matches <==> x == y
    ensures c.diff == 0 <==> x == y
    ensures x + c.diff == y || y + c.diff == x
  {
    CountComparison(x, y, x == y, if x >= y then x - y else y - x)
  }

  /** The statistics of one column of one table; the standard deviation is not modelled. */
  datatype Summary = Summary(mean: Option<real>, min: Option<real>, max: Option<real>, count: nat, nullCount: nat)

  /** `series.isna().sum()` */
  function CountMissing(cells: seq<Cell>): nat {
    if cells == [] then 0 else (if cells[0] == Missing then 1 else 0) + CountMissing(cells[1..])
  }

  predicate NoText(cells: seq<Cell>) {
    forall c :: c in cells ==> !c.Text?
  }

  /** In a column without text, the numbers and the missing cells account for every row. */
  lemma {:induction false} CountsCoverColumn(cells: seq<Cell>)
    requires NoText(cells)
    ensures |Numbers(cells)| + CountMissing(cells) == |cells|
  {
    if cells != [] {
      assert forall c :: c in cells[1..] ==> c in cells;
      CountsCoverColumn(cells[1..]);
    }
  }

  /** The statistics of the cells: mean, min and max of the numbers when there are any. */
  function Summarize(cells: seq<Cell>): (s: Summary)
    ensures s.count == |Numbers(cells)| && s.nullCount == CountMissing(cells)
    ensures s.mean.Some? <==> s.count > 0
    ensures s.min.Some? <==> s.count > 0
    ensures s.max.Some? <==> s.count > 0
    ensures s.min.Some? ==> Num(s.min.value) in cells && forall c :: c in cells && c.Num? ==> s.min.value <= c.value
    ensures s.max.Some? ==> Num(s.max.value) in cells && forall c :: c in cells && c.Num? ==> c.value <= s.max.value
  {
    var xs := Numbers(cells);
    if xs == [] then Summary(None, None, None, 0, CountMissing(cells))
    else
      PhuseUtils.NumbersRange(cells);
      Summary(Some(Sum(xs) / (|xs| as real)), Some(MinOf(xs)), Some(MaxOf(xs)), |xs|, CountMissing(cells))
  }

  /** One `numeric_comparison` entry. */
  datatype NumericEntry = NumericEntry(summaryA: Summary, summaryB: Summary,
                                       meanAbsDiff: Option<real>, meanRelDiff: Option<real>, withinTolerance: bool)

  /**
   * The mean comparison: the absolute difference when both means exist, the relative one
   * when moreover the first mean is not zero, and agreement when either is within its tolerance.
   */
  function CompareMeans(sa: Summary, sb: Summary, atol: real, rtol: real): (e: NumericEntry)
    ensures e.summaryA == sa && e.summaryB == sb
    ensures e.meanAbsDiff.Some? <==> sa.mean.Some? && sb.mean.Some?
    ensures e.meanAbsDiff.Some? ==> e.meanAbsDiff.value == Abs(sa.mean.value - sb.mean.value)
    ensures e.meanRelDiff.Some? <==> e.meanAbsDiff.Some? && sa.mean.value != 0.0
    ensures e.meanRelDiff.Some? ==> e.meanRelDiff.value * Abs(sa.mean.value) == e.meanAbsDiff.value
    ensures e.withinTolerance <==>
              e.meanAbsDiff.Some? && (e.meanAbsDiff.value <= atol || (e.meanRelDiff.Some? && e.meanRelDiff.value <= rtol))
  {
    var absDiff := if sa.mean.Some? && sb.mean.Some? then Some(Abs(sa.mean.value - sb.mean.value)) else None;
    var relDiff := if absDiff.Some? && sa.mean.value != 0.0 then Some(absDiff.value / Abs(sa.mean.value)) else None;
    var within := absDiff.Some? && (absDiff.value <= atol || (relDiff.Some? && relDiff.value <= rtol));
    NumericEntry(sa, sb, absDiff, relDiff, within)
  }

  function NumericEntryOf(a: Table, b: Table, col: string, atol: real, rtol: real): NumericEntry
    requires WellFormed(a) && WellFormed(b) && HasColumn(a, col) && HasColumn(b, col)
  {
    CompareMeans(Summarize(ColumnValues(a, col)), Summarize(ColumnValues(b, col)), atol, rtol)
  }

  /** The columns whose means are compared: the given ones that are common, or the common numeric ones. */
  function NumericChoice(a: Table, b: Table, numericCols: Option<seq<string>>): (cs: set<string>)
    ensures cs <= NameSet(a.header) * NameSet(b.header)
    ensures numericCols.Some? ==> forall c :: c in cs <==> c in numericCols.value && c in NameSet(a.header) * NameSet(b.header)
    ensures numericCols.None? ==> forall c :: c in cs <==>
              && c in NameSet(a.header) * NameSet(b.header)
              && IsNumericType(DTypeOf(a, c)) && IsNumericType(DTypeOf(b, c))
  {
    var common := NameSet(a.header) * NameSet(b.header);
    match numericCols
    case Some(cols) => set c | c in cols && c in common
    case None => set c | c in common && IsNumericType(DTypeOf(a, c)) && IsNumericType(DTypeOf(b, c))
  }

  /** The key columns compared: the given ones that are common; none when the list is absent or empty. */
  function KeyChoice(a: Table, b: Table, keyCols: Option<seq<string>>): (cs: set<string>)
    ensures cs <= NameSet(a.header) * NameSet(b.header)
    ensures forall c :: c in cs <==> keyCols.Some? && c in keyCols.value && c in NameSet(a.header) * NameSet(b.header)
  {
    match keyCols
    case Some(cols) => set c | c in cols && c in NameSet(a.header) * NameSet(b.header)
    case None => {}
  }

  /** The distinct non-missing values of a column: `set(series.dropna().unique())`. */
  function NonMissing(cells: seq<Cell>): set<Cell> {
    set c | c in cells && c != Missing
  }

  /** `r` lists `min(|s|, limit)` distinct elements of `s`: `list(s)[:limit]`. */
  predicate IsSample(r: seq<Cell>, s: set<Cell>, limit: nat) {
    && |r| == (if |s| < limit then |s| else limit)
    && (forall x :: x in r ==> x in s)
    && (forall i, j :: 0 <= i < j < |r| ==> r[i] != r[j])
  }

  /** One `key_comparison` entry. */
  datatype KeyEntry = KeyEntry(uniqueA: nat, uniqueB: nat, matches: bool,
                               onlyInA: seq<Cell>, onlyInB: seq<Cell>, commonCount: nat)

  /** What the key comparison of two value sets reports. */
  predicate IsKeyEntry(e: KeyEntry, xs: set<Cell>, ys: set<Cell>) {
    && e.uniqueA == |xs| && e.uniqueB == |ys|
    && (e.matches <==> |xs| == |ys|)
    && IsSample(e.onlyInA, xs - ys, 10) && IsSample(e.onlyInB, ys - xs, 10)
    && e.commonCount == |xs * ys|
  }

  /** `list(s)[:limit]`, the elements taken in an unspecified (set iteration) order. */
  method TakeUpTo(s: set<Cell>, limit: nat) returns (r: seq<Cell>)
    ensures IsSample(r, s, limit)
  {
    r := [];
    var rest := s;
    while |r| < limit && rest != {}
      invariant rest <= s && |r| + |rest| == |s| && |r| <= limit
      invariant forall x :: x in r <==> x in s && x !in rest
      invariant forall i, j :: 0 <= i < j < |r| ==> r[i] != r[j]
      decreases |rest|
    {
      var x :| x in rest;
      r := r + [x];
      rest := rest - {x};
    }
  }

  /** The comparison of one key column. */
  method CompareKeyColumn(a: Table, b: Table, col: string) returns (e: KeyEntry)
    requires WellFormed(a) && WellFormed(b) && HasColumn(a, col) && HasColumn(b, col)
    ensures IsKeyEntry(e, NonMissing(ColumnValues(a, col)), NonMissing(ColumnValues(b, col)))
  {
    var uniqueA := PhuseUtils.CountUniqueValues(a, col);
    var uniqueB := PhuseUtils.CountUniqueValues(b, col);
    var xs, ys := NonMissing(ColumnValues(a, col)), NonMissing(ColumnValues(b, col));
    var onlyA := TakeUpTo(xs - ys, 10);
    var onlyB := TakeUpTo(ys - xs, 10);
    e := KeyEntry(uniqueA, uniqueB, uniqueA == uniqueB, onlyA, onlyB, |xs * ys|);
  }

  /** The loop that fills `numeric_comparison`, one chosen column after another. */
  method CompareNumericColumns(a: Table, b: Table, chosen: set<string>, atol: real, rtol: real)
    returns (numeric: map<string, NumericEntry>)
    requires WellFormed(a) && WellFormed(b) && chosen <= NameSet(a.header) * NameSet(b.header)
    ensures numeric.Keys == chosen
    ensures forall c :: c in numeric ==> numeric[c] == NumericEntryOf(a, b, c, atol, rtol)
  {
    numeric := map[];
    var todo := chosen;
    while todo != {}
      invariant todo <= chosen && numeric.Keys == chosen - todo
      invariant forall c :: c in numeric ==> numeric[c] == NumericEntryOf(a, b, c, atol, rtol)
      decreases |todo|
    {
      var c :| c in todo;
      numeric := numeric[c := NumericEntryOf(a, b, c, atol, rtol)];
      todo := todo - {c};
    }
  }

  /** The loop that fills `key_comparison`, one chosen key column after another. */
  method CompareKeyColumns(a: Table, b: Table, keyed: set<string>) returns (keys: map<string, KeyEntry>)
    requires WellFormed(a) && WellFormed(b) && keyed <= NameSet(a.header) * NameSet(b.header)
    ensures keys.Keys == keyed
    ensures forall c :: c in keys ==> IsKeyEntry(keys[c], NonMissing(ColumnValues(a, c)), NonMissing(ColumnValues(b, c)))
  {
    keys := map[];
    var todo := keyed;
    while todo != {}
      invariant todo <= keyed && keys.Keys == keyed - todo
      invariant forall c :: c in keys ==> IsKeyEntry(keys[c], NonMissing(ColumnValues(a, c)), NonMissing(ColumnValues(b, c)))
      decreases |todo|
    {
      var c :| c in todo;
      var e := CompareKeyColumn(a, b, c);
      keys := keys[c := e];
      todo := todo - {c};
    }
  }

  /** The names only in the first table, only in the second, and in both partition all the names. */
  lemma NamePartition(x: set<string>, y: set<string>)
    ensures (x - y) + (y - x) + x * y == x + y
    ensures (x - y) !! (y - x) && (x - y) !! (x * y) && (y - x) !! (x * y)
    ensures (x - y == {} && y - x == {}) <==> x == y
  {
    if x - y == {} && y - x == {} {
      assert forall n :: n in x ==> n in y;
      assert forall n :: n in y ==> n in x;
    }
  }

  /** The structural comparison report. */
  datatype Report = Report(
    rowCounts: CountComparison, columnCounts: CountComparison,
    columnsOnlyInA: set<string>, columnsOnlyInB: set<string>, commonColumns: set<string>,
    numeric: map<string, NumericEntry>, keys: map<string, KeyEntry>, overallMatch: bool)

  /** Every compared numeric column is free of text, so its mean is defined. */
  predicate MeansDefined(a: Table, b: Table, cs: set<string>)
    requires WellFormed(a) && WellFormed(b) && cs <= NameSet(a.header) * NameSet(b.header)
  {
    forall c :: c in cs ==> NoText(ColumnValues(a, c)) && NoText(ColumnValues(b, c))
  }

  /**
   * `create_comparison_report(a, b, numeric_cols=, key_cols=, abs_tol=, rel_tol=)`: counts,
   * the partition of the column names, one mean comparison per chosen numeric column, one
   * key comparison per chosen key column, and the overall verdict.
   */
  method CreateComparisonReport(a: Table, b: Table, numericCols: Option<seq<string>>, keyCols: Option<seq<string>>,
                                atol: real, rtol: real) returns (r: Report)
    requires WellFormed(a) && WellFormed(b)
    requires MeansDefined(a, b, NumericChoice(a, b, numericCols))
    ensures r.rowCounts == CompareCounts(|a.rows|, |b.rows|)
    ensures r.columnCounts == CompareCounts(|a.header|, |b.header|)
    ensures r.columnsOnlyInA + r.columnsOnlyInB + r.commonColumns == NameSet(a.header) + NameSet(b.header)
    ensures r.columnsOnlyInA !! r.columnsOnlyInB && r.columnsOnlyInA !! r.commonColumns && r.columnsOnlyInB !! r.commonColumns
    ensures r.columnsOnlyInA <= NameSet(a.header) && r.columnsOnlyInB <= NameSet(b.header)
    ensures r.commonColumns == NameSet(a.header) * NameSet(b.header)
    ensures r.numeric.Keys == NumericChoice(a, b, numericCols)
    ensures forall c :: c in r.numeric ==> r.numeric[c] == NumericEntryOf(a, b, c, atol, rtol)
    ensures r.keys.Keys == KeyChoice(a, b, keyCols)
    ensures forall c :: c in r.keys ==> IsKeyEntry(r.keys[c], NonMissing(ColumnValues(a, c)), NonMissing(ColumnValues(b, c)))
    ensures r.overallMatch <==>
              && |a.rows| == |b.rows| && NameSet(a.header) == NameSet(b.header)
              && forall c :: c in r.numeric ==> r.numeric[c].withinTolerance
  {
    var na, nb := NameSet(a.header), NameSet(b.header);
    var common := na * nb;
    var chosen := NumericChoice(a, b, numericCols);
    var numeric := CompareNumericColumns(a, b, chosen, atol, rtol);
    var keys := CompareKeyColumns(a, b, KeyChoice(a, b, keyCols));
    NamePartition(na, nb);
    var rowMatch := |a.rows| == |b.rows|;
    var colMatch := na - nb == {} && nb - na == {};
    var numericMatch := forall c :: c in numeric ==> numeric[c].withinTolerance;
    r := Report(CompareCounts(|a.rows|, |b.rows|), CompareCounts(|a.header|, |b.header|),
                na - nb, nb - na, common, numeric, keys, rowMatch && colMatch && numericMatch);
  }

  /**
   * Comparing a table with itself: a mean is within tolerance exactly when the column holds
   * a number, so an all-missing numeric column makes a self-comparison a mismatch.
   */
  lemma SelfMeansWithinTolerance(a: Table, col: string, atol: real, rtol: real)
    requires WellFormed(a) && HasColumn(a, col) && atol >= 0.0
    ensures NumericEntryOf(a, a, col, atol, rtol).withinTolerance <==> Numbers(ColumnValues(a, col)) != []
  {
    var s := Summarize(ColumnValues(a, col));
    if s.mean.Some? {
      assert Abs(s.mean.value - s.mean.value) == 0.0;
    }
  }

  /** The statistics of a text-free column count every row once. */
  lemma SummaryCountsRows(a: Table, col: string)
    requires WellFormed(a) && HasColumn(a, col) && NoText(ColumnValues(a, col))
    ensures Summarize(ColumnValues(a, col)).count + Summarize(ColumnValues(a, col)).nullCount == |a.rows|
  {
    CountsCoverColumn(ColumnValues(a, col));
  }
}

=== FILE: wrappers.dfy ===
/** Failure-compatible wrappers used for the error paths of the modelled code. */
module Wrappers {

  /** A value that may be absent: Python's `None` versus a present value. */
  datatype Option<+T> = None | Some(value: T)

  /** The outcome of an operation that either returns a value or raises an error. */
  datatype Result<+T, +E> = Success(value: T) | Failure(error: E)
}
